=== FILE: README.md ===
# Genesis game engine, modelled in Dafny

Genesis is a small 2D shooter written in Python on top of pygame. Its
engine runs *scenes*. A scene is a dictionary describing:

- its objects;
- a queue of timed and recurring events;
- the keys it binds;
- the scenes that follow it.

In every frame the engine works in a fixed order:

1. it fires the events that are due;
2. it dispatches the input;
3. it lets every pair of active colliders collide once;
4. it updates every object;
5. it drops the objects that have become invisible;
6. it draws the survivors, highest priority first.

When a scene stops, the game picks the next scene. It takes the one listed under `game_over` or under `end_scene`, depending on a flag.

This project models that engine and the gameplay objects around it as
pure Dafny functions over immutable datatypes, and proves what they do.

- `scene.dfy`, module `Scene`: the event queue and `frame`, the collision scan
  (as recursive functions and as the nested loops of the source), object
  lookup, spawning with its stable priority sort, the update/visibility sweep,
  the draw order, the scene's scripted actions and `end_scene`. Objects are
  generic; what the scene asks of them (`update`, `collide_with`, `priority`,
  `visible`, ...) is an `Ops` record of functions.
- `game.dfy` and `keys.dfy`, modules `Game` and `Keys`: the key tables with the
  reserved Escape key, starting a scene, the per-tick order of work and the
  choice of the next scene.
- `collider.dfy`, module `Collider`: the collision tests over bounds tuples and the
  shape-pair dispatch table.
- `controllers.dfy`, module `Controllers`: the constant, sine and sigmoid-family
  movement controllers, with the curve taken as a parameter.
- `util.dfy`, `functions.dfy`, `notifications.dfy`: dot-path configuration lookup,
  `list_reverse`, deferred commands, the script's `Add`/`Sub`/random commands,
  and the `Notifier` with the `event_listener` decorator.
- One module per game object: `Sprite`, `Text`, `Stamp`, `Player`,
  `Killable`, `Score`, `Starfield`, `Enemy`, `Projectile`, `Shot`, `Asteroid`.
- Shared helpers: `Wrappers` (`Option`, `Result` and the Python exception kinds),
  `Vectors` (positions over exact reals), `PyNum` (`int()` and `//`),
  `Sorting` (Python's stable `list.sort(key=...)`) and `Seqs` (filtering
  comprehensions).

Python exceptions are `Err` results naming the exception. Randomness, the
explosion clock, the controllers' next values in the objects that use them,
object loading and rendering are parameters or left out (see below).

## Model

| member | source | states |
|---|---|---|
| Collider.Corners | engine/collider.py:16-19 | the four corners start at the rectangle's origin `(x, y)` |
| Collider.EllipseRect | engine/collider.py:9-20 | `ValueError` exactly when a bounds tuple does not have four entries, `ZeroDivisionError` exactly for a zero radius, otherwise a hit exactly when some corner's normalised distance is at most 0.9 |
| Collider.CornerLoopAsWritten | engine/collider.py:28-33 | the loop as written reports a hit exactly when there is a corner to visit and `(x, y)` lies inside the circle, whichever corner is visited |
| Collider.CornerLoop | engine/collider.py:28-33 | the corrected loop reports a hit exactly when some visited corner lies strictly inside the circle |
| Collider.CircleRectAsWritten | engine/collider.py:23-33 | as written: `ValueError` for tuples of the wrong length, otherwise a hit exactly when the top-left corner is inside the circle |
| Collider.CircleRect | engine/collider.py:23-33 | corrected: `ValueError` for tuples of the wrong length, otherwise a hit exactly when some corner of the rectangle lies strictly inside the circle |
| Collider.CircleCircle | engine/collider.py:36-43 | `ValueError` exactly when a tuple does not have three entries |
| Collider.RectRect | engine/collider.py:46-54 | `ValueError` exactly when a tuple does not have four entries |
| Collider.Invert | engine/collider.py:57-60 | the inverted test applied to `(a, b)` is the original applied to `(b, a)` |
| Collider.DidCollide | engine/collider.py:88-92 | a shape pair missing from the table gives `False`; a listed pair gives the table's test applied to the two objects' bounds in order; the table holds `circle_rect` as written |
| Collider.DidCollideCorrected | engine/collider.py:88-92 | corrected: the same lookup over the table holding the corrected `circle_rect` |
| Collider.RectRectTouchingEdges | engine/collider.py:50-54 | rectangles sharing an edge collide; half a unit apart they do not |
| Collider.RectRectSymmetric | engine/collider.py:46-54 | swapping the two rectangles does not change the answer |
| Collider.RectRectSharedPoint | engine/collider.py:46-54 | for sizes that are not negative, `rect_rect` holds exactly when the two closed rectangles share a point |
| Collider.CircleCircleTangent | engine/collider.py:40-43 | circles that just touch do not collide, overlapping ones do |
| Collider.CircleCircleSymmetric | engine/collider.py:36-43 | swapping the two circles does not change the answer |
| Collider.SquareMonotone | engine/collider.py:40-42 | squaring keeps the order of non-negative numbers |
| Collider.CircleCircleTranslated | engine/collider.py:36-43 | moving both circles by the same offset does not change the answer |
| Collider.CircleCircleCentreInside | engine/collider.py:36-43 | a circle of positive radius hits every circle of non-negative radius whose centre lies strictly inside it |
| Collider.CircleCircleApart | engine/collider.py:36-43 | circles of non-negative radius whose centres are at least the sum of the radii apart along either axis miss |
| Collider.EllipseRectThreshold | engine/collider.py:11-13 | a corner exactly on the ellipse does not count (threshold 0.9), a corner at the centre does, a zero radius raises |
| Collider.KeysOfTable | engine/collider.py:62-77 | the shape constants combine into exactly the table's keys |
| Collider.CircleRectMissesOtherCorners | engine/collider.py:28-31 | a circle around the top-right corner is reported as no hit by the loop as written, and as a hit by the corrected test |
| Collider.CircleRectAsWrittenIsWeaker | engine/collider.py:23-33 | every hit the loop as written reports, the corrected test reports too |
| Collider.DidCollideMirrored | engine/collider.py:67-73 | `rect_ellipse` and `rect_circle` give the same answer as `ellipse_rect` and `circle_rect` with the operands swapped; a circle and a rectangle go through the loop as written |
| Collider.DidCollideCorrectedAgrees | engine/collider.py:67-92 | for every pair of declared shapes other than a circle and a rectangle, the corrected table gives the source's answer |
| Collider.DidCollideCorrectedCircleRect | engine/collider.py:72-73 | the corrected table answers a circle and a rectangle, in either order, with the corrected test, and reports every hit the source's table reports |
| Collider.EllipseEllipseIsCircleTest | engine/collider.py:76 | two ellipses are compared with the circle test, which raises `ValueError` on an ellipse's four-entry bounds |
| Collider.UnregisteredPairs | engine/collider.py:70-71 | ellipse against circle, and any pair with a box on either side, never collides |
| Collider.NoBoxKeys | engine/collider.py:67-77 | no key of the table starts with `b` or ends with `x`, so none involves the box shape |
| Collider.DidCollideSymmetric | engine/collider.py:67-92 | for any two declared shapes, swapping the objects does not change `did_collide` as written |
| Controllers.Next | engine/controllers.py:6-67 | one `next()`: the constant controller keeps its state; the sine one advances `i` by `speed`; the sigmoid family advances `x` by `speed` and remembers the sample; all but the constant one put `speed` on the primary axis |
| Controllers.SinStep | engine/controllers.py:19-22 | a sine step yields `speed` and `amp * sin(factor * i)`, oriented by `vertical` |
| Controllers.TelescopingStep | engine/controllers.py:38-40 | a sigmoid-family step yields, off the primary axis, the new sample less the previous one |
| Controllers.Run | engine/controllers.py:6-67 | `n` calls yield `n` pairs, the `k`-th being the pair of one call on the state the first `k` calls left |
| Controllers.ConstantForever | engine/controllers.py:6-9 | the constant controller yields `(dx * speed, dy * speed)` on every call |
| Controllers.MakeSin | engine/controllers.py:12-17 | a zero `length` raises `ZeroDivisionError`; otherwise the curve starts at 0 with step `freq * 2 / length * pi` |
| Controllers.SinSample | engine/controllers.py:18-24 | the `k`-th pair carries the curve's value at `i + k * speed`, not a difference of samples |
| Controllers.SinSamples | engine/controllers.py:18-24 | the same for every call of a run |
| Controllers.ExponentZeroAtMidpoint | engine/controllers.py:27-30 | the sigmoid's exponent is zero exactly at half the length and positive before it |
| Controllers.Logistic | engine/controllers.py:27-30 | `__sigmoid` lies strictly between 0 and 1 |
| Controllers.MakeSigmoid | engine/controllers.py:33-67 | a zero `length` or temperature raises; otherwise the controller starts at `x = 0`, `last = 0` with the family's curve |
| Controllers.Telescopes | engine/controllers.py:33-67 | the sigmoid-family pairs are differences of consecutive samples, so `n` of them add up to the `n`-th sample less the starting `last` |
| Controllers.FreshTelescopes | engine/controllers.py:33-67 | from a fresh controller the displacement after `n` calls is the curve at `(n - 1) * speed` |
| Controllers.PrimaryIsSpeed | engine/controllers.py:12-67 | every sine and sigmoid-family pair carries `speed` on the primary axis |
| Util.Split | engine/util.py:28 | `split('.')` gives at least one segment and no segment holds a dot |
| Util.JoinSplit | engine/util.py:28 | joining the segments with dots gives back the path |
| Util.SplitDotFreePrefix | engine/util.py:28 | a dot-free prefix only lengthens the first segment |
| Util.SplitJoin | engine/util.py:28 | splitting a dot-joined list of dot-free segments gives back the segments |
| Util.GetValue | engine/util.py:26-36 | the loop agrees with the recursive walk down the segments: a missing first key gives the default, a lookup on a non-dictionary raises `TypeError` |
| Util.WalkNest | engine/util.py:29-36 | walking down the path a value was stored under finds it |
| Util.WalkMissing | engine/util.py:33-34 | once a segment is missing the walk gives the default, whatever segments follow |
| Util.GetValueNest | engine/util.py:26-36 | `get_value` with a dotted path finds the value stored under it |
| Util.Reverse | engine/util.py:39-45 | the reversed sequence has the same length and element `k` is element `n - 1 - k` of the original |
| Util.ListReverse | engine/util.py:39-45 | the generator yields every element, from the last to the first |
| Util.ReverseInvolutive | engine/util.py:39-45 | reversing twice gives back the list |
| Util.CallIgnoresArguments | engine/util.py:13-15 | calling a command runs the stored callable with the stored arguments; the call's own arguments are dropped |
| Util.Get | engine/util.py:51-58 | calling a value reference gives back the value it was built with, so the reference is rebuilt from it |
| Functions.ConvertLike | engine/functions.py:20-21 | `type(args[0])(x)` keeps the first argument's type: `int` truncates a float toward zero, `float` widens an int, same-typed values pass unchanged |
| Functions.Plus | engine/functions.py:21 | adding two numbers of one type keeps the type and adds the values |
| Functions.SumValue | engine/functions.py:21 | `sum(xs, start)` has the value of `start` plus the values of the elements |
| Functions.ConvertAll | engine/functions.py:21 | `map(t, args)` converts each argument in place |
| Functions.Zero | engine/functions.py:21 | `t()` is zero of the first argument's type |
| Functions.Add | engine/functions.py:18-21 | no argument raises `IndexError`; otherwise the result has the first argument's type and the value of the converted arguments' sum |
| Functions.AddSingle | engine/functions.py:18-21 | `Add(x)` is `x` |
| Functions.SubAsWritten | engine/functions.py:24-28 | as written: no argument raises `IndexError`, and every other call raises `TypeError` on slicing a `map` object |
| Functions.Negate | engine/functions.py:28 | `-1 * x` keeps the type and negates the value |
| Functions.NegateAll | engine/functions.py:28 | every element negated |
| Functions.Sub | engine/functions.py:24-28 | corrected: no argument raises `IndexError`; otherwise the result has the first argument's type and the first converted argument less the sum of the others |
| Functions.NegateSum | engine/functions.py:28 | the negated elements sum to minus the sum |
| Functions.SubAsWrittenFails | engine/functions.py:27-28 | `Sub(5, 3)` raises as written and gives 2 once corrected |
| Functions.AddUndoesSub | engine/functions.py:18-28 | adding `b` back to `Sub(a, b)` gives `a` |
| Functions.Nums | engine/functions.py:10 | the stored arguments are the given numbers, in order |
| Functions.Invoke | engine/functions.py:8-15 | a successful `randint` call gets exactly two numbers and returns one between them; a successful `choice` gets one tuple and returns one of its elements |
| Functions.RandomIntRange | engine/functions.py:8-10 | `RandomInt(a, b)()` raises `ValueError` exactly when `a > b`, otherwise gives a number of `[a, b]` |
| Functions.RandomIntCovers | engine/functions.py:8-10 | every number of `[a, b]` can come out |
| Functions.ChoiceMember | engine/functions.py:13-15 | `Choice(*xs)()` raises `IndexError` exactly when `xs` is empty, otherwise gives one of `xs` |
| Functions.ChoiceCovers | engine/functions.py:13-15 | every argument can come out |
| Notifications.NewNotifier | util/notifications.py:9-11 | a new notifier has no receivers for any notification |
| Notifications.Subscribe | util/notifications.py:13-15 | the receiver joins that notification's set; every other notification keeps its receivers |
| Notifications.Unsubscribe | util/notifications.py:17-19 | `KeyError` exactly when the receiver is not subscribed; otherwise it leaves that set alone and nothing else changes |
| Notifications.SubscribeIdempotent | util/notifications.py:13-15 | subscribing twice is subscribing once |
| Notifications.UnsubscribeUndoesSubscribe | util/notifications.py:13-19 | unsubscribing a receiver just subscribed restores every notification's receivers |
| Notifications.Vals | util/notifications.py:24 | the positional arguments are passed as values, in order |
| Notifications.Callees | util/notifications.py:23-24 | the callee of each recorded call, in order |
| Notifications.CallEach | util/notifications.py:23-24 | one call per receiver, in the given order, each with the same arguments |
| Notifications.Notify | util/notifications.py:21-24 | each receiver of the notification is called exactly once, nobody else is, and every call gets the arguments given |
| Notifications.Before | util/notifications.py:52-54 | `before(fn, ...)` registers `fn` before and a do-nothing handler after, with the given arguments |
| Notifications.After | util/notifications.py:57-59 | `after(fn, ...)` registers a do-nothing handler before and `fn` after, with the given arguments |
| Notifications.Decorate | util/notifications.py:40-49 | decorating `fn` adds the listener's two handlers to `fn`'s before and after receivers and changes no other function's |
| Notifications.Keys | util/notifications.py:44 | unpacking a keyword dictionary with `*` passes its keys, in order |
| Notifications.BodyCallAsWritten | util/notifications.py:44 | as written: the body gets the positional arguments followed by the keyword names, and no keyword arguments |
| Notifications.BodyCall | util/notifications.py:44 | corrected: the body gets the wrapper's positional and keyword arguments unchanged |
| Notifications.BodyCallAsWrittenDropsKeywords | util/notifications.py:44 | the call as written forwards the arguments faithfully exactly when there are no keyword arguments |
| Notifications.BodyCallAsWrittenExample | util/notifications.py:44 | `fn(1, key=2)` through the wrapper reaches `fn` as `fn(1, 'key')` as written |
| Notifications.AsHandlerCalls | util/notifications.py:43-45 | handler calls keep their arguments in the wrapper's trace |
| Notifications.HandlerCallees | util/notifications.py:43-45 | a handler is called in the trace exactly when it was called by the notifier |
| Notifications.TraceShape | util/notifications.py:42-45 | the trace is the before calls, the body, then the after calls, each side calling exactly its handlers |
| Notifications.TraceArgs | util/notifications.py:43-45 | every handler call in the trace carries the listener's arguments |
| Notifications.CallWrapped | util/notifications.py:33-49 | a listener without `args` or `kwargs` raises `TypeError`; otherwise every before handler of `fn` runs once with the listener's arguments, then `fn` with the wrapper's positional arguments followed by its keyword names, then every after handler |
| Notifications.CallWrappedCorrected | util/notifications.py:33-49 | corrected: the same trace with `fn` called with the wrapper's positional and keyword arguments unchanged |
| Notifications.BeforeRunsFirst | util/notifications.py:40-54 | for a fresh function decorated with `before(h, ...)`, the wrapper calls `h` first, then the body with the positional arguments followed by the keyword names, then only the do-nothing handler |
| Keys.Initial | engine/game.py:37-39 | a new game has no key-press bindings and only Escape bound on release, to `stop` |
| Keys.BindAll | engine/game.py:119-122 | every listed key other than Escape is bound to the responder; every other key keeps its binding |
| Keys.Register | engine/game.py:118-125 | a single key or each key of an iterable is bound to the responder, except Escape; all other bindings are kept |
| Keys.OnKeyDown | engine/game.py:127-131 | the named keys other than Escape respond on press; the release table is untouched |
| Keys.OnKeyUp | engine/game.py:133-137 | the named keys other than Escape respond on release; the press table is untouched |
| Keys.Unbind | engine/game.py:141-146 | a key other than Escape loses its binding, an unbound key is passed over, and no other key changes |
| Keys.UnbindAll | engine/game.py:148-150 | every listed key other than Escape is unbound; every other key keeps its binding |
| Keys.RemoveKey | engine/game.py:139-153 | the named keys other than Escape leave both tables; all other bindings, Escape's included, are kept |
| Keys.EscapeStaysReserved | engine/game.py:118-153 | no binding or removal can change what Escape does |
| Keys.KeyDown | engine/game.py:47-51 | pressing Escape is never dispatched; a bound key calls its responder; an unbound key calls the ignore handler |
| Keys.KeyUp | engine/game.py:53-56 | a released key calls its responder, or the ignore handler when it has none |
| Keys.EscapeAlwaysStops | engine/game.py:37-56 | in any reachable table, releasing Escape stops the game and pressing it does nothing |
| Keys.RebindOverwrites | engine/game.py:118-137 | binding a key twice leaves the second responder in force |
| Keys.RemoveAfterBind | engine/game.py:127-153 | removing keys just bound leaves each of them unbound on both sides (Escape keeps `stop`) |
| Game.NewGame | engine/game.py:18-41 | a new game is not running, has no scenes, is marked game over and reserves Escape |
| Game.AddScene | engine/game.py:114-116 | the description is stored under its name, replacing an earlier one; every other name is unchanged |
| Game.BindSceneKeys | engine/game.py:79-81 | succeeds exactly when every handler is `end_scene` or `_end_scene` (else `AttributeError`); each listed key then ends the scene on release, other keys and the press table are unchanged, Escape stays reserved |
| Game.StartScene | engine/game.py:73-82 | the game-over flag is cleared; no script stops the game; otherwise the new scene is the one the description builds, with its key events, and Escape stays reserved |
| Game.Outcome | engine/game.py:108 | the next-scene entry is `game_over` exactly when the game is over, `end_scene` exactly when it is not |
| Game.Transition | engine/game.py:107-111 | a missing next-scene entry or scene raises `KeyError`; otherwise the named scene is started |
| Game.Respond | engine/game.py:43-56 | `stop` ends the loop, `end_scene` ends the scene, other responders change nothing |
| Game.HandleInput | engine/game.py:47-56 | `QUIT` and releasing Escape stop the game, pressing Escape does nothing, no event restarts a stopped game, Escape stays reserved |
| Game.HandleInputs | engine/game.py:94-95 | over a tick's events: a `QUIT` anywhere stops the game, none restarts it, a stopped scene stays stopped, the objects are not touched |
| Game.Tick | engine/game.py:89-112 | one pass keeps the scene table and never leaves a stopped scene current; when the frame's fired events run no `call`, or only callables that keep it, Escape stays reserved |
| Game.GameOverChoosesGameOverScene | engine/game.py:155-158 | after the scripted `game_over`, the scene is stopped and the scene under `game_over` is the one started |
| Game.StartThenEndUnbinds | engine/scene.py:264-269 | the keys a scene binds at start are unbound on both sides when it ends, and Escape still stops the game |
| Game.StartSceneBindsRelease | engine/game.py:79-81 | after a scene starts, releasing any of its keys other than Escape ends the scene |
| Sorting.WithKeyAppend | engine/scene.py:206 | the elements with a given key of a concatenation are those of each part, in order |
| Sorting.WithKeyNone | engine/scene.py:206 | a sequence with no element of a key has none of that key |
| Sorting.WithKeyAll | engine/scene.py:206 | a sequence whose elements all carry a key is its own subsequence of that key |
| Sorting.MinKeyPrefix | engine/scene.py:206-213 | in a sorted sequence the elements carrying the least key form a prefix |
| Sorting.InsertSorted | engine/scene.py:240 | inserting into a sorted sequence keeps it sorted, adds one element and nothing else |
| Sorting.InsertMultiset | engine/scene.py:240 | insertion adds exactly the inserted element to the multiset |
| Sorting.WithKeyCons | engine/scene.py:206 | the elements of a key in `[x] + s` are `x` (when it carries the key) followed by those of `s` |
| Sorting.InsertWithKey | engine/scene.py:240 | an inserted element precedes every element already present that carries its key |
| Sorting.SortBy | engine/scene.py:240 | `list.sort(key=...)`: the result is sorted, a permutation of the input, and stable (each key's elements keep their order) |
| Seqs.Filter | engine/scene.py:193-195 | a filtering comprehension keeps only elements of the input that satisfy the condition, and is no longer than it |
| Seqs.FilterAppend | engine/scene.py:193-195 | filtering a concatenation filters each part and keeps their order |
| Seqs.FilterMember | engine/scene.py:193-195 | an element survives exactly when it is in the input and satisfies the condition |
| Seqs.FilterAll | engine/scene.py:193-195 | when every element satisfies the condition the comprehension returns the input |
| Seqs.FilterNone | engine/scene.py:193-195 | when no element satisfies the condition the comprehension is empty |
| Seqs.FilterCount | engine/scene.py:213 | a filtering comprehension keeps every occurrence of a satisfying element and none of the others |
| Seqs.FilterPermutation | engine/scene.py:213 | filtering two orderings of the same elements keeps the same elements |
| Seqs.Map | engine/scene.py:207-212 | a mapping comprehension gives one image per element |
| Seqs.MapAt | engine/scene.py:207-212 | the `k`-th image is the function applied to the `k`-th element |
| Seqs.MapAppend | engine/scene.py:207-212 | mapping a concatenation maps each part |
| Seqs.MapSplit | engine/scene.py:207-212 | the images split around any position: those before it, the image of the element there, those after it |
| Seqs.MultisetAround | engine/scene.py:206 | an element between two parts counts once more than the two parts together |
| Seqs.RemoveAt | engine/scene.py:206 | a sequence is its elements before and after a position around the element there, as a multiset too |
| Seqs.MultisetCancel | engine/scene.py:206 | taking one element away from equal multisets leaves equal multisets |
| Seqs.MapRemoveAt | engine/scene.py:207-212 | the images of a sequence are those without one element plus that element's image |
| Seqs.MapPermutation | engine/scene.py:206-212 | mapping two orderings of the same elements gives the same images |
| PyNum.Trunc | engine/scene.py:206 | `int()` of a float rounds toward zero: the result is within one of the value, on the side of zero |
| PyNum.FloorDiv | engine/sprite.py:57 | `a // b` for positive `b` is the quotient rounded toward minus infinity |
| PyNum.Half | engine/sprite.py:57 | `n // 2` is the largest integer whose double does not exceed `n` |
| Scene.InitialEvents | engine/scene.py:74-75 | the queue holds each `before` action as a `(-1, 0)` event, in order, followed by the `events` unchanged |
| Scene.Advance | engine/scene.py:207-211 | a timer loses the elapsed time; a timer that reaches zero or less fires and is reset to its recurrence; the action is kept |
| Scene.Fired | engine/scene.py:207-210 | no more actions fire than there are events |
| Scene.AdvanceAll | engine/scene.py:207-212 | every event of the queue is advanced, in place |
| Scene.Frame | engine/scene.py:202-213 | the frame fires at most one action per event and keeps only events with a positive timer |
| Scene.FiredAppend | engine/scene.py:207-210 | the actions fired from a concatenated queue are those of each part, in order |
| Scene.FrameOne | engine/scene.py:207-213 | a single event fires exactly when due; it then stays with its recurrence if that is positive, and otherwise leaves; an event not due stays with the elapsed time subtracted |
| Scene.FrameRecurring | engine/scene.py:207-213 | an event every 500 ms first due in 1000 ms fires on the third frame of 400 ms and is rearmed to 500 ms |
| Scene.FrameOneShot | engine/scene.py:207-213 | a one-shot event fires once when due and leaves the queue |
| Scene.FiredAllDue | engine/scene.py:207-210 | when every event is due, every action fires, in queue order |
| Scene.FiredIsDueActions | engine/scene.py:207-210 | the actions that fire are the actions of the due events, in queue order |
| Scene.AdvanceAllIsMap | engine/scene.py:207-212 | every event is advanced, each in its place |
| Scene.FrameFires | engine/scene.py:202-213 | for any queue, in any order, a frame fires the action of every due event exactly once, and no other action |
| Scene.FrameQueuePermutation | engine/scene.py:202-213 | for any queue, after a frame the queue holds each advanced event exactly once if its timer is positive, and nothing else |
| Scene.FrameQueueMember | engine/scene.py:207-213 | an event is queued after a frame exactly when it is an event of the queue, advanced, with a positive timer |
| Scene.FrameQueue | engine/scene.py:207-213 | after a frame every event not due is queued with `elapsed` taken off, every due event with a positive recurrence is queued re-armed to it, and nothing else is queued |
| Scene.KeysAtLeast | engine/scene.py:206 | a lower bound on the sort keys carries over to any permutation |
| Scene.InitialKeys | engine/scene.py:74-75 | with event times above -2, every sort key is at least -1 and the key -1 elements start with the `before` events |
| Scene.SortedBeforeHead | engine/scene.py:74-75 | after the sort by `int(time)`, the `before` events still lead the queue, in their order |
| Scene.BeforeFiresFirst | engine/scene.py:202-213 | the first frame fires the `before` actions first, in their order |
| Scene.QueueEvent | engine/scene.py:215-217 | the event is appended at the end and the queue before it is unchanged |
| Scene.QueuedImmediateFires | engine/scene.py:202-217 | an event queued with time -1 onto a queue of events not yet due fires alone on the next frame |
| Scene.FiredOnly | engine/scene.py:207-210 | when only copies of one event are due, its action fires once per copy |
| Scene.CountDue | engine/scene.py:207-210 | an event that is due does not occur in a queue where nothing is due |
| Scene.Exchange | engine/scene.py:171-173 | a collision updates the source by the target, then the target by the updated source, and touches no other object |
| Scene.Inner | engine/scene.py:169-173 | the inner scan keeps the object count and the earlier hits, and records only hits from the source to later objects |
| Scene.InnerStep | engine/scene.py:169-173 | one step of the inner scan collides the pair exactly when the target is an active collider and they touch |
| Scene.InnerKeeps | engine/scene.py:169-173 | the inner scan leaves objects before the current target and inactive objects unchanged |
| Scene.InnerHitsActive | engine/scene.py:169-173 | every hit the inner scan records has an active collider as its target |
| Scene.ChainExtend | engine/scene.py:167-170 | a hit after all earlier hits keeps them in increasing order |
| Scene.InnerChain | engine/scene.py:169-173 | the inner scan records its hits in increasing order |
| Scene.InnerNames | engine/scene.py:169-173 | the inner scan keeps every object's name |
| Scene.InnerSources | engine/scene.py:167-173 | after the inner scan of source `i`, every hit has its source at most `i` |
| Scene.Outer | engine/scene.py:165-173 | the outer scan keeps the object count and the earlier hits, and records only pairs with the source before the target |
| Scene.OuterStep | engine/scene.py:167-168 | an active collider is scanned against the later objects; an inactive one is passed over |
| Scene.OuterChain | engine/scene.py:165-173 | the outer scan records its hits in increasing order |
| Scene.OuterNames | engine/scene.py:165-173 | the outer scan keeps every object's name |
| Scene.OuterKeeps | engine/scene.py:165-173 | the outer scan leaves inactive objects and objects already passed unchanged |
| Scene.OuterAvoids | engine/scene.py:165-173 | no hit of the outer scan involves an inactive object or one already passed |
| Scene.OuterActive | engine/scene.py:165-173 | both sides of every hit of the outer scan are active colliders |
| Scene.Collisions | engine/scene.py:165-173 | `verify_collisions` keeps the objects and their names, and its hits are pairs of positions with the source first, in increasing order |
| Scene.ChainIncreasing | engine/scene.py:165-173 | in a chain of hits every earlier hit precedes every later one |
| Scene.CollisionPairsOnce | engine/scene.py:165-173 | no pair of objects collides twice in one scan |
| Scene.InactiveUntouched | engine/scene.py:165-173 | objects that are not active colliders are unchanged and in no hit; every hit joins two active colliders |
| Scene.FlagReadOnce | engine/scene.py:167-173 | `should_collide` of the source is read once per source: a source that stops being active after its first hit still collides with the rest |
| Scene.FirstSourceOfCounters | engine/scene.py:169-173 | the inner scan of the first source of three counters collides it with both others |
| Scene.CollideFrom | engine/scene.py:169-173 | the loop over the later objects computes the inner scan |
| Scene.VerifyCollisions | engine/scene.py:165-173 | the nested loops compute the collision scan |
| Scene.ObjectList | engine/scene.py:175-177 | the list has no more elements than there are objects and is empty exactly when no object has the name |
| Scene.ObjectListAppend | engine/scene.py:175-177 | the objects with a name in a concatenation are those of each part, in order |
| Scene.ObjectListUnique | engine/scene.py:175-177 | a name held by one object lists exactly that object |
| Scene.GetObject | engine/scene.py:179-187 | two or more objects with the name raise an error; none gives `None`; otherwise the single object with the name |
| Scene.GetObjectUnique | engine/scene.py:179-187 | a name held by one object gives that object |
| Scene.GetObjectAmbiguous | engine/scene.py:179-187 | a name held by two objects raises the error |
| Scene.UpdateEach | engine/scene.py:191-192 | every object is updated with the bounds, keeping its name and place |
| Scene.UpdateObjects | engine/scene.py:189-195 | after the updates only non-removable, visibility-less or visible objects remain |
| Scene.UpdateRemovesExactly | engine/scene.py:189-195 | an updated object stays exactly when it is non-removable, has no `visible`, or is visible |
| Scene.UpdateKeepsOrder | engine/scene.py:189-195 | updating a concatenation updates each part and keeps their order |
| Scene.UpdateNothingHidden | engine/scene.py:189-195 | when no updated object is to be removed, the list is just the updated objects |
| Scene.DrawOrder | engine/scene.py:197-200 | objects are drawn from the last to the first |
| Scene.DrawHighestFirst | engine/scene.py:197-200 | with the list sorted by priority, objects are drawn in non-increasing priority |
| Scene.SpawnNames | engine/scene.py:235-239 | a string spawns one object of that name, a list spawns its names in order; any other argument raises `TypeError` |
| Scene.Added | engine/scene.py:226-233 | the objects added are one per name, in order, each built or loaded from its description; a name without a description raises `KeyError` |
| Scene.Spawn | engine/scene.py:225-240 | spawning succeeds exactly when the argument and every name are valid; the list is then sorted by priority, a permutation of the old objects plus the new ones, with the old before the new within each priority |
| Scene.SpawnMissing | engine/scene.py:226-233 | spawning a name that has no description raises `KeyError` |
| Scene.NewScene | engine/scene.py:57-88 | an audio entry without `filename` raises `KeyError`; otherwise the scene has no objects, is not stopped, starts at frame 0 and time 0, records each track's `loop`, and queues the `before` actions ahead of the events |
| Scene.KeysOf | engine/scene.py:266 | the keys of the `on_key` bindings, in order |
| Scene.EndScene | engine/scene.py:264-269 | the scene's keys other than Escape are unbound on both sides, other keys and Escape keep their bindings, the scene stops and the mixer is stopped |
| Scene.PlayAudio | engine/scene.py:242-250 | a call without exactly one argument raises `TypeError`; with one, any failed lookup becomes the method's own "could not play audio" exception; a known track is played looping or once according to its `loop` flag |
| Scene.Replace | engine/scene.py:252-255 | the entry with the name gets the updated object and every other entry is unchanged |
| Scene.ObjectCall | engine/scene.py:252-255 | without a name and a method it raises `TypeError`; otherwise only the objects can change |
| Scene.ObjectCallUnique | engine/scene.py:252-255 | calling a method of the single object with a name updates exactly that object |
| Scene.ObjectCallMissing | engine/scene.py:252-255 | calling a method on a name no object has raises `AttributeError` |
| Scene.Perform | engine/scene.py:219-272 | an unknown action raises `AttributeError`; `game_over` marks the game over and stops the scene; `end_scene` ends it; `call` without a callable raises `TypeError`, and otherwise gives whatever the callable does to the scene and the game; no other action, nor a callable that keeps them, changes the queue, the clock, the key events or the next scenes, restarts a stopped scene or frees Escape |
| Scene.RunActions | engine/scene.py:207-210 | a run of actions fails when one is unknown; when it runs no `call`, or only callables that keep them, it keeps the queue, clock and next scenes and marks the game over exactly when one action is `game_over` |
| Scene.FrameScene | engine/scene.py:202-213 | when the fired events run no `call`, or only callables that keep them, the frame number is set, the clock advances by the elapsed time, the queue becomes the frame's queue, a stopped scene stays stopped and Escape stays reserved |
| Scene.CallSceneEvent | engine/scene.py:40-51 | a `SceneEvent` handed to `call` puts its event at the back of the scene's queue, at time -1 with no recurrence, and changes nothing else; so a callable can change the queue |
| Scene.GameOverEndsScene | engine/scene.py:271-272 | the scripted `game_over` marks the game over, stops the scene and the mixer, and unbinds the scene's keys |
| Sprite.NewSprite | engine/sprite.py:10-27 | a new sprite is at its position with its size and speed, not moving, and visible |
| Sprite.Update | engine/sprite.py:36-41 | each coordinate moves by the direction times the speed; nothing else changes |
| Sprite.UpdateTimesMoves | engine/sprite.py:36-41 | `n` updates move the sprite by `n` steps |
| Sprite.LimitAxis | engine/sprite.py:48-49 | a negative coordinate becomes 0, one past the far edge becomes the far edge, one in range stays; a sprite that fits ends inside the window |
| Sprite.Limits | engine/sprite.py:43-50 | both coordinates are clamped; a sprite no larger than the window ends inside it |
| Sprite.LimitsIdempotent | engine/sprite.py:43-50 | for a sprite that fits, clamping twice is clamping once |
| Sprite.LimitsOversized | engine/sprite.py:43-50 | a sprite wider than the window, left of it, is first clamped to 0 and then to the negative far edge, so clamping is not idempotent |
| Sprite.CenterInside | engine/sprite.py:52-57 | the centre lies within the sprite and at most one pixel before its exact middle |
| Sprite.Bounds | engine/sprite.py:59-64 | the bounds are the position and the image size |
| Sprite.Length | engine/sprite.py:66-69 | an animated sprite lasts its animation's duration; a still one lasts 0 |
| Sprite.Hide | engine/sprite.py:71-73 | hiding only clears visibility |
| Text.NewText | engine/text.py:14-20 | a new text is visible, with the blink state on, at its rectangle |
| Text.SetCenter | engine/text.py:63 | setting `centerx`, `centery` moves the rectangle so its centre is the given point, keeping its size |
| Text.RenderText | engine/text.py:53-57 | the text is placed with its top-left corner at the position, visible and blinking on |
| Text.RenderTextCentered | engine/text.py:59-64 | the text is centred on `((x + w) // 2, (y + h) // 2)` with its own size |
| Text.CenteredBetweenCorners | engine/text.py:59-64 | when the rectangle's last two entries are a second corner, the text is centred between the two corners |
| Text.Hide | engine/text.py:22-24 | hiding clears visibility and keeps the rest |
| Text.Blink | engine/text.py:35-37 | blinking flips the blink state and keeps the rest |
| Text.Update | engine/text.py:26-28 | an update changes nothing |
| Text.Draw | engine/text.py:30-33 | the surface is drawn, at the rectangle, exactly when the text is visible and its blink state is on |
| Text.BlinkTwice | engine/text.py:35-37 | blinking twice restores the text |
| Text.BlinkParity | engine/text.py:30-37 | after `n` blinks the text is drawn exactly when it is visible and its blink state agreed with the parity of `n` |
| Stamp.NewStamp | objects/stamp.py:9-15 | a new stamp has no placements |
| Stamp.Place | objects/stamp.py:31-37 | a position needs at least two entries, and exactly four when centred (else `ValueError`); the copy of the rectangle is placed at the corner, or centred on `((x + w) // 2, (y + h) // 2)` |
| Stamp.PlaceAll | objects/stamp.py:30-38 | every position is placed, in order, and the whole fails when one of them fails |
| Stamp.AsList | objects/stamp.py:28-29 | a non-list argument is a single position |
| Stamp.StampAt | objects/stamp.py:26-38 | succeeds exactly when every position is valid; the placements are appended after the existing ones, in order |
| Stamp.Remove | objects/stamp.py:40-42 | an index out of range, counting negative indices from the end, raises `IndexError`; otherwise exactly that placement is removed and the rest keep their order |
| Stamp.SingleIsOneElementList | objects/stamp.py:28-29 | stamping one position is stamping a one-element list of it |
| Stamp.RemoveUndoesStamp | objects/stamp.py:26-42 | removing the last placement undoes stamping a single position |
| Stamp.PlacementExamples | objects/stamp.py:31-37 | `(3, 4)` places the corner at (3, 4); centring needs width and height; `(0, 0, 100, 50)` centres at (50, 25) |
| Player.NewPlayer | objects/player.py:13-24 | a new player has three lives, no points, its position and speed, and takes part in the game |
| Player.CollideWithAsWritten | objects/player.py:26-32 | as written: a hit by anything but a projectile on a player taking part raises `TypeError` from `die()`, exactly when the corrected call would change the player; otherwise nothing changes |
| Player.CollideWith | objects/player.py:26-32 | corrected: a player taking part loses one life, stops colliding and starts dying when hit by anything but a projectile; otherwise nothing changes |
| Player.FirstHitRaises | objects/player.py:26-32 | a fresh player hit by an enemy raises as written, and is left with two lives and dying once corrected |
| Player.CollideTwiceLosesOneLife | objects/player.py:26-32 | a second collision after a fatal one changes nothing: one life is lost |
| Player.AddPoints | objects/player.py:53-56 | positive points are added; zero or negative points are ignored, so the points never decrease |
| Player.Accelerate | objects/player.py:58-61 | below 7.5 the speed grows by 0.5; otherwise it stays |
| Player.AccelerateFromDefault | objects/player.py:58-61 | from the default speed 5, `n` accelerations give `5 + 0.5 n` up to 7.5 and stop there |
| Player.ClampAxis | objects/player.py:67-72 | a coordinate past the far edge is moved back to it, one before the near edge (and not past the far one) is moved to it, one inside stays; a player that fits ends inside |
| Player.Offlimits | objects/player.py:63-73 | the player is moved back inside the limits on both axes when it fits |
| Player.OfflimitsIdempotent | objects/player.py:63-73 | for a player that fits, `offlimits` twice is once, and a player inside does not move |
| Player.OfflimitsOversized | objects/player.py:63-73 | a player wider than the limits is moved to the negative far edge, and then back to the near edge, so `offlimits` is not idempotent then |
| Player.Bounds | objects/player.py:75-80 | the bounds are the position and the sprite size |
| Player.Update | objects/player.py:34-44 | a player taking part moves by speed times the controller's step and is kept in the limits, or stays when the controller is exhausted; otherwise only the explosion advances |
| Player.UpdateStaysInside | objects/player.py:34-44 | a player inside the limits stays inside after an update |
| Player.Draw | objects/player.py:46-51 | the ship is drawn exactly when the player takes part; the explosion exactly when it is dying |
| Killable.NewKillable | objects/killable.py:10-16 | a fresh object takes part and is not dying |
| Killable.DieAsWritten | objects/killable.py:36-40 | as written: the object is left dying and out of the game, and the call raises `TypeError` |
| Killable.Die | objects/killable.py:36-40 | corrected: dying starts the explosion and the object stops taking part at once |
| Killable.DieAsWrittenLeavesDie | objects/killable.py:36-40 | the call as written leaves the object in the state the corrected call gives |
| Killable.Update | objects/killable.py:23-29 | only a dying object whose explosion has ended changes: it is hidden and stops dying |
| Killable.Draw | objects/killable.py:31-34 | the explosion is drawn exactly while dying |
| Killable.StaysDown | objects/killable.py:18-29 | an object dying or hidden never takes part again, whatever the explosion does |
| Killable.AfterDie | objects/killable.py:18-40 | after `die`, `should_update` stays false for good |
| Killable.ExplosionEnds | objects/killable.py:23-29 | once the explosion has ended the object is hidden and no longer dying |
| Killable.HiddenStays | objects/killable.py:23-29 | a hidden object that is not dying is unchanged by updates |
| Score.NewScore | objects/score.py:9-16 | a new score shows zero score and high score, with the chosen display |
| Score.Add | objects/score.py:34-38 | the value is added to the score, and the high score becomes the larger of itself and the new score |
| Score.ToggleScore | objects/score.py:40-42 | the display flips; the numbers are kept |
| Score.RestartScore | objects/score.py:44-46 | the score is reset and the high score kept |
| Score.Restart | objects/score.py:48-51 | both the score and the high score are reset |
| Score.ValidPreserved | objects/score.py:34-51 | every operation keeps the high score at least the score and never negative; adding never lowers the high score |
| Score.ToggleTwice | objects/score.py:40-42 | toggling twice restores the score |
| Score.Shown | objects/score.py:23 | the high score is shown exactly when it is selected, otherwise the score |
| Score.Digits | objects/score.py:24 | `str(n)` of a non-negative number is a non-empty run of digits |
| Score.Zeros | objects/score.py:24 | the padding is a run of zeros of the given length |
| Score.Format | objects/score.py:24 | `"{:0>8}"` pads `str(n)` with zeros on the left to eight characters, keeping longer strings whole |
| Score.DigitValues | objects/score.py:26-27 | `int(n)` of each character succeeds exactly when all are digits, else `ValueError`, giving values below ten |
| Score.DigitsValue | objects/score.py:24-27 | reading back the digits of `str(n)` gives `n` |
| Score.ZeroDigits | objects/score.py:24-27 | the values of the padding are zeros |
| Score.LeadingZeros | objects/score.py:24-27 | leading zeros do not change a number |
| Score.ZerosValue | objects/score.py:24-27 | a run of zeros has value zero |
| Score.DigitValuesAppend | objects/score.py:26-27 | the digits of a concatenation are those of each part |
| Score.ZerosDigits | objects/score.py:24-27 | the padding reads back as zeros |
| Score.DrawRoundTrip | objects/score.py:21-32 | the digits drawn for a non-negative shown value are at least eight and read back as that value |
| Score.FormatRoundTrip | objects/score.py:24-27 | the formatted number reads back as itself and has at least eight digits |
| Score.PaddedRoundTrip | objects/score.py:24-27 | zeros followed by the digits of `n` read back as `n` |
| Score.DrawNegative | objects/score.py:21-32 | a negative shown value makes `draw` fail with `ValueError` at the minus sign |
| Starfield.RandRange | objects/starfield.py:15 | `randrange(0, stop)` draws below `stop` and raises `ValueError` exactly when the range is empty |
| Starfield.Choice | objects/starfield.py:15-16 | `choice` returns one of the options |
| Starfield.CreateStar | objects/starfield.py:12-16 | a star at `x` gets a row inside the field and a speed, magnitude and grey from the fixed lists; a field of height 1 or less raises `ValueError` |
| Starfield.CreateStarCoversRanges | objects/starfield.py:12-16 | every star those lists allow at `x` is produced by some draw |
| Starfield.CreateStars | objects/starfield.py:22-23 | the requested number of valid stars is created, each left of `width - 1`; an empty range raises `ValueError` |
| Starfield.NewStarfield | objects/starfield.py:18-23 | a new field has `count` valid stars, or raises `ValueError` when a side is 1 or less and stars are requested |
| Starfield.UpdateStars | objects/starfield.py:27-30 | each star still on screen moves left by its speed; each other star is replaced by a valid new star at the right edge |
| Starfield.Update | objects/starfield.py:25-30 | the field keeps its size and star count; stars move left by their speed or are replaced at the right edge |
| Starfield.UpdateKeepsValid | objects/starfield.py:25-30 | an update keeps every star valid |
| Starfield.FramesKeepValid | objects/starfield.py:25-30 | any number of updates keep every star valid and their number fixed |
| Enemy.StartHeight | objects/enemy.py:15 | `randint(50, y - 50)` is within its bounds and raises `ValueError` exactly when the canvas is under 100 high |
| Enemy.StartHeightCovers | objects/enemy.py:15 | every height in the range is drawn by some draw |
| Enemy.NewEnemy | objects/enemy.py:12-17 | an enemy starts visible at the right edge, at a height at least 50 from both edges, with its controller; a canvas under 100 high raises `ValueError` |
| Enemy.Update | objects/enemy.py:19-28 | the enemy moves by the controller's step mirrored horizontally, or stands still without a controller, and then moves its sprite |
| Enemy.ConstantStep | objects/enemy.py:19-28 | with a constant controller an update is a sprite update with the mirrored step |
| Enemy.ConstantDrift | objects/enemy.py:19-28 | with a constant controller `n` updates are `n` sprite updates with the mirrored step |
| Enemy.SpriteShift | objects/enemy.py:19-28 | one sprite update followed by `n` is `n + 1` sprite updates |
| Enemy.NewWave | objects/enemy.py:43-51 | the wave has `count` enemies, each with its own controller, spaced 100 apart from the right edge at the first enemy's height; an empty wave raises `IndexError` |
| Enemy.CreateEnemies | objects/enemy.py:45-47 | one enemy per index, each from its own controller, at the right edge and within the height range |
| Enemy.WaveSpacing | objects/enemy.py:48-51 | consecutive enemies of a wave are 100 apart at the same height |
| Projectile.NewProjectile | objects/projectile.py:19-28 | a new projectile is visible at its origin, with no previous position, and remembers its creator's class |
| Projectile.Update | objects/projectile.py:30-37 | the old position is remembered, the projectile moves by its step, and it is hidden when it passes the right edge |
| Projectile.Hide | objects/projectile.py:30-37 | hiding only clears visibility |
| Projectile.CollideWith | objects/projectile.py:46-49 | the projectile is hidden unless the other object is a projectile or of its creator's class; it does not move |
| Projectile.Bounds | objects/projectile.py:51-56 | the bounds run from the position to the previous one, or to the position itself before any update |
| Projectile.CreatorKept | objects/projectile.py:58-61 | the creator is the class given at creation, unchanged by updates and collisions |
| Projectile.Draw | objects/projectile.py:39-44 | a line is drawn exactly after the first update, along the bounds |
| Projectile.FreshBoundsDegenerate | objects/projectile.py:51-56 | a new projectile's bounds are a single point and nothing is drawn |
| Projectile.UpdatedBoundsSpanStep | objects/projectile.py:30-56 | after an update the bounds span exactly the step just taken |
| Projectile.FriendlyCollisions | objects/projectile.py:46-49 | colliding with its creator's class or with a projectile leaves the projectile unchanged |
| Projectile.FlightPosition | objects/projectile.py:30-37 | after `n` updates the projectile is `n` steps on, and, moving right, is visible exactly when it was and has not passed the edge |
| Shot.NewShot | objects/shot.py:19-27 | a new shot is visible at its origin with no previous position |
| Shot.Update | objects/shot.py:29-36 | the old position is remembered, the shot moves by its step, and it is hidden when it passes the right edge |
| Shot.CollideWith | objects/shot.py:45-47 | any collision hides the shot and moves nothing |
| Shot.Bounds | objects/shot.py:49-54 | the bounds are the position followed by the previous one, or by the position again before any update |
| Shot.BoundsAcrossUpdate | objects/shot.py:29-54 | a new shot's bounds are its origin twice; after one update they are the new position and the origin |
| Shot.HiddenStays | objects/shot.py:29-47 | a hidden shot stays hidden through updates and collisions |
| Asteroid.NewAsteroid | objects/asteroid.py:10-17 | a new asteroid is visible at its position, with the given shape or an ellipse by default |
| Asteroid.Bounds | objects/asteroid.py:43-48 | the bounds are half the sprite size, offset from the position by that half |
| Asteroid.Offlimits | objects/asteroid.py:32-37 | the asteroid is hidden exactly when its bounds end left of the limits; nothing else changes |
| Asteroid.Update | objects/asteroid.py:19-25 | the asteroid drifts one unit left and is hidden once it has left the limits; size and shape are kept |
| Asteroid.CollideWith | objects/asteroid.py:39-41 | collisions leave the asteroid unchanged |
| Asteroid.DriftLeaves | objects/asteroid.py:19-37 | after `n` updates the asteroid is `n` units left, and visible exactly when it was and has not left the limits |
| Asteroid.HiddenWhenGone | objects/asteroid.py:32-37 | an asteroid about to leave the limits is hidden by the next update |

## Left out

- Rendering, windowing, fonts, images and audio playback are not modelled. This covers every pygame `blit` and `draw` call, `Sprite` image loading with its scale and rotation, `GameFont` surfaces, and the `Mixer`. `draw` operations return what would be drawn, and `_play_audio` and `end_scene` append to an effect log.
- `Scene.__load_object` and `__get_class` (engine/scene.py:90-163) are not modelled. They find classes by reflection and patch methods at run time. Loading a description is a `load` parameter from name and description to object.
- Keyword arguments to `_spawn`, `event` and the `_object`/`_call` actions are dropped. Those actions are modelled with positional arguments only.
- `add_timer`, `remove_timer`, `bind_variables` and the pygame event pump in `Game.run` are left out. Each tick receives its input events and the window bounds as parameters. The fps pacing and `display.update` are left out too.
- `Game.Tick`: only `QUIT` and key events are dispatched. Handlers other than `stop` and `end_scene` are opaque and change nothing the model holds.
- `Scene.Frame` does not model `queue_event` called during a frame, while `frame` iterates over the list it appends to. `queue_event` is modelled between frames. In particular, when a fired `call` runs a `SceneEvent` (see `Scene.CallSceneEvent`), the source's loop reaches the appended event in the same frame and runs it there; `Scene.FrameScene` leaves it at the back of the queue for the next frame.
- `Scene.Perform`: the callable of a `call` action is a `Callee` parameter from its `id`, the remaining arguments and the world (the scene, the game's key tables and its game-over flag) to a new world or an error. What else a callable could reach through `scene.game` is not modelled. The clauses that the queue, the clock, the key events, the next scenes, a stopped scene and Escape are kept hold for `call` only when the callable keeps them (`Scene.Tame`); `Scene.RunActions`, `Scene.FrameScene` and `Game.Tick` state them under the same condition.
- Side effects are not modelled past the failing step. When an action raises part-way through a frame, the model returns the error and not the partially changed scene.
- Python's `defaultdict` inserting an empty set when `unsubscribe` reads a missing notification is not modelled. A missing key and an empty set behave alike in every observable way.
- `Game.BindSceneKeys`: the source binds `partial(getattr(scene, handler), game)` for any name. A name the scene lacks raises `AttributeError` when the scene starts. A non-callable attribute makes `partial` raise `TypeError` when the scene starts. Any other method is bound, and the key release then calls it with `(game, event, scene)`. `end_scene` and `_end_scene` accept those arguments and end the scene. `queue_event` accepts them and queues an entry whose time is the game object. Most other methods raise on that call, `TypeError` for a wrong argument count. The model binds only `end_scene` and `_end_scene`, and collapses every other name to `AttributeError` when the scene starts.
- `Scene.Collisions` and `Scene.VerifyCollisions`: `Ops.didCollide` and `Ops.collideWith` cannot fail, so the model's scan never raises. In the source, `did_collide` raises `ValueError` for two ellipse-shaped objects, whose four-number bounds reach `circle_circle` (see `Collider.EllipseEllipseIsCircleTest`). A player's `collide_with` raises `TypeError` on a hit (see `Player.CollideWithAsWritten`). Either error leaves `verify_collisions` part-way. The model's scan describes the runs in which no test raises.
- `Scene.Collisions`: `Collider.__init__` never sets `should_collide`, and only `Player` assigns it. As written, the scan's first read of the flag would raise `AttributeError` for any other collider. The model reads the flag through `Ops.shouldCollide`, taking it as set at construction.
- `Movable` and `Hideable` (position, `move`, `hide`, `visible`) are not part of this model: engine/behaviors.py defines only `Controllable`. The objects use them with their evident meaning: `move(dx, dy)` adds to the position and `hide()` clears `visible`.
- `Player.NewPlayer`: the source's constructor raises `TypeError`, because it builds `Sprite('media/images/f18.png')` without the required `pos` argument. Its `lives` property raises `AttributeError`, because it reads `__lives` while the constructor sets `__lifes`. The model builds the player as evidently intended: three lives, readable as `lives`.
- `Projectile.NewProjectile`: the source's constructor raises `AttributeError`, because it passes `Collider.LINE` and `Collider` defines only the box, ellipse, rect and circle shapes. The model builds the projectile as evidently intended.
- `Shot.NewShot`: the source's constructor raises `AttributeError` on `Collider.LINE`, as `Projectile`'s does. The model builds the shot as evidently intended.
- `Enemy.Update`: `Enemy.update` takes no `bounds` argument, although the scene calls `update(bounds)`. The model follows the method as written and is not called from the scene.
- `Killable.Update`: the explosion's own timer (`pygame.time.get_ticks`) is replaced by an `expired` flag given to each update.
- `isinstance` checks against subclasses, and two scene entries aliasing one Python object, are not modelled. Each entry holds its own value.
- The iteration order of a scene's `on_key` set is taken as the given sequence.
- Floats are exact reals, with no rounding, infinities or NaN. Integers are unbounded, as in Python.
- `Score.Draw`'s digit widths and positions are not modelled (fonts). The model reads back the digits it would draw.
- `Enemy.NewWave`: `Wave.__init__` reads `sprite.position`, which `Sprite` does not define. The model reads the sprite's position as evidently intended.
- `Asteroid.NewAsteroid`: the source constructs its `Sprite` without the position argument and inherits no `hide`. The model gives the asteroid its position and a visibility flag, as `offlimits` evidently expects.
- `Starfield.NewStarfield`: the random draws are an oracle indexed by star and by draw. The colour tuple is modelled as one grey value.
- `Stamp.StampAt`: placements appended before a later position fails are not modelled. A failing position fails the whole call with no change. `Stamp.update` (a no-op) and `Stamp.draw` (one blit per placement, in order) are the model's `stamps` list itself.
- `Projectile.NewProjectile` and `Shot.NewShot`: the `atan2`/`cos`/`sin` aiming is not modelled. The step the controller yields is a parameter.
- `Collider.RectRect` and `Collider.CircleCircle`: their contracts state only the error cases. The hit condition of `rect_rect` is stated by `Collider.RectRectSharedPoint`. For `circle_circle`, `Collider.CircleCircleTranslated`, `Collider.CircleCircleCentreInside` and `Collider.CircleCircleApart` bound it from both sides, but no lemma states it as "the centres are closer than the sum of the radii", which needs a square root.
- pygame `Rect`'s rounding of coordinates to integers is not modelled. Text and stamp rectangles are integer boxes and sprite positions are reals.
- `Util.ListReverse`: under Python 3.7 and later, the generator's final `raise StopIteration` becomes a `RuntimeError` (PEP 479). This is not modelled; the generator ends normally.
- `Util.GetValue`: values are dictionaries or integers only, so substring tests with `in` on strings are not modelled.
- `Notifications.Notify`: the receivers are called in a given order. Python's set iteration order is unspecified.
- `Notifications.CallWrapped`: the wrapper returns `None` and drops the wrapped function's result; the model records only the calls.
- `Scene.BeforeFiresFirst`: a `before` entry runs ahead of the events only when every event's timer is above -2. The engine sorts by `int(time)`, and an event with `int(time) <= -2` sorts ahead of the `before` entries, whose key is -1. The model proves the property under that condition.
- The `SinController` and sigmoid-family curves are not modelled concretely. `sin` and `exp` are parameters; the constant controller is exact.

## Findings

| source | as written | input that shows it | evidently intended | confidence | as-written member | corrected member |
|---|---|---|---|---|---|---|
| engine/collider.py:28-31 | the corner loop measures `(x, y)`, the rectangle's top-left corner, on every pass instead of the corner `(a, b)` it visits | circle `(10, 0, 5)` and rectangle `(0, 0, 10, 10)`: the top-right corner is the circle's centre, yet the result is `False` | a hit when any of the four corners lies strictly inside the circle | high (not executed) | Collider.DidCollide | Collider.DidCollideCorrected |
| engine/functions.py:27-28 | `args = map(t, args)` makes a lazy `map` object, so `args[1:]` raises `TypeError` on every call | `Sub(5, 3)` raises instead of returning 2 | the first argument minus the sum of the others, converted to the first argument's type | high (not executed) | Functions.SubAsWritten | Functions.Sub |
| util/notifications.py:44 | `fn(*args, *kwargs)` unpacks the keyword dictionary with one star, passing its keys as positional arguments | a decorated `fn(1, key=2)` is called as `fn(1, 'key')` | `fn(*args, **kwargs)`: the keyword arguments passed through unchanged | high (not executed) | Notifications.CallWrapped | Notifications.CallWrappedCorrected |
| objects/killable.py:39-40 | `die()` passes `time_scale=` to `Explosion`, whose `__init__` (objects/explosion.py:14) takes only `position` and `type`, so the call raises `TypeError` after `__dying` is set | a player taking part hit by an enemy: `collide_with` calls `die()`, which raises | the explosion starts and the object dies without an error | high (not executed) | Killable.DieAsWritten | Killable.Die |

=== FILE: asteroid.dfy ===
/** An asteroid the player can crash into (objects/asteroid.py): it drifts
    left one pixel per frame under a `ConstantController(-1, 0)`, collides
    as an ellipse inscribed in its image, and leaves the game once it is
    wholly left of the window. */
module Asteroid {
  import opened Wrappers
  import opened Vectors
  import opened PyNum
  import Collider

  /** Position, the image size in pixels, the collision shape and
      visibility. */
  datatype Asteroid = Asteroid(pos: Vec, w: int, h: int, shape: string, visible: bool)

  /** The step of the asteroid's controller. */
  const DRIFT: Vec := Vec(-1.0, 0.0)

  /** `Asteroid(pos, shape=...)`: the shape defaults to an ellipse. */
  function NewAsteroid(pos: Vec, w: int, h: int, shape: Option<string>): (a: Asteroid)
    ensures shape.None? ==> a.shape == Collider.ELLIPSE
    ensures shape.Some? ==> a.shape == shape.value
    ensures a.pos == pos && a.visible
  {
    Asteroid(pos, w, h, shape.GetOr(Collider.ELLIPSE), true)
  }

  /** `bounds`: the ellipse `(centre x, centre y, rx, ry)` inscribed in the
      image, with the half sizes rounded down. */
  function Bounds(a: Asteroid): (b: Rect)
    ensures 2.0 * b.w <= a.w as real < 2.0 * b.w + 2.0 && 2.0 * b.h <= a.h as real < 2.0 * b.h + 2.0
    ensures b.x == a.pos.x + b.w && b.y == a.pos.y + b.h
  {
    var rx, ry := Half(a.w) as real, Half(a.h) as real;
    Rect(a.pos.x + rx, a.pos.y + ry, rx, ry)
  }

  /** `offlimits(limits)`: hidden once the right end of the ellipse lies
      left of the window's left edge. */
  function Offlimits(a: Asteroid, limits: Rect): (a': Asteroid)
    ensures a'.visible <==> a.visible && Bounds(a).x + Bounds(a).w >= limits.x
    ensures a' == a.(visible := a'.visible)
  {
    var b := Bounds(a);
    if b.x + b.w < limits.x then a.(visible := false) else a
  }

  /** `update(bounds)`: one step left, then the off-limits test. */
  function Update(a: Asteroid, limits: Rect): (a': Asteroid)
    ensures a'.pos == a.pos.Plus(DRIFT)
    ensures a'.visible <==> a.visible && a.pos.x - 1.0 + 2.0 * Half(a.w) as real >= limits.x
    ensures a'.w == a.w && a'.h == a.h && a'.shape == a.shape
  {
    Offlimits(a.(pos := a.pos.Plus(DRIFT)), limits)
  }

  /** `collide_with(object)`: asteroids are immune. */
  function CollideWith(a: Asteroid): (a': Asteroid)
    ensures a' == a
  {
    a
  }

  /** `n` updates against the same window. */
  function Drift(a: Asteroid, limits: Rect, n: nat): Asteroid
    decreases n
  {
    if n == 0 then a else Update(Drift(a, limits, n - 1), limits)
  }

  /** After `n` frames the asteroid is `n` pixels further left, and still in
      the game exactly when its ellipse has not yet wholly left the window. */
  lemma {:induction false} DriftLeaves(a: Asteroid, limits: Rect, n: nat)
    ensures Drift(a, limits, n).pos == Vec(a.pos.x - n as real, a.pos.y)
    ensures Drift(a, limits, n).w == a.w && Drift(a, limits, n).h == a.h && Drift(a, limits, n).shape == a.shape
    ensures n > 0 ==> (Drift(a, limits, n).visible <==> a.visible && a.pos.x - n as real + 2.0 * Half(a.w) as real >= limits.x)
    decreases n
  {
    if n > 0 {
      DriftLeaves(a, limits, n - 1);
    }
  }

  /** Once the ellipse lies left of the window, the asteroid is hidden on
      that very frame. */
  lemma HiddenWhenGone(a: Asteroid, limits: Rect)
    requires a.pos.x - 1.0 + 2.0 * Half(a.w) as real < limits.x
    ensures !Update(a, limits).visible
  {
  }
}

=== FILE: collider.dfy ===
/** Shape-pair collision tests and the table that dispatches on the pair of
    shape names (engine/collider.py).

    Bounds are the tuples the entities' `bounds` properties return, kept as
    sequences of numbers: each test unpacks them into a fixed number of
    names, and a tuple of the wrong length raises `ValueError` exactly as
    Python's unpacking does. */
module Collider {
  import opened Wrappers

  type Bounds = seq<real>

  /** A collision test on the bounds of two objects. */
  type Test = (Bounds, Bounds) -> Result<bool>

  /** The shape names an object may declare. */
  const BOX: string := "box"
  const ELLIPSE: string := "ellipse"
  const RECT: string := "rect"
  const CIRCLE: string := "circle"

  /** A corner counts as inside an ellipse when its normalised distance is at
      most this value, deliberately below 1 so that near misses do not count. */
  const THRESHOLD: real := 0.9

  /** The four corners of the rectangle `(x, y, w, h)` in the order
      `ellipse_rect` visits them: top-left, bottom-left, top-right,
      bottom-right. */
  function Corners(x: real, y: real, w: real, h: real): (c: seq<(real, real)>)
    ensures |c| == 4 && c[0] == (x, y)
  {
    [(x, y), (x, y + h), (x + w, y), (x + w, y + h)]
  }

  function Square(v: real): (s: real)
    ensures s >= 0.0
  {
    v * v
  }

  /** `(a - h)^2 / rx^2 + (b - k)^2 / ry^2`: 1 on the ellipse's boundary. */
  function NormalisedDistance(a: real, b: real, h: real, k: real, rx: real, ry: real): real
    requires rx != 0.0 && ry != 0.0
  {
    Square(a - h) / (rx * rx) + Square(b - k) / (ry * ry)
  }

  /** Corner `i` of `rect` lies within the threshold of `ellipse`. */
  predicate CornerInEllipse(ellipse: Bounds, rect: Bounds, i: int)
    requires |ellipse| == 4 && |rect| == 4 && ellipse[2] != 0.0 && ellipse[3] != 0.0 && 0 <= i < 4
  {
    var c := Corners(rect[0], rect[1], rect[2], rect[3])[i];
    NormalisedDistance(c.0, c.1, ellipse[0], ellipse[1], ellipse[2], ellipse[3]) <= THRESHOLD
  }

  /** `ellipse_rect`: the ellipse `(h, k, rx, ry)` meets the rectangle
      `(x, y, w, h)` when one of the rectangle's corners lies within the
      threshold. Raises `ValueError` for a tuple of the wrong length and
      `ZeroDivisionError` for a zero radius. */
  function EllipseRect(ellipse: Bounds, rect: Bounds): (r: Result<bool>)
    ensures r == Err(ValueError) <==> |ellipse| != 4 || |rect| != 4
    ensures r == Err(ZeroDivisionError) <==>
              |ellipse| == 4 && |rect| == 4 && (ellipse[2] == 0.0 || ellipse[3] == 0.0)
    ensures r.Ok? ==> (r.value <==> exists i :: 0 <= i < 4 && CornerInEllipse(ellipse, rect, i))
  {
    if |ellipse| != 4 || |rect| != 4 then Err(ValueError)
    else
      var h, k, rx, ry := ellipse[0], ellipse[1], ellipse[2], ellipse[3];
      var x, y, width, height := rect[0], rect[1], rect[2], rect[3];
      if rx == 0.0 || ry == 0.0 then Err(ZeroDivisionError)
      else
        var p1 := NormalisedDistance(x, y, h, k, rx, ry) <= THRESHOLD;
        var p2 := NormalisedDistance(x, y + height, h, k, rx, ry) <= THRESHOLD;
        var p3 := NormalisedDistance(x + width, y, h, k, rx, ry) <= THRESHOLD;
        var p4 := NormalisedDistance(x + width, y + height, h, k, rx, ry) <= THRESHOLD;
        assert p1 == CornerInEllipse(ellipse, rect, 0);
        assert p2 == CornerInEllipse(ellipse, rect, 1);
        assert p3 == CornerInEllipse(ellipse, rect, 2);
        assert p4 == CornerInEllipse(ellipse, rect, 3);
        Ok(p1 || p2 || p3 || p4)
  }

  /** Corner `i` of `rect` lies strictly inside `circle`. */
  predicate CornerInCircle(circle: Bounds, rect: Bounds, i: int)
    requires |circle| == 3 && |rect| == 4 && 0 <= i < 4
  {
    var c := Corners(rect[0], rect[1], rect[2], rect[3])[i];
    Square(c.0 - circle[0]) + Square(c.1 - circle[1]) < Square(circle[2])
  }

  /** The loop of `circle_rect` as the source writes it: each iteration binds
      the next corner to `(a, b)` but measures the distance of `(x, y)`. */
  function CornerLoopAsWritten(corners: seq<(real, real)>, x: real, y: real, cx: real, cy: real, r2: real): (inside: bool)
    ensures inside <==> |corners| > 0 && Square(x - cx) + Square(y - cy) < r2
  {
    if |corners| == 0 then false
    else if Square(x - cx) + Square(y - cy) < r2 then true
    else CornerLoopAsWritten(corners[1..], x, y, cx, cy, r2)
  }

  /** The same loop measuring the distance of the corner it visits. */
  function CornerLoop(corners: seq<(real, real)>, cx: real, cy: real, r2: real): (inside: bool)
    ensures inside <==> exists i :: 0 <= i < |corners| && Square(corners[i].0 - cx) + Square(corners[i].1 - cy) < r2
  {
    if |corners| == 0 then false
    else if Square(corners[0].0 - cx) + Square(corners[0].1 - cy) < r2 then true
    else
      var rest := CornerLoop(corners[1..], cx, cy, r2);
      assert forall i :: 1 <= i < |corners| ==> corners[i] == corners[1..][i - 1];
      rest
  }

  /** `circle_rect` as the source writes it: all four iterations test the
      top-left corner, so the result depends on that corner alone. */
  function CircleRectAsWritten(circle: Bounds, rect: Bounds): (r: Result<bool>)
    ensures r.Err? <==> |rect| != 4 || |circle| != 3
    ensures r.Err? ==> r.error == ValueError
    ensures r.Ok? ==> (r.value <==> CornerInCircle(circle, rect, 0))
  {
    if |rect| != 4 || |circle| != 3 then Err(ValueError)
    else
      var x, y, w, h := rect[0], rect[1], rect[2], rect[3];
      var cx, cy, radius := circle[0], circle[1], circle[2];
      Ok(CornerLoopAsWritten(Corners(x, y, w, h), x, y, cx, cy, Square(radius)))
  }

  /** `circle_rect` as evidently intended: the circle `(cx, cy, r)` meets the
      rectangle when one of its four corners lies strictly inside it. */
  function CircleRect(circle: Bounds, rect: Bounds): (r: Result<bool>)
    ensures r.Err? <==> |rect| != 4 || |circle| != 3
    ensures r.Err? ==> r.error == ValueError
    ensures r.Ok? ==> (r.value <==> exists i :: 0 <= i < 4 && CornerInCircle(circle, rect, i))
  {
    if |rect| != 4 || |circle| != 3 then Err(ValueError)
    else
      var x, y, w, h := rect[0], rect[1], rect[2], rect[3];
      var cx, cy, radius := circle[0], circle[1], circle[2];
      var corners := Corners(x, y, w, h);
      assert forall i :: 0 <= i < 4 ==>
        (CornerInCircle(circle, rect, i) <==> Square(corners[i].0 - cx) + Square(corners[i].1 - cy) < Square(radius));
      Ok(CornerLoop(corners, cx, cy, Square(radius)))
  }

  /** `circle_circle`: the circles overlap when the squared distance of the
      centres is strictly less than the squared sum of the radii. */
  function CircleCircle(c1: Bounds, c2: Bounds): (r: Result<bool>)
    ensures r.Err? <==> |c1| != 3 || |c2| != 3
    ensures r.Err? ==> r.error == ValueError
  {
    if |c1| != 3 || |c2| != 3 then Err(ValueError)
    else Ok(Square(c1[0] - c2[0]) + Square(c1[1] - c2[1]) < Square(c1[2] + c2[2]))
  }

  /** `rect_rect`: false only when the rectangles are strictly apart along x
      or along y, so rectangles that share an edge collide. */
  function RectRect(r1: Bounds, r2: Bounds): (r: Result<bool>)
    ensures r.Err? <==> |r1| != 4 || |r2| != 4
    ensures r.Err? ==> r.error == ValueError
  {
    if |r1| != 4 || |r2| != 4 then Err(ValueError)
    else
      var x1, y1, w1, h1 := r1[0], r1[1], r1[2], r1[3];
      var x2, y2, w2, h2 := r2[0], r2[1], r2[2], r2[3];
      if x1 > x2 + w2 || x1 + w1 < x2 then Ok(false)
      else if y1 > y2 + h2 || y1 + h1 < y2 then Ok(false)
      else Ok(true)
  }

  /** `invert`: the same test with its operands swapped. */
  function Invert(test: Test): (inverted: Test)
    ensures forall a, b :: inverted(a, b) == test(b, a)
  {
    (a, b) => test(b, a)
  }

  /** The dispatch table, keyed by `"<own shape>_<other shape>"`, with
      `circleRect` as its circle-rectangle test. The `"ellipse_ellipse"`
      entry is the circle test. */
  function TableWith(circleRect: Test): map<string, Test> {
    map[
      "ellipse_rect" := EllipseRect,
      "rect_ellipse" := Invert(EllipseRect),
      "circle_rect" := circleRect,
      "rect_circle" := Invert(circleRect),
      "rect_rect" := RectRect,
      "circle_circle" := CircleCircle,
      "ellipse_ellipse" := CircleCircle
    ]
  }

  /** The table as the source builds it, with `circle_rect` as written. */
  function Functions(): map<string, Test> {
    TableWith(CircleRectAsWritten)
  }

  /** The table with the corrected `circle_rect`. */
  function FunctionsCorrected(): map<string, Test> {
    TableWith(CircleRect)
  }

  /** The table key for a pair of shape names. */
  function Key(shape: string, other: string): string {
    shape + "_" + other
  }

  /** `did_collide`: looks up the test for the pair of shapes and applies it
      to the two objects' bounds; a pair the table does not know never
      collides. */
  function DidCollide(shape: string, bounds: Bounds, otherShape: string, otherBounds: Bounds): (r: Result<bool>)
    ensures Key(shape, otherShape) !in Functions() ==> r == Ok(false)
    ensures Key(shape, otherShape) in Functions() ==>
              r == Functions()[Key(shape, otherShape)](bounds, otherBounds)
  {
    var key := Key(shape, otherShape);
    if key in Functions() then Functions()[key](bounds, otherBounds) else Ok(false)
  }

  /** `did_collide` over the table with the corrected `circle_rect`. */
  function DidCollideCorrected(shape: string, bounds: Bounds, otherShape: string, otherBounds: Bounds): (r: Result<bool>)
    ensures Key(shape, otherShape) !in FunctionsCorrected() ==> r == Ok(false)
    ensures Key(shape, otherShape) in FunctionsCorrected() ==>
              r == FunctionsCorrected()[Key(shape, otherShape)](bounds, otherBounds)
  {
    var key := Key(shape, otherShape);
    if key in FunctionsCorrected() then FunctionsCorrected()[key](bounds, otherBounds) else Ok(false)
  }

  /** Rectangles that share an edge collide: the comparisons are inclusive. */
  lemma RectRectTouchingEdges()
    ensures RectRect([0.0, 0.0, 10.0, 10.0], [10.0, 0.0, 10.0, 10.0]) == Ok(true)
    ensures RectRect([0.0, 0.0, 10.0, 10.0], [10.5, 0.0, 10.0, 10.0]) == Ok(false)
  {
  }

  lemma RectRectSymmetric(r1: Bounds, r2: Bounds)
    ensures RectRect(r1, r2) == RectRect(r2, r1)
  {
  }

  /** A closed rectangle `(x, y, w, h)` with non-negative size contains the point. */
  ghost predicate InRect(r: Bounds, px: real, py: real)
    requires |r| == 4
  {
    r[0] <= px <= r[0] + r[2] && r[1] <= py <= r[1] + r[3]
  }

  /** For rectangles of non-negative size, `rect_rect` holds exactly when the
      two closed rectangles share a point. */
  lemma RectRectSharedPoint(r1: Bounds, r2: Bounds)
    requires |r1| == 4 && |r2| == 4
    requires r1[2] >= 0.0 && r1[3] >= 0.0 && r2[2] >= 0.0 && r2[3] >= 0.0
    ensures RectRect(r1, r2) == Ok(exists px, py :: InRect(r1, px, py) && InRect(r2, px, py))
  {
    if RectRect(r1, r2) == Ok(true) {
      var px := if r1[0] >= r2[0] then r1[0] else r2[0];
      var py := if r1[1] >= r2[1] then r1[1] else r2[1];
      assert InRect(r1, px, py) && InRect(r2, px, py);
    } else {
      forall px, py | InRect(r1, px, py) ensures !InRect(r2, px, py) {
      }
    }
  }

  /** Circles whose centres are exactly the sum of the radii apart do not
      collide: the comparison is strict. */
  lemma CircleCircleTangent()
    ensures CircleCircle([0.0, 0.0, 4.0], [10.0, 0.0, 6.0]) == Ok(false)
    ensures CircleCircle([0.0, 0.0, 4.0], [9.5, 0.0, 6.0]) == Ok(true)
  {
  }

  /** Squaring preserves order on non-negative values. */
  lemma SquareMonotone(a: real, b: real)
    requires 0.0 <= a <= b
    ensures Square(a) <= Square(b)
  {
    var e := b - a;
    assert b * b == a * a + 2.0 * a * e + e * e;
    assert a * e >= 0.0 && e * e >= 0.0;
  }

  /** Moving both circles by the same offset does not change the answer. */
  lemma {:induction false} CircleCircleTranslated(c1: Bounds, c2: Bounds, dx: real, dy: real)
    requires |c1| == 3 && |c2| == 3
    ensures CircleCircle([c1[0] + dx, c1[1] + dy, c1[2]], [c2[0] + dx, c2[1] + dy, c2[2]]) == CircleCircle(c1, c2)
  {
    assert (c1[0] + dx) - (c2[0] + dx) == c1[0] - c2[0];
    assert (c1[1] + dy) - (c2[1] + dy) == c1[1] - c2[1];
  }

  /** A circle of positive radius hits every circle of non-negative radius
      whose centre lies strictly inside it. */
  lemma CircleCircleCentreInside(c1: Bounds, c2: Bounds)
    requires |c1| == 3 && |c2| == 3 && c1[2] > 0.0 && c2[2] >= 0.0
    requires Square(c2[0] - c1[0]) + Square(c2[1] - c1[1]) < Square(c1[2])
    ensures CircleCircle(c1, c2) == Ok(true)
  {
    SquareMonotone(c1[2], c1[2] + c2[2]);
    assert Square(c1[0] - c2[0]) == Square(c2[0] - c1[0]);
    assert Square(c1[1] - c2[1]) == Square(c2[1] - c1[1]);
  }

  /** Circles of non-negative radius whose centres lie at least the sum of
      the radii apart along one axis, either one, miss each other. */
  lemma CircleCircleApart(c1: Bounds, c2: Bounds)
    requires |c1| == 3 && |c2| == 3 && c1[2] >= 0.0 && c2[2] >= 0.0
    requires Apart(c1[0], c2[0], c1[2] + c2[2]) || Apart(c1[1], c2[1], c1[2] + c2[2])
    ensures CircleCircle(c1, c2) == Ok(false)
  {
    var i := if Apart(c1[0], c2[0], c1[2] + c2[2]) then 0 else 1;
    var d := if c2[i] - c1[i] >= c1[2] + c2[2] then c2[i] - c1[i] else c1[i] - c2[i];
    SquareMonotone(c1[2] + c2[2], d);
    assert Square(c1[i] - c2[i]) == Square(d);
  }

  /** Two coordinates are at least `gap` apart. */
  predicate Apart(a: real, b: real, gap: real) {
    b - a >= gap || a - b >= gap
  }

  lemma CircleCircleSymmetric(c1: Bounds, c2: Bounds)
    ensures CircleCircle(c1, c2) == CircleCircle(c2, c1)
  {
  }

  /** The 0.9 threshold: a rectangle whose nearest corner lies exactly on the
      ellipse's boundary does not collide, one with a corner at the centre does. */
  lemma EllipseRectThreshold()
    ensures EllipseRect([0.0, 0.0, 10.0, 10.0], [10.0, 0.0, 5.0, 5.0]) == Ok(false)
    ensures EllipseRect([0.0, 0.0, 10.0, 10.0], [0.0, 0.0, 5.0, 5.0]) == Ok(true)
    ensures EllipseRect([0.0, 0.0, 0.0, 10.0], [0.0, 0.0, 5.0, 5.0]) == Err(ZeroDivisionError)
  {
  }

  lemma KeysOfTable()
    ensures Key(ELLIPSE, RECT) == "ellipse_rect" && Key(RECT, ELLIPSE) == "rect_ellipse"
    ensures Key(CIRCLE, RECT) == "circle_rect" && Key(RECT, CIRCLE) == "rect_circle"
    ensures Key(RECT, RECT) == "rect_rect" && Key(CIRCLE, CIRCLE) == "circle_circle"
    ensures Key(ELLIPSE, ELLIPSE) == "ellipse_ellipse"
  {
  }

  /** A circle centred on the top-right corner of a rectangle: the source's
      loop only ever measures the top-left corner and reports no collision,
      although a corner lies inside the circle. */
  lemma CircleRectMissesOtherCorners()
    ensures CircleRectAsWritten([10.0, 0.0, 5.0], [0.0, 0.0, 10.0, 10.0]) == Ok(false)
    ensures CircleRect([10.0, 0.0, 5.0], [0.0, 0.0, 10.0, 10.0]) == Ok(true)
  {
    assert CornerInCircle([10.0, 0.0, 5.0], [0.0, 0.0, 10.0, 10.0], 2);
  }

  /** Every collision the source's loop reports is one the corrected test
      reports too; the converse fails (see above). */
  lemma CircleRectAsWrittenIsWeaker(circle: Bounds, rect: Bounds)
    requires CircleRectAsWritten(circle, rect) == Ok(true)
    ensures CircleRect(circle, rect) == Ok(true)
  {
    assert CornerInCircle(circle, rect, 0);
  }

  /** `rect_ellipse` and `rect_circle` are their mirrored tests; a circle
      and a rectangle go through the loop as written. */
  lemma DidCollideMirrored(e: Bounds, c: Bounds, r: Bounds)
    ensures DidCollide(RECT, r, ELLIPSE, e) == EllipseRect(e, r) == DidCollide(ELLIPSE, e, RECT, r)
    ensures DidCollide(RECT, r, CIRCLE, c) == CircleRectAsWritten(c, r) == DidCollide(CIRCLE, c, RECT, r)
  {
    KeysOfTable();
  }

  /** The two tables differ only in the circle-rectangle pairs: every other
      pair of shapes gets the same answer. */
  lemma DidCollideCorrectedAgrees(s1: string, b1: Bounds, s2: string, b2: Bounds)
    requires IsShape(s1) && IsShape(s2)
    requires !(s1 == CIRCLE && s2 == RECT) && !(s1 == RECT && s2 == CIRCLE)
    ensures DidCollideCorrected(s1, b1, s2, b2) == DidCollide(s1, b1, s2, b2)
  {
    KeysOfTable();
    assert Functions().Keys == FunctionsCorrected().Keys;
    if s1 == BOX || s2 == BOX {
      NoBoxKeys(Key(s1, s2));
    }
  }

  /** On a circle and a rectangle, the corrected `did_collide` reports every
      hit of the source's, in either order, and the circle around the
      top-right corner besides. */
  lemma DidCollideCorrectedCircleRect(c: Bounds, r: Bounds)
    ensures DidCollideCorrected(CIRCLE, c, RECT, r) == CircleRect(c, r) == DidCollideCorrected(RECT, r, CIRCLE, c)
    ensures DidCollide(CIRCLE, c, RECT, r) == Ok(true) ==> DidCollideCorrected(CIRCLE, c, RECT, r) == Ok(true)
  {
    KeysOfTable();
    if DidCollide(CIRCLE, c, RECT, r) == Ok(true) {
      CircleRectAsWrittenIsWeaker(c, r);
    }
  }

  /** The `"ellipse_ellipse"` entry is the circle test, which fails on the
      four-element bounds an ellipse-shaped object reports. */
  lemma EllipseEllipseIsCircleTest(e1: Bounds, e2: Bounds)
    ensures DidCollide(ELLIPSE, e1, ELLIPSE, e2) == CircleCircle(e1, e2)
    ensures |e1| == 4 ==> DidCollide(ELLIPSE, e1, ELLIPSE, e2) == Err(ValueError)
  {
    KeysOfTable();
  }

  /** Pairs without an entry never collide, whatever their bounds. */
  lemma UnregisteredPairs(b1: Bounds, b2: Bounds)
    ensures DidCollide(ELLIPSE, b1, CIRCLE, b2) == Ok(false)
    ensures DidCollide(CIRCLE, b1, ELLIPSE, b2) == Ok(false)
    ensures forall shape :: DidCollide(BOX, b1, shape, b2) == Ok(false)
    ensures forall shape :: DidCollide(shape, b1, BOX, b2) == Ok(false)
  {
    assert Key(ELLIPSE, CIRCLE) == "ellipse_circle";
    assert Key(CIRCLE, ELLIPSE) == "circle_ellipse";
    forall shape ensures Key(BOX, shape) !in Functions() {
      NoBoxKeys(Key(BOX, shape));
    }
    forall shape ensures Key(shape, BOX) !in Functions() {
      NoBoxKeys(Key(shape, BOX));
    }
  }

  /** No key of the table starts or ends with the box shape. */
  lemma NoBoxKeys(key: string)
    requires |key| > 0 && (key[0] == 'b' || key[|key| - 1] == 'x')
    ensures key !in Functions()
  {
    assert Functions().Keys == {"ellipse_rect", "rect_ellipse", "circle_rect", "rect_circle",
                                "rect_rect", "circle_circle", "ellipse_ellipse"};
    if key[0] == 'b' {
      assert key != "ellipse_rect" && key != "rect_ellipse" && key != "circle_rect";
      assert key != "rect_circle" && key != "rect_rect" && key != "circle_circle";
      assert key != "ellipse_ellipse";
    } else {
      assert key != "ellipse_rect" by { assert "ellipse_rect"[11] == 't'; }
      assert key != "rect_ellipse" by { assert "rect_ellipse"[11] == 'e'; }
      assert key != "circle_rect" by { assert "circle_rect"[10] == 't'; }
      assert key != "rect_circle" by { assert "rect_circle"[10] == 'e'; }
      assert key != "rect_rect" by { assert "rect_rect"[8] == 't'; }
      assert key != "circle_circle" by { assert "circle_circle"[12] == 'e'; }
      assert key != "ellipse_ellipse" by { assert "ellipse_ellipse"[14] == 'e'; }
    }
  }

  /** The declared shapes: box, ellipse, rect and circle. */
  predicate IsShape(s: string) {
    s == BOX || s == ELLIPSE || s == RECT || s == CIRCLE
  }

  /** For every pair of declared shapes, swapping the two objects does not
      change the outcome of `did_collide`. */
  lemma DidCollideSymmetric(s1: string, b1: Bounds, s2: string, b2: Bounds)
    requires IsShape(s1) && IsShape(s2)
    ensures DidCollide(s1, b1, s2, b2) == DidCollide(s2, b2, s1, b1)
  {
    KeysOfTable();
    UnregisteredPairs(b1, b2);
    UnregisteredPairs(b2, b1);
    RectRectSymmetric(b1, b2);
    CircleCircleSymmetric(b1, b2);
    if s1 == BOX || s2 == BOX {
      NoBoxKeys(Key(s1, s2));
      NoBoxKeys(Key(s2, s1));
    }
  }
}

=== FILE: controllers.dfy ===
/** Movement controllers (engine/controllers.py).

    The source writes each controller as an infinite generator of `(dx, dy)`
    pairs. Here a controller is a state value and `Next` is one call of
    `next()`: it returns the pair and the controller's following state.
    `sin`, `exp` and `pi` are taken as parameters, so the sine and sigmoid
    controllers are verified for an arbitrary curve. */
module Controllers {
  import opened Wrappers
  import opened Vectors

  /** The values `exp` can take. */
  type Positive = r: real | r > 0.0 witness 1.0

  /** `(speed, value)` for a horizontal controller, `(value, speed)` for a
      vertical one: `speed` always lies on the primary axis. */
  function Orient(speed: real, value: real, vertical: bool): Vec {
    if vertical then Vec(value, speed) else Vec(speed, value)
  }

  function Primary(d: Vec, vertical: bool): real {
    if vertical then d.y else d.x
  }

  function Secondary(d: Vec, vertical: bool): real {
    if vertical then d.x else d.y
  }

  datatype Controller =
      /** `ConstantController(dx, dy, speed)`: stateless. */
    | Constant(dx: real, dy: real, speed: real)
      /** `SinController`: `i` is the position along the curve, `factor`
          the angular step `freq * 2 / length * pi`. */
    | Sin(amp: real, factor: real, speed: real, vertical: bool, i: real, sine: real -> real)
      /** The sigmoid family: `curve` is the controller's displacement curve,
          `x` the next sample point and `last` the previous sample. */
    | Telescoping(curve: real -> real, speed: real, vertical: bool, x: real, last: real)

  /** The sine controller's curve, `amp * sin(factor * x)`. */
  function Wave(amp: real, factor: real, sine: real -> real, x: real): real {
    amp * sine(factor * x)
  }

  datatype Step = Step(delta: Vec, next: Controller)

  /** One `next()` on the controller. */
  function Next(c: Controller): (s: Step)
    ensures c.Constant? ==> s.next == c
    ensures c.Sin? ==> s.next == c.(i := c.i + c.speed)
    ensures c.Sin? ==> Primary(s.delta, c.vertical) == c.speed
    ensures c.Telescoping? ==> Primary(s.delta, c.vertical) == c.speed
    ensures c.Telescoping? ==> s.next == c.(x := c.x + c.speed, last := c.curve(c.x))
  {
    match c
    case Constant(_, _, _) =>
      Step(Vec(c.dx * c.speed, c.dy * c.speed), c)
    case Sin(_, _, _, _, _, _) =>
      Step(Orient(c.speed, Wave(c.amp, c.factor, c.sine, c.i), c.vertical), c.(i := c.i + c.speed))
    case Telescoping(_, _, _, _, _) =>
      var next := c.curve(c.x);
      Step(Orient(c.speed, next - c.last, c.vertical), c.(x := c.x + c.speed, last := next))
  }

  lemma SinStep(c: Controller)
    requires c.Sin?
    ensures Next(c).delta == Orient(c.speed, Wave(c.amp, c.factor, c.sine, c.i), c.vertical)
  {
  }

  lemma TelescopingStep(c: Controller)
    requires c.Telescoping?
    ensures Secondary(Next(c).delta, c.vertical) == c.curve(c.x) - c.last
  {
  }

  /** The controller's state after `k` calls of `next()`. */
  function After(c: Controller, k: nat): Controller
    decreases k
  {
    if k == 0 then c else After(Next(c).next, k - 1)
  }

  /** The first `n` pairs the controller yields: the `k`-th is the pair of
      one `next()` on the state the first `k` calls left behind. */
  function Run(c: Controller, n: nat): (ds: seq<Vec>)
    ensures |ds| == n
    ensures forall k :: 0 <= k < n ==> ds[k] == Next(After(c, k)).delta
    decreases n
  {
    if n == 0 then [] else var s := Next(c); [s.delta] + Run(s.next, n - 1)
  }

  /** `ConstantController` yields the same pair on every call, for ever. */
  lemma {:induction false} ConstantForever(dx: real, dy: real, speed: real, n: nat)
    ensures forall k :: 0 <= k < n ==> Run(Constant(dx, dy, speed), n)[k] == Vec(dx * speed, dy * speed)
  {
    if n > 0 {
      var c := Constant(dx, dy, speed);
      ConstantForever(dx, dy, speed, n - 1);
      assert Next(c).delta == Vec(dx * speed, dy * speed);
      assert Next(c).next == c;
      assert Run(c, n) == [Vec(dx * speed, dy * speed)] + Run(c, n - 1);
    }
  }

  /** `SinController(length, freq, amp, speed, vertical)`; `pi` and `sine`
      stand for `math.pi` and `math.sin`. A zero `length` divides by zero on
      the first call, after which the generator is finished. */
  function MakeSin(length: real, freq: real, amp: real, speed: real, vertical: bool, pi: real, sine: real -> real): (r: Result<Controller>)
    ensures length == 0.0 <==> r.Err?
    ensures r.Ok? ==> r.value.Sin? && r.value.i == 0.0 && r.value.factor == freq * 2.0 / length * pi
  {
    if length == 0.0 then Err(ZeroDivisionError)
    else Ok(Sin(amp, freq * 2.0 / length * pi, speed, vertical, 0.0, sine))
  }

  /** The point at which the `k`-th call (from 0) of a sine or sigmoid-family
      controller that starts at `i` samples its curve. */
  function SamplePoint(i: real, speed: real, k: nat): real {
    i + k as real * speed
  }

  /** The `k`-th pair of a sine controller: `speed` on the primary axis and
      the curve's absolute value, not a difference, on the other; the sample
      point advances by `speed` per call. */
  lemma {:induction false} SinSample(amp: real, factor: real, speed: real, vertical: bool, i: real, sine: real -> real, n: nat, k: nat)
    requires k < n
    ensures Run(Sin(amp, factor, speed, vertical, i, sine), n)[k]
            == Orient(speed, Wave(amp, factor, sine, SamplePoint(i, speed, k)), vertical)
  {
    var c := Sin(amp, factor, speed, vertical, i, sine);
    SinAfter(c, k);
    SinStep(After(c, k));
  }

  /** After `k` calls a sine controller has moved its sample point `k`
      steps of `speed` along the curve and changed nothing else. */
  lemma {:induction false} SinAfter(c: Controller, k: nat)
    requires c.Sin?
    ensures After(c, k) == c.(i := SamplePoint(c.i, c.speed, k))
    decreases k
  {
    if k > 0 {
      var d := c.(i := c.i + c.speed);
      assert Next(c).next == d;
      SinAfter(d, k - 1);
      StepAhead(c.i, (k - 1) as real, c.speed);
    }
  }

  lemma SinSamples(c: Controller, n: nat)
    requires c.Sin?
    ensures forall k :: 0 <= k < n ==>
              Run(c, n)[k] == Orient(c.speed, Wave(c.amp, c.factor, c.sine, SamplePoint(c.i, c.speed, k)), c.vertical)
  {
    forall k | 0 <= k < n
      ensures Run(c, n)[k] == Orient(c.speed, Wave(c.amp, c.factor, c.sine, SamplePoint(c.i, c.speed, k)), c.vertical)
    {
      SinSample(c.amp, c.factor, c.speed, c.vertical, c.i, c.sine, n, k);
    }
  }

  /** `20 / length` scaled so that the curve spans `[0, length]`: the
      exponent `-(x * 20 / length - 10)` of `__sigmoid`. */
  function Exponent(x: real, length: real): real
    requires length != 0.0
  {
    -(x * (20.0 / length) - 10.0)
  }

  /** The exponent vanishes exactly at the midpoint of the curve, where the
      logistic value is one half. */
  lemma ExponentZeroAtMidpoint(x: real, length: real)
    requires length != 0.0
    ensures Exponent(x, length) == 0.0 <==> x == length / 2.0
    ensures Exponent(x, length) > 0.0 <==> x * (20.0 / length) < 10.0
  {
    if Exponent(x, length) == 0.0 {
      assert x * (20.0 / length) == 10.0;
      assert x * 20.0 == 10.0 * length;
    }
  }

  /** `__sigmoid(x, temperature, length)`: `1 / (exp(e / temperature) + 1)`
      for the exponent above; `exp` is a parameter. */
  function Logistic(exp: real -> Positive, x: real, temperature: real, length: real): (s: real)
    requires length != 0.0 && temperature != 0.0
    ensures 0.0 < s < 1.0
  {
    1.0 / (exp(Exponent(x, length) / temperature) + 1.0)
  }

  /** Which of the three sigmoid-family controllers. */
  datatype Family = Sigmoid | SigmoidPrime | InvertedSigmoid

  /** The displacement of each controller for logistic value `s`:
      `amp (2s - 1)`, `4 amp s (1 - s)` and `amp (1 - (2s - 1))`. */
  function Shape(family: Family, amp: real, s: real): real {
    match family
    case Sigmoid => amp * (2.0 * s - 1.0)
    case SigmoidPrime => amp * 4.0 * (s * (1.0 - s))
    case InvertedSigmoid => amp * (1.0 - (2.0 * s - 1.0))
  }

  /** `SigmoidController`, `SigmoidPrimeController` and
      `InvertedSigmoidController`: `x` starts at 0 and `last` at 0. A zero
      `length` or `temperature` divides by zero on the first call, after
      which the generator is finished. */
  function MakeSigmoid(family: Family, length: real, amp: real, temperature: real, speed: real, vertical: bool,
                       exp: real -> Positive): (r: Result<Controller>)
    ensures length == 0.0 || temperature == 0.0 <==> r.Err?
    ensures r.Ok? ==> r.value.Telescoping? && r.value.x == 0.0 && r.value.last == 0.0
    ensures r.Ok? ==> forall x :: r.value.curve(x) == Shape(family, amp, Logistic(exp, x, temperature, length))
  {
    if length == 0.0 || temperature == 0.0 then Err(ZeroDivisionError)
    else Ok(Telescoping(x => Shape(family, amp, Logistic(exp, x, temperature, length)), speed, vertical, 0.0, 0.0))
  }

  function SumSecondary(ds: seq<Vec>, vertical: bool): real {
    if |ds| == 0 then 0.0 else Secondary(ds[0], vertical) + SumSecondary(ds[1..], vertical)
  }

  /** Each sigmoid-family pair is the difference of consecutive samples of
      the curve, so the first `n` secondary components add up to the
      `n`-th sample less the starting `last`. */
  lemma {:induction false} Telescopes(c: Controller, n: nat)
    requires c.Telescoping? && n > 0
    ensures SumSecondary(Run(c, n), c.vertical) == c.curve(SamplePoint(c.x, c.speed, n - 1)) - c.last
    decreases n
  {
    var s := Next(c);
    var ds := Run(c, n);
    var p := SamplePoint(c.x, c.speed, n - 1);
    assert ds[1..] == Run(s.next, n - 1);
    TelescopingStep(c);
    assert SumSecondary(ds, c.vertical) == (c.curve(c.x) - c.last) + SumSecondary(ds[1..], c.vertical);
    if n == 1 {
      assert p == c.x;
      assert SumSecondary(ds[1..], c.vertical) == 0.0;
    } else {
      Telescopes(s.next, n - 1);
      var q := SamplePoint(s.next.x, s.next.speed, n - 2);
      assert q == p by {
        StepAhead(c.x, (n - 2) as real, c.speed);
      }
      assert s.next.curve(q) == c.curve(p);
      assert s.next.last == c.curve(c.x);
    }
  }

  /** One more step of size `s` from `a + m s`. */
  lemma StepAhead(a: real, m: real, s: real)
    ensures a + s + m * s == a + (m + 1.0) * s
  {
  }

  /** From a fresh controller, the displacement after `n` calls is the curve
      at the last sample point `(n - 1) * speed`. */
  lemma FreshTelescopes(family: Family, length: real, amp: real, temperature: real, speed: real, vertical: bool,
                        exp: real -> Positive, n: nat)
    requires length != 0.0 && temperature != 0.0 && n > 0
    ensures var c := MakeSigmoid(family, length, amp, temperature, speed, vertical, exp).value;
            SumSecondary(Run(c, n), vertical) == Shape(family, amp, Logistic(exp, (n - 1) as real * speed, temperature, length))
  {
    var c := MakeSigmoid(family, length, amp, temperature, speed, vertical, exp).value;
    Telescopes(c, n);
    assert SamplePoint(c.x, c.speed, n - 1) == (n - 1) as real * speed;
  }

  /** Every controller keeps `speed` on its primary axis, call after call. */
  lemma {:induction false} PrimaryIsSpeed(c: Controller, n: nat)
    requires !c.Constant?
    ensures forall k :: 0 <= k < n ==> Primary(Run(c, n)[k], c.vertical) == c.speed
    decreases n
  {
    if n > 0 {
      var s := Next(c);
      PrimaryIsSpeed(s.next, n - 1);
      assert Run(c, n) == [s.delta] + Run(s.next, n - 1);
    }
  }
}

=== FILE: enemy.dfy ===
/** A simple non-player character and a wave of them (objects/enemy.py).
    An enemy is a sprite steered by its controller with the horizontal
    component negated, so it flies right to left. */
module Enemy {
  import opened Wrappers
  import opened Vectors
  import Sprite
  import Controllers

  /** The enemy's sprite and its controller; `None` stands for the default
      `controller=None`, on which `next()` raises. */
  datatype Enemy = Enemy(sprite: Sprite.Sprite, behavior: Option<Controllers.Controller>)

  /** The image of an enemy: its size and animation duration. */
  datatype Image = Image(w: int, h: int, duration: real)

  /** `randint(50, y - 50)` from the raw draw `d`: an empty range raises
      `ValueError`. */
  function StartHeight(canvasH: int, d: nat): (r: Result<int>)
    ensures r.Ok? <==> canvasH >= 100
    ensures r.Err? ==> r.error == ValueError
    ensures r.Ok? ==> 50 <= r.value <= canvasH - 50
  {
    if canvasH - 50 < 50 then Err(ValueError) else Ok(50 + d % (canvasH - 99))
  }

  /** Every height in the range is the draw of some value. */
  lemma StartHeightCovers(canvasH: int, y: int)
    requires 50 <= y <= canvasH - 50
    ensures StartHeight(canvasH, (y - 50) as nat) == Ok(y)
  {
  }

  /** `Enemy(canvas_size, image, controller, animate)`: the sprite starts at
      the right edge, at a random height at least 50 pixels from the top and
      the bottom. */
  function NewEnemy(canvasW: int, canvasH: int, image: Image, controller: Option<Controllers.Controller>,
                    animate: bool, d: nat): (r: Result<Enemy>)
    ensures r.Ok? <==> canvasH >= 100
    ensures r.Ok? ==> r.value.sprite.pos.x == canvasW as real
    ensures r.Ok? ==> 50.0 <= r.value.sprite.pos.y <= (canvasH - 50) as real
    ensures r.Ok? ==> r.value.sprite.visible && r.value.sprite.speed == 1.0 && r.value.behavior == controller
  {
    var sy :- StartHeight(canvasH, d);
    Ok(Enemy(Sprite.NewSprite(Vec(canvasW as real, sy as real), image.w, image.h, 1.0, animate, image.duration),
             controller))
  }

  /** `update()`: the controller's next pair, with `dx` negated, becomes
      the sprite's move; a failing controller gives no move. The sprite is
      advanced either way. */
  function Update(e: Enemy): (e': Enemy)
    ensures e.behavior.None? ==> e'.sprite.move == Vec(0.0, 0.0) && e'.behavior == e.behavior
    ensures e.behavior.Some? ==>
              var d := Controllers.Next(e.behavior.value).delta;
              e'.sprite.move == Vec(-d.x, d.y) && e'.behavior == Some(Controllers.Next(e.behavior.value).next)
    ensures e'.sprite.pos == e.sprite.pos.Plus(e'.sprite.move.Scale(e.sprite.speed))
    ensures e'.sprite.visible == e.sprite.visible && e'.sprite.speed == e.sprite.speed
  {
    match e.behavior
    case None => Enemy(Sprite.Update(e.sprite.(move := Vec(0.0, 0.0))), None)
    case Some(c) =>
      var step := Controllers.Next(c);
      Enemy(Sprite.Update(e.sprite.(move := Vec(-step.delta.x, step.delta.y))), Some(step.next))
  }

  /** `n` updates in a row. */
  function UpdateTimes(e: Enemy, n: nat): Enemy
    decreases n
  {
    if n == 0 then e else UpdateTimes(Update(e), n - 1)
  }

  /** The move a `ConstantController` gives: its pair with `dx` negated. */
  function Drift(c: Controllers.Controller): Vec
    requires c.Constant?
  {
    Vec(-(c.dx * c.speed), c.dy * c.speed)
  }

  /** The enemy's sprite with the move its constant controller gives. */
  function Steered(e: Enemy): Sprite.Sprite
    requires e.behavior.Some? && e.behavior.value.Constant?
  {
    e.sprite.(move := Drift(e.behavior.value))
  }

  /** One update under a constant controller keeps the controller and
      advances the steered sprite. */
  lemma ConstantStep(e: Enemy)
    requires e.behavior.Some? && e.behavior.value.Constant?
    ensures Update(e) == Enemy(Sprite.Update(Steered(e)), e.behavior)
    ensures Steered(Update(e)) == Sprite.Update(Steered(e))
  {
    assert Controllers.Next(e.behavior.value).next == e.behavior.value;
  }

  /** Under a `ConstantController` an enemy drifts by the same mirrored step
      on every frame: `n` updates move its sprite `n` times. */
  lemma {:induction false} ConstantDrift(e: Enemy, n: nat)
    requires e.behavior.Some? && e.behavior.value.Constant?
    ensures UpdateTimes(e, n + 1) == Enemy(Sprite.UpdateTimes(Steered(e), n + 1), e.behavior)
    decreases n
  {
    ConstantStep(e);
    var e1 := Update(e);
    assert UpdateTimes(e, n + 1) == UpdateTimes(e1, n);
    if n == 0 {
      assert Sprite.UpdateTimes(Steered(e), 1) == Sprite.Update(Steered(e));
    } else {
      ConstantDrift(e1, n - 1);
      SpriteShift(Steered(e), n);
    }
  }

  /** Updating a sprite `n` times after once is updating it `n + 1` times. */
  lemma {:induction false} SpriteShift(s: Sprite.Sprite, n: nat)
    ensures Sprite.UpdateTimes(Sprite.Update(s), n) == Sprite.UpdateTimes(s, n + 1)
  {
    if n > 0 {
      SpriteShift(s, n - 1);
    }
  }

  /** `Wave(count, controller_factory, canvas_size)`: the enemies are
      created one by one, then each is moved to the first one's height and
      100 pixels right of where it was for each place it has in the wave. */
  function NewWave(count: nat, canvasW: int, canvasH: int, image: Image,
                   factory: nat -> Option<Controllers.Controller>, draws: nat -> nat): (r: Result<seq<Enemy>>)
    ensures count == 0 ==> r == Err(IndexError)
    ensures count > 0 ==> (r.Ok? <==> canvasH >= 100)
    ensures r.Ok? ==> |r.value| == count
    ensures r.Ok? ==> forall i :: 0 <= i < count ==>
              r.value[i].sprite.pos == Vec(canvasW as real + 100.0 * i as real, r.value[0].sprite.pos.y)
    ensures r.Ok? ==> 50.0 <= r.value[0].sprite.pos.y <= (canvasH - 50) as real
    ensures r.Ok? ==> forall i :: 0 <= i < count ==> r.value[i].behavior == factory(i)
  {
    var enemies :- CreateEnemies(count, canvasW, canvasH, image, factory, draws, 0);
    if |enemies| == 0 then Err(IndexError)
    else
      var y := enemies[0].sprite.pos.y;
      Ok(seq(count, i requires 0 <= i < count =>
        enemies[i].(sprite := enemies[i].sprite.(pos := Vec(enemies[i].sprite.pos.x + 100.0 * i as real, y)))))
  }

  /** The enemies of the list comprehension, from the `k`-th on. */
  function CreateEnemies(count: nat, canvasW: int, canvasH: int, image: Image,
                         factory: nat -> Option<Controllers.Controller>, draws: nat -> nat, k: nat): (r: Result<seq<Enemy>>)
    requires k <= count
    ensures k < count ==> (r.Ok? <==> canvasH >= 100)
    ensures r.Ok? ==> |r.value| == count - k
    ensures r.Ok? ==> forall i :: 0 <= i < count - k ==>
              r.value[i].sprite.pos.x == canvasW as real && r.value[i].behavior == factory(k + i) &&
              50.0 <= r.value[i].sprite.pos.y <= (canvasH - 50) as real
    decreases count - k
  {
    if k == count then Ok([])
    else
      var e :- NewEnemy(canvasW, canvasH, image, factory(k), true, draws(k));
      var rest :- CreateEnemies(count, canvasW, canvasH, image, factory, draws, k + 1);
      Ok([e] + rest)
  }

  /** Neighbours in a wave are 100 pixels apart and level. */
  lemma WaveSpacing(count: nat, canvasW: int, canvasH: int, image: Image,
                    factory: nat -> Option<Controllers.Controller>, draws: nat -> nat, i: nat)
    requires NewWave(count, canvasW, canvasH, image, factory, draws).Ok? && i + 1 < count
    ensures var w := NewWave(count, canvasW, canvasH, image, factory, draws).value;
            w[i + 1].sprite.pos.x - w[i].sprite.pos.x == 100.0 && w[i + 1].sprite.pos.y == w[i].sprite.pos.y
  {
  }
}

=== FILE: functions.dfy ===
/** Functions a game script can call (engine/functions.py): arithmetic over
    the script's numbers and random draws deferred as commands. */
module Functions {
  import opened Wrappers
  import opened PyNum
  import opened Util

  /** A number of a script: a Python `int` or a `float`. */
  datatype Number = IntN(i: int) | FloatN(f: real)

  /** `type(first)(x)`: `int(x)` truncates a float toward zero, `float(x)`
      widens an int. */
  function ConvertLike(first: Number, x: Number): (y: Number)
    ensures y.IntN? == first.IntN?
    ensures first.IntN? && x.IntN? ==> y == x
    ensures first.FloatN? && x.FloatN? ==> y == x
    ensures first.IntN? && x.FloatN? ==> y.i == Trunc(x.f)
    ensures first.FloatN? && x.IntN? ==> y.f == x.i as real
  {
    match (first, x)
    case (IntN(_), IntN(_)) => x
    case (IntN(_), FloatN(f)) => IntN(Trunc(f))
    case (FloatN(_), IntN(i)) => FloatN(i as real)
    case (FloatN(_), FloatN(_)) => x
  }

  /** The value of a number, as a real. */
  function Val(x: Number): real {
    match x
    case IntN(i) => i as real
    case FloatN(f) => f
  }

  /** `x + y` for two numbers of the same type. */
  function Plus(x: Number, y: Number): (z: Number)
    requires x.IntN? == y.IntN?
    ensures z.IntN? == x.IntN?
    ensures Val(z) == Val(x) + Val(y)
  {
    match (x, y)
    case (IntN(a), IntN(b)) => IntN(a + b)
    case (FloatN(a), FloatN(b)) => FloatN(a + b)
    case _ => assert false; x
  }

  /** `sum(xs, start)`: `start` plus every element, left to right. */
  function Sum(xs: seq<Number>, start: Number): (z: Number)
    requires forall k :: 0 <= k < |xs| ==> xs[k].IntN? == start.IntN?
    ensures z.IntN? == start.IntN?
    decreases |xs|
  {
    if |xs| == 0 then start else Sum(xs[1..], Plus(start, xs[0]))
  }

  /** The sum of the values, as reals. */
  function ValSum(xs: seq<Number>): real {
    if |xs| == 0 then 0.0 else Val(xs[0]) + ValSum(xs[1..])
  }

  lemma {:induction false} SumValue(xs: seq<Number>, start: Number)
    requires forall k :: 0 <= k < |xs| ==> xs[k].IntN? == start.IntN?
    ensures Val(Sum(xs, start)) == Val(start) + ValSum(xs)
    decreases |xs|
  {
    if |xs| > 0 {
      SumValue(xs[1..], Plus(start, xs[0]));
    }
  }

  /** `map(t, args)` with `t` the type of the first argument. */
  function ConvertAll(first: Number, xs: seq<Number>): (ys: seq<Number>)
    ensures |ys| == |xs|
    ensures forall k :: 0 <= k < |xs| ==> ys[k] == ConvertLike(first, xs[k])
  {
    if |xs| == 0 then [] else [ConvertLike(first, xs[0])] + ConvertAll(first, xs[1..])
  }

  /** `t()`: the zero of the first argument's type. */
  function Zero(first: Number): (z: Number)
    ensures z.IntN? == first.IntN? && Val(z) == 0.0
  {
    if first.IntN? then IntN(0) else FloatN(0.0)
  }

  /** `Add(*args)`: every argument converted to the type of the first and
      summed from that type's zero; no argument at all fails on `args[0]`. */
  function Add(args: seq<Number>): (r: Result<Number>)
    ensures |args| == 0 <==> r == Err(IndexError)
    ensures r.Ok? ==> r.value.IntN? == args[0].IntN?
    ensures r.Ok? ==> Val(r.value) == ValSum(ConvertAll(args[0], args))
  {
    if |args| == 0 then Err(IndexError)
    else
      var xs := ConvertAll(args[0], args);
      SumValue(xs, Zero(args[0]));
      Ok(Sum(xs, Zero(args[0])))
  }

  /** `Add(x)` is `x` again. */
  lemma AddSingle(x: Number)
    ensures Add([x]) == Ok(x)
  {
    var xs := ConvertAll(x, [x]);
    assert xs == [x];
    assert Sum(xs, Zero(x)) == Sum([], Plus(Zero(x), x));
  }

  /** `Sub(*args)` as written: `map(t, args)` is a lazy `map` object, so
      `args[1:]` raises `TypeError` whatever the arguments, after `args[0]`
      has raised `IndexError` on an empty call. */
  function SubAsWritten(args: seq<Number>): (r: Result<Number>)
    ensures |args| == 0 <==> r == Err(IndexError)
    ensures |args| > 0 <==> r == Err(TypeError)
  {
    if |args| == 0 then Err(IndexError) else Err(TypeError)
  }

  /** `-1 * x`. */
  function Negate(x: Number): (y: Number)
    ensures y.IntN? == x.IntN? && Val(y) == -Val(x)
  {
    match x
    case IntN(i) => IntN(-1 * i)
    case FloatN(f) => FloatN(-1.0 * f)
  }

  function NegateAll(xs: seq<Number>): (ys: seq<Number>)
    ensures |ys| == |xs|
    ensures forall k :: 0 <= k < |xs| ==> ys[k] == Negate(xs[k])
  {
    if |xs| == 0 then [] else [Negate(xs[0])] + NegateAll(xs[1..])
  }

  /** `Sub` as its documentation and name intend: the arguments converted
      to the first one's type, and the first less all the others. */
  function Sub(args: seq<Number>): (r: Result<Number>)
    ensures |args| == 0 <==> r == Err(IndexError)
    ensures r.Ok? ==> r.value.IntN? == args[0].IntN?
    ensures r.Ok? ==> Val(r.value) == Val(ConvertLike(args[0], args[0])) - ValSum(ConvertAll(args[0], args[1..]))
  {
    if |args| == 0 then Err(IndexError)
    else
      var xs := ConvertAll(args[0], args);
      var rest := NegateAll(xs[1..]);
      SumValue(rest, xs[0]);
      NegateSum(xs[1..]);
      assert xs[1..] == ConvertAll(args[0], args[1..]);
      Ok(Sum(rest, xs[0]))
  }

  lemma {:induction false} NegateSum(xs: seq<Number>)
    ensures ValSum(NegateAll(xs)) == -ValSum(xs)
  {
    if |xs| > 0 {
      NegateSum(xs[1..]);
      assert NegateAll(xs)[1..] == NegateAll(xs[1..]);
    }
  }

  /** Every call of `Sub` as written fails, where the intended subtraction
      succeeds: `Sub(5, 3)` raises instead of giving 2. */
  lemma SubAsWrittenFails()
    ensures SubAsWritten([IntN(5), IntN(3)]) == Err(TypeError)
    ensures Sub([IntN(5), IntN(3)]) == Ok(IntN(2))
  {
    var xs := ConvertAll(IntN(5), [IntN(5), IntN(3)]);
    assert xs == [IntN(5), IntN(3)];
    assert xs[1..] == [IntN(3)];
    assert NegateAll(xs[1..]) == [IntN(-3)];
  }

  /** Adding back what was subtracted restores the first argument, for
      integer arguments. */
  lemma AddUndoesSub(a: int, b: int)
    ensures Sub([IntN(a), IntN(b)]).Ok?
    ensures Add([Sub([IntN(a), IntN(b)]).value, IntN(b)]) == Ok(IntN(a))
  {
    var xs := ConvertAll(IntN(a), [IntN(a), IntN(b)]);
    assert xs == [IntN(a), IntN(b)];
    assert xs[1..] == [IntN(b)];
    assert NegateAll(xs[1..]) == [IntN(-1 * b)];
    assert Sum([IntN(-1 * b)], IntN(a)) == Sum([], IntN(a + -1 * b));
    var d := Sub([IntN(a), IntN(b)]).value;
    assert d == IntN(a - b);
    var ys := ConvertAll(d, [d, IntN(b)]);
    assert ys == [d, IntN(b)];
    assert Sum(ys, IntN(0)) == Sum([IntN(b)], IntN(a - b)) == Sum([], IntN(a));
  }

  /** The random-number callables a script's commands can hold. */
  datatype Builtin = RandInt | RandChoice

  /** A stored argument: a number, or the tuple `Choice` packs its
      arguments into. */
  datatype Arg = Num(n: int) | Tuple(items: seq<int>)

  function Nums(xs: seq<int>): (ys: seq<Arg>)
    ensures |ys| == |xs| && forall k :: 0 <= k < |xs| ==> ys[k] == Num(xs[k])
  {
    if |xs| == 0 then [] else [Num(xs[0])] + Nums(xs[1..])
  }

  /** `RandomInt(*args)`: `random.randint` with the arguments, deferred. */
  function RandomInt(args: seq<int>): Command<Builtin, Arg> {
    Command(RandInt, Nums(args), map[])
  }

  /** `Choice(*args)`: `random.choice` of the argument tuple, deferred. */
  function Choice(args: seq<int>): Command<Builtin, Arg> {
    Command(RandChoice, [Tuple(args)], map[])
  }

  /** Calling a builtin; `draw` stands for the generator's random state.
      `randint(a, b)` needs exactly two numbers and `a <= b`; `choice`
      needs exactly one non-empty sequence. */
  function Invoke(f: Builtin, args: seq<Arg>, kwargs: map<string, Arg>, draw: nat): (r: Result<int>)
    ensures f == RandInt && r.Ok? ==> |args| == 2 && args[0].Num? && args[1].Num? && args[0].n <= r.value <= args[1].n
    ensures f == RandChoice && r.Ok? ==> |args| == 1 && args[0].Tuple? && r.value in args[0].items
  {
    if kwargs != map[] then Err(TypeError)
    else match f
      case RandInt =>
        if |args| != 2 || !args[0].Num? || !args[1].Num? then Err(TypeError)
        else if args[0].n > args[1].n then Err(ValueError)
        else Ok(args[0].n + draw % (args[1].n - args[0].n + 1))
      case RandChoice =>
        if |args| != 1 || !args[0].Tuple? then Err(TypeError)
        else if |args[0].items| == 0 then Err(IndexError)
        else Ok(args[0].items[draw % |args[0].items|])
  }

  /** Running a deferred command with whatever arguments the caller gives. */
  function Execute(c: Command<Builtin, Arg>, callArgs: seq<Arg>, draw: nat): Result<int> {
    Call(c, callArgs, map[], (f, a, k) => Invoke(f, a, k, draw))
  }

  /** `RandomInt(a, b)()` is a number of `[a, b]`, and raises `ValueError`
      when the range is empty. */
  lemma RandomIntRange(a: int, b: int, callArgs: seq<Arg>, draw: nat)
    ensures Execute(RandomInt([a, b]), callArgs, draw).Err? <==> a > b
    ensures a > b ==> Execute(RandomInt([a, b]), callArgs, draw) == Err(ValueError)
    ensures a <= b ==> a <= Execute(RandomInt([a, b]), callArgs, draw).value <= b
  {
    assert Nums([a, b]) == [Num(a), Num(b)];
  }

  /** Every number of `[a, b]` is some draw's outcome. */
  lemma RandomIntCovers(a: int, b: int, v: int)
    requires a <= v <= b
    ensures exists draw: nat :: Execute(RandomInt([a, b]), [], draw) == Ok(v)
  {
    assert Nums([a, b]) == [Num(a), Num(b)];
    var draw: nat := v - a;
    assert draw % (b - a + 1) == draw;
    assert Execute(RandomInt([a, b]), [], draw) == Ok(v);
  }

  /** `Choice(*xs)()` is one of `xs`; no arguments raises `IndexError`. */
  lemma ChoiceMember(xs: seq<int>, callArgs: seq<Arg>, draw: nat)
    ensures |xs| == 0 <==> Execute(Choice(xs), callArgs, draw) == Err(IndexError)
    ensures |xs| > 0 ==> Execute(Choice(xs), callArgs, draw).Ok?
    ensures |xs| > 0 ==> Execute(Choice(xs), callArgs, draw).value in xs
  {
  }

  /** Every argument of `Choice` is some draw's outcome. */
  lemma ChoiceCovers(xs: seq<int>, k: nat)
    requires k < |xs|
    ensures exists draw: nat :: Execute(Choice(xs), [], draw) == Ok(xs[k])
  {
    assert k % |xs| == k;
    assert Execute(Choice(xs), [], k) == Ok(xs[k]);
  }
}

=== FILE: game.dfy ===
/** The game (engine/game.py): the table of scene descriptions, starting a
    scene, the per-frame order of work, and the choice of the next scene
    when the current one stops. Window, clock, fonts and the event pump are
    outside the model: each tick receives the input events and the window
    bounds. */
module Game {
  import opened Wrappers
  import opened Vectors
  import Keys
  import Scene

  /** The game: whether it runs, its scene descriptions by name, its key
      tables, the game-over flag, the current scene and the frame counter. */
  datatype Game<Obj, D> = Game(
    running: bool,
    scenes: map<string, Option<Scene.Config<Obj, D>>>,
    keys: Keys.Table,
    gameOver: bool,
    current: Option<Scene.State<Obj, D>>,
    frame: nat)

  /** `Game()`: not running, no scenes, Escape bound to `stop`, the
      game-over flag set. */
  function NewGame<Obj, D>(): (g: Game<Obj, D>)
    ensures !g.running && g.scenes == map[] && g.current.None? && g.gameOver
    ensures Keys.EscapeReserved(g.keys)
  {
    Game(false, map[], Keys.Initial(), true, None, 0)
  }

  /** `add_scene(scene)`: the description is stored under its name,
      replacing any earlier one of that name. */
  function AddScene<Obj, D>(g: Game<Obj, D>, c: Scene.Config<Obj, D>): (g': Game<Obj, D>)
    ensures c.name in g'.scenes && g'.scenes[c.name] == Some(c)
    ensures forall n :: n != c.name ==> (n in g'.scenes <==> n in g.scenes) && (n in g.scenes ==> g'.scenes[n] == g.scenes[n])
    ensures g'.keys == g.keys && g'.current == g.current
  {
    g.(scenes := g.scenes[c.name := Some(c)])
  }

  /** The scene methods that end the scene when a key handler calls them:
      `end_scene` and `_end_scene`, which forwards to it. */
  predicate EndsScene(handler: string) {
    handler == "end_scene" || handler == "_end_scene"
  }

  /** Binds each `(key, handler)` of a scene's `on_key` on key release.
      The two end-scene methods are the handlers bound; any other name
      raises `AttributeError`. */
  function BindSceneKeys(t: Keys.Table, bs: seq<Scene.KeyBinding>): (r: Result<Keys.Table>)
    ensures r.Ok? <==> forall k :: 0 <= k < |bs| ==> EndsScene(bs[k].handler)
    ensures r.Err? ==> r.error == AttributeError
    ensures r.Ok? ==> r.value.down == t.down
    ensures r.Ok? ==> forall k :: 0 <= k < |bs| && bs[k].key != Keys.ESCAPE ==> Keys.KeyUp(r.value, bs[k].key) == Keys.EndScene
    ensures r.Ok? ==> forall k :: k !in Scene.KeysOf(bs) ==> Keys.KeyUp(r.value, k) == Keys.KeyUp(t, k)
    ensures r.Ok? && Keys.EscapeReserved(t) ==> Keys.EscapeReserved(r.value)
    decreases |bs|
  {
    if |bs| == 0 then Ok(t)
    else if !EndsScene(bs[0].handler) then Err(AttributeError)
    else
      var t1 := Keys.OnKeyUp(t, Keys.One(bs[0].key), Keys.EndScene);
      var r := BindSceneKeys(t1, bs[1..]);
      assert forall k :: 1 <= k < |bs| ==> bs[k] == bs[1..][k - 1];
      assert forall k :: k !in Scene.KeysOf(bs) ==> k != bs[0].key && k !in Scene.KeysOf(bs[1..]);
      r
  }

  /** `__start_scene(script)`: the game-over flag is cleared; with no
      script the game stops; otherwise the scene is created and its keys
      bound. */
  function StartScene<Obj, D>(g: Game<Obj, D>, script: Option<Scene.Config<Obj, D>>): (r: Result<Game<Obj, D>>)
    ensures r.Ok? ==> !r.value.gameOver && r.value.frame == 0 && r.value.scenes == g.scenes
    ensures script.None? ==> r.Ok? && !r.value.running && r.value.current.None? && r.value.keys == g.keys
    ensures script.Some? && r.Ok? ==>
              r.value.running == g.running && r.value.current.Some? &&
              r.value.current.value.keyEvents == script.value.onKey &&
              Scene.NewScene(script.value) == Ok(r.value.current.value)
    ensures r.Ok? && Keys.EscapeReserved(g.keys) ==> Keys.EscapeReserved(r.value.keys)
  {
    match script
    case None => Ok(g.(gameOver := false, running := false, current := None, frame := 0))
    case Some(c) =>
      var s :- Scene.NewScene(c);
      var keys :- BindSceneKeys(g.keys, s.keyEvents);
      Ok(g.(gameOver := false, keys := keys, current := Some(s), frame := 0))
  }

  /** Which `next_scene` entry follows the current scene. */
  function Outcome(gameOver: bool): (n: string)
    ensures gameOver <==> n == "game_over"
    ensures !gameOver <==> n == "end_scene"
  {
    if gameOver then "game_over" else "end_scene"
  }

  /** The scene change in `run` once the current scene has stopped: the
      outcome names the next scene, whose description is started. A missing
      `next_scene` entry or scene raises `KeyError`. */
  function Transition<Obj, D>(g: Game<Obj, D>, s: Scene.State<Obj, D>): (r: Result<Game<Obj, D>>)
    ensures Outcome(g.gameOver) !in s.nextScene ==> r == Err(KeyError)
    ensures Outcome(g.gameOver) in s.nextScene && s.nextScene[Outcome(g.gameOver)] !in g.scenes ==> r == Err(KeyError)
    ensures Outcome(g.gameOver) in s.nextScene && s.nextScene[Outcome(g.gameOver)] in g.scenes ==>
              r == StartScene(g, g.scenes[s.nextScene[Outcome(g.gameOver)]])
  {
    var next := Outcome(g.gameOver);
    if next !in s.nextScene then Err(KeyError)
    else if s.nextScene[next] !in g.scenes then Err(KeyError)
    else StartScene(g, g.scenes[s.nextScene[next]])
  }

  /** A pygame event as the loop sees it. */
  datatype Input = Quit | KeyDown(key: int) | KeyUp(key: int) | Other

  /** The game and its current scene while a tick runs. */
  datatype Live<Obj, D> = Live(running: bool, world: Scene.World<Obj, D>)

  /** What a responder does: `stop` ends the game loop, `end_scene` ends the
      current scene; the ignore handler and other handlers change nothing
      the model holds. */
  function Respond<Obj, D>(l: Live<Obj, D>, r: Keys.Responder): (l': Live<Obj, D>)
    ensures r == Keys.Stop ==> l' == l.(running := false)
    ensures r == Keys.EndScene ==> l' == l.(world := Scene.EndScene(l.world))
    ensures !r.Stop? && !r.EndScene? ==> l' == l
  {
    match r
    case Stop => l.(running := false)
    case EndScene => l.(world := Scene.EndScene(l.world))
    case _ => l
  }

  /** One input event: `QUIT` stops, key events go through the key tables. */
  function HandleInput<Obj, D>(l: Live<Obj, D>, e: Input): (l': Live<Obj, D>)
    ensures e.Quit? ==> !l'.running
    ensures e == KeyUp(Keys.ESCAPE) && Keys.EscapeReserved(l.world.keys) ==> !l'.running
    ensures e == KeyDown(Keys.ESCAPE) ==> l' == l
    ensures l'.running ==> l.running
    ensures Keys.EscapeReserved(l.world.keys) ==> Keys.EscapeReserved(l'.world.keys)
  {
    match e
    case Quit => Respond(l, Keys.Stop)
    case KeyDown(k) => Respond(l, Keys.KeyDown(l.world.keys, k))
    case KeyUp(k) => Respond(l, Keys.KeyUp(l.world.keys, k))
    case Other => l
  }

  /** All the events of one tick, in order. */
  function HandleInputs<Obj, D>(l: Live<Obj, D>, es: seq<Input>): (l': Live<Obj, D>)
    ensures l'.running ==> l.running
    ensures Quit in es ==> !l'.running
    ensures Keys.EscapeReserved(l.world.keys) ==> Keys.EscapeReserved(l'.world.keys)
    ensures l.world.scene.stop ==> l'.world.scene.stop
    ensures l'.world.scene.objects == l.world.scene.objects && l'.world.gameOver == l.world.gameOver
    decreases |es|
  {
    if |es| == 0 then l
    else
      var r := HandleInputs(HandleInput(l, es[0]), es[1..]);
      assert es == [es[0]] + es[1..];
      r
  }

  /** One pass of the loop in `run` while the game runs and has a scene: the
      scene's frame, the input events, the collision scan, the updates and
      the visibility sweep, drawing (nothing the model holds), and the scene
      change when the scene has stopped. */
  function Tick<Obj(!new), D(!new)>(g: Game<Obj, D>, ops: Scene.Ops<Obj>, load: (string, D) -> Obj, call: Scene.Callee<Obj, D>,
                        bounds: Rect, elapsed: real, inputs: seq<Input>): (r: Result<Game<Obj, D>>)
    requires g.running && g.current.Some?
    ensures r.Ok? && Scene.CallsTame(call, Scene.Frame(g.current.value.events, elapsed).fired) && Keys.EscapeReserved(g.keys)
            ==> Keys.EscapeReserved(r.value.keys)
    ensures r.Ok? && r.value.current.Some? ==> !r.value.current.value.stop
    ensures r.Ok? ==> r.value.scenes == g.scenes
  {
    var w0 := Scene.World(g.current.value, g.keys, g.gameOver);
    var w1 :- Scene.FrameScene(ops, load, call, w0, g.frame, elapsed);
    var l := HandleInputs(Live(g.running, w1), inputs);
    var s := l.world.scene;
    var s1 := s.(objects := Scene.Collisions(ops, s.objects).objects);
    var s2 := s1.(objects := Scene.UpdateObjects(ops, s1.objects, bounds));
    var g1 := g.(running := l.running, keys := l.world.keys, gameOver := l.world.gameOver,
                 current := Some(s2), frame := g.frame + 1);
    if s2.stop then Transition(g1, s2) else Ok(g1)
  }

  /** After a scripted `game_over`, the scene has stopped and the next scene
      is the one listed under `game_over`. */
  lemma GameOverChoosesGameOverScene<Obj(!new), D(!new)>(ops: Scene.Ops<Obj>, load: (string, D) -> Obj, call: Scene.Callee<Obj, D>,
                                             g: Game<Obj, D>, w: Scene.World<Obj, D>)
    ensures var w' := Scene.Perform(ops, load, call, w, Scene.Action("game_over", [])).value;
            w'.scene.stop && Outcome(w'.gameOver) == "game_over" &&
            ("game_over" in w'.scene.nextScene && w'.scene.nextScene["game_over"] in g.scenes ==>
               Transition(g.(gameOver := w'.gameOver), w'.scene) == StartScene(g.(gameOver := w'.gameOver), g.scenes[w'.scene.nextScene["game_over"]]))
  {
    Scene.GameOverEndsScene(ops, load, call, w);
  }

  /** The keys a scene binds when it starts are all unbound again when it
      ends; Escape still stops the game. */
  lemma StartThenEndUnbinds<Obj, D>(g: Game<Obj, D>, c: Scene.Config<Obj, D>)
    requires Keys.EscapeReserved(g.keys)
    requires StartScene(g, Some(c)).Ok?
    ensures var g' := StartScene(g, Some(c)).value;
            var w := Scene.EndScene(Scene.World(g'.current.value, g'.keys, g'.gameOver));
            Keys.EscapeReserved(w.keys) &&
            forall b :: b in c.onKey && b.key != Keys.ESCAPE ==>
              Keys.KeyUp(w.keys, b.key) == Keys.Ignore && Keys.KeyDown(w.keys, b.key) == Keys.Ignore
  {
  }

  /** Binding a scene's keys makes releasing each of them end the scene. */
  lemma StartSceneBindsRelease<Obj, D>(g: Game<Obj, D>, c: Scene.Config<Obj, D>, k: nat)
    requires StartScene(g, Some(c)).Ok? && k < |c.onKey| && c.onKey[k].key != Keys.ESCAPE
    ensures Keys.KeyUp(StartScene(g, Some(c)).value.keys, c.onKey[k].key) == Keys.EndScene
  {
  }
}

=== FILE: keys.dfy ===
/** The game's key-binding tables (engine/game.py): what a key press and a
    key release do. Escape is bound to stopping the game on release and can
    be neither rebound nor removed. */
module Keys {

  /** `pygame.K_ESCAPE`. */
  const ESCAPE: int := 27

  /** What a key event calls: `Game.stop`, a scene's `end_scene` bound by
      `__start_scene`, some other handler, or `__ignore_event`. */
  datatype Responder = Stop | EndScene | Handler(id: nat) | Ignore

  /** The `keys` argument: a single key, which `for k in keys` rejects with
      `TypeError`, or an iterable of keys. */
  datatype KeySpec = One(key: int) | Many(keys: seq<int>)

  predicate Names(spec: KeySpec, k: int) {
    match spec
    case One(key) => k == key
    case Many(keys) => k in keys
  }

  /** `__keydown` and `__keyup`. */
  datatype Table = Table(down: map<int, Responder>, up: map<int, Responder>)

  /** Escape stops the game on release and does nothing on press. */
  predicate EscapeReserved(t: Table) {
    ESCAPE !in t.down && ESCAPE in t.up && t.up[ESCAPE] == Stop
  }

  /** The tables of a new `Game`. */
  function Initial(): (t: Table)
    ensures EscapeReserved(t)
    ensures t.down == map[] && t.up.Keys == {ESCAPE}
  {
    Table(map[], map[ESCAPE := Stop])
  }

  /** `event_list[k] = responder` for each of `keys` in order. */
  function BindAll(m: map<int, Responder>, keys: seq<int>, r: Responder): (m': map<int, Responder>)
    ensures forall k :: k in keys && k != ESCAPE ==> k in m' && m'[k] == r
    ensures forall k :: (k !in keys || k == ESCAPE) ==> (k in m' <==> k in m) && (k in m ==> m'[k] == m[k])
    decreases |keys|
  {
    if |keys| == 0 then m
    else
      var m1 := if keys[0] != ESCAPE then m[keys[0] := r] else m;
      BindAll(m1, keys[1..], r)
  }

  /** `__register_key_event(keys, responder, event_list)`. */
  function Register(m: map<int, Responder>, spec: KeySpec, r: Responder): (m': map<int, Responder>)
    ensures forall k :: Names(spec, k) && k != ESCAPE ==> k in m' && m'[k] == r
    ensures forall k :: (!Names(spec, k) || k == ESCAPE) ==> (k in m' <==> k in m) && (k in m ==> m'[k] == m[k])
  {
    match spec
    case One(key) => if key != ESCAPE then m[key := r] else m
    case Many(keys) => BindAll(m, keys, r)
  }

  /** `on_key_down(keys, responder)`. */
  function OnKeyDown(t: Table, spec: KeySpec, r: Responder): (t': Table)
    ensures t'.up == t.up
    ensures forall k :: Names(spec, k) && k != ESCAPE ==> k in t'.down && t'.down[k] == r
  {
    t.(down := Register(t.down, spec, r))
  }

  /** `on_key_up(keys, responder)`. */
  function OnKeyUp(t: Table, spec: KeySpec, r: Responder): (t': Table)
    ensures t'.down == t.down
    ensures forall k :: Names(spec, k) && k != ESCAPE ==> k in t'.up && t'.up[k] == r
  {
    t.(up := Register(t.up, spec, r))
  }

  function Unbind(m: map<int, Responder>, key: int): (m': map<int, Responder>)
    ensures key != ESCAPE ==> key !in m'
    ensures forall k :: k != key || k == ESCAPE ==> (k in m' <==> k in m) && (k in m ==> m'[k] == m[k])
  {
    if key != ESCAPE && key in m then m - {key} else m
  }

  function UnbindAll(m: map<int, Responder>, keys: seq<int>): (m': map<int, Responder>)
    ensures forall k :: k in keys && k != ESCAPE ==> k !in m'
    ensures forall k :: (k !in keys || k == ESCAPE) ==> (k in m' <==> k in m) && (k in m ==> m'[k] == m[k])
    decreases |keys|
  {
    if |keys| == 0 then m else UnbindAll(Unbind(m, keys[0]), keys[1..])
  }

  /** `remove_key(keys)`: each named key other than Escape leaves both
      tables; an unbound key is passed over. */
  function RemoveKey(t: Table, spec: KeySpec): (t': Table)
    ensures forall k :: Names(spec, k) && k != ESCAPE ==> k !in t'.down && k !in t'.up
    ensures forall k :: !Names(spec, k) || k == ESCAPE ==>
              (k in t'.down <==> k in t.down) && (k in t.down ==> t'.down[k] == t.down[k]) &&
              (k in t'.up <==> k in t.up) && (k in t.up ==> t'.up[k] == t.up[k])
  {
    match spec
    case One(key) => Table(Unbind(t.down, key), Unbind(t.up, key))
    case Many(keys) => Table(UnbindAll(t.down, keys), UnbindAll(t.up, keys))
  }

  /** No binding operation can touch Escape. */
  lemma EscapeStaysReserved(t: Table, spec: KeySpec, r: Responder)
    requires EscapeReserved(t)
    ensures EscapeReserved(OnKeyDown(t, spec, r))
    ensures EscapeReserved(OnKeyUp(t, spec, r))
    ensures EscapeReserved(RemoveKey(t, spec))
  {
  }

  /** `__keydown(event)`: Escape is never dispatched on press; a key with
      no binding falls back to `__ignore_event`. */
  function KeyDown(t: Table, key: int): (r: Responder)
    ensures key == ESCAPE ==> r == Ignore
    ensures key != ESCAPE && key in t.down ==> r == t.down[key]
    ensures key !in t.down ==> r == Ignore
  {
    if key == ESCAPE then Ignore
    else if key in t.down then t.down[key] else Ignore
  }

  /** `__keyup(event)`. */
  function KeyUp(t: Table, key: int): (r: Responder)
    ensures key in t.up ==> r == t.up[key]
    ensures key !in t.up ==> r == Ignore
  {
    if key in t.up then t.up[key] else Ignore
  }

  /** Whatever was bound, releasing Escape stops the game and pressing it
      does nothing. */
  lemma EscapeAlwaysStops(t: Table)
    requires EscapeReserved(t)
    ensures KeyUp(t, ESCAPE) == Stop && KeyDown(t, ESCAPE) == Ignore
  {
  }

  /** A later binding of the same key replaces the earlier one. */
  lemma RebindOverwrites(t: Table, key: int, r1: Responder, r2: Responder)
    requires key != ESCAPE
    ensures KeyUp(OnKeyUp(OnKeyUp(t, One(key), r1), One(key), r2), key) == r2
    ensures KeyDown(OnKeyDown(OnKeyDown(t, One(key), r1), One(key), r2), key) == r2
  {
  }

  /** Removing a key after binding it leaves it unbound on both sides. */
  lemma RemoveAfterBind(t: Table, keys: seq<int>, r: Responder, key: int)
    requires key in keys
    ensures KeyUp(RemoveKey(OnKeyUp(t, Many(keys), r), Many(keys)), key) == (if key == ESCAPE then KeyUp(t, key) else Ignore)
    ensures KeyDown(RemoveKey(OnKeyDown(t, Many(keys), r), Many(keys)), key) == Ignore
  {
  }
}

=== FILE: killable.dfy ===
/** The dying sub-state of objects that can be killed (objects/killable.py).
    Dying starts an explosion; the object is hidden once the explosion has
    run out. The explosion's clock is outside the model: each update is told
    whether the explosion has become invisible. */
module Killable {
  import opened Wrappers

  /** The object's visibility, and whether its explosion is playing. */
  datatype Killable = Killable(visible: bool, dying: bool)

  /** A fresh object: visible and not dying. */
  function NewKillable(): (k: Killable)
    ensures ShouldUpdate(k) && !k.dying
  {
    Killable(true, false)
  }

  /** `should_update`: the object takes part in the game. */
  predicate ShouldUpdate(k: Killable) {
    k.visible && !k.dying
  }

  /** `die()` as evidently intended: the explosion starts; the object stops
      taking part at once. */
  function Die(k: Killable): (k': Killable)
    ensures k'.dying && k'.visible == k.visible
    ensures !ShouldUpdate(k')
  {
    k.(dying := true)
  }

  /** The state a call leaves behind when it raises, and what it raises. */
  datatype Raised = Raised(left: Killable, error: Error)

  /** `die()` as written: `__dying` is set, then the explosion is built with
      a `time_scale` keyword that `Explosion.__init__` does not accept, so
      the call raises `TypeError` and leaves the object dying with no
      explosion. */
  function DieAsWritten(k: Killable): (r: Raised)
    ensures r.error == TypeError
    ensures r.left.dying && r.left.visible == k.visible && !ShouldUpdate(r.left)
  {
    Raised(k.(dying := true), TypeError)
  }

  /** The corrected `die()` leaves the object in the state the one as
      written leaves it in, without raising. */
  lemma DieAsWrittenLeavesDie(k: Killable)
    ensures DieAsWritten(k).left == Die(k)
  {
  }

  /** `update(bounds)`: nothing happens unless the object is dying; a dying
      object whose explosion has become invisible (`expired`) is hidden and
      stops dying. */
  function Update(k: Killable, expired: bool): (k': Killable)
    ensures !k.dying ==> k' == k
    ensures k.dying && !expired ==> k' == k
    ensures k.dying && expired ==> !k'.visible && !k'.dying
  {
    if k.dying && expired then Killable(false, false) else k
  }

  /** What `draw` puts on the screen. */
  datatype Drawn = Nothing | Explosion

  /** `draw(screen)`: the explosion while dying, otherwise nothing. */
  function Draw(k: Killable): (d: Drawn)
    ensures d == Explosion <==> k.dying
  {
    if k.dying then Explosion else Nothing
  }

  /** A sequence of updates; `expiries[i]` tells whether the explosion has
      run out at the `i`-th. */
  function Run(k: Killable, expiries: seq<bool>): Killable
    decreases |expiries|
  {
    if |expiries| == 0 then k else Run(Update(k, expiries[0]), expiries[1..])
  }

  /** An object that is dying or hidden never takes part again, whatever the
      explosion does. */
  lemma {:induction false} StaysDown(k: Killable, expiries: seq<bool>)
    requires k.dying || !k.visible
    ensures !ShouldUpdate(Run(k, expiries))
    ensures Run(k, expiries).dying || !Run(k, expiries).visible
    decreases |expiries|
  {
    if |expiries| > 0 {
      StaysDown(Update(k, expiries[0]), expiries[1..]);
    }
  }

  /** After `die()`, `should_update` stays false for good. */
  lemma AfterDie(k: Killable, expiries: seq<bool>)
    ensures !ShouldUpdate(Run(Die(k), expiries))
  {
    StaysDown(Die(k), expiries);
  }

  /** Once the explosion has run out, the object is hidden and no longer
      dying, and it stays so. */
  lemma {:induction false} ExplosionEnds(k: Killable, expiries: seq<bool>)
    requires k.dying && true in expiries
    ensures !Run(k, expiries).visible && !Run(k, expiries).dying
    decreases |expiries|
  {
    if expiries[0] {
      HiddenStays(Update(k, true), expiries[1..]);
    } else {
      assert true in expiries[1..] by {
        var i :| 0 <= i < |expiries| && expiries[i];
        assert expiries[1..][i - 1] == expiries[i];
      }
      ExplosionEnds(Update(k, false), expiries[1..]);
    }
  }

  /** A hidden object that is not dying is left alone by its updates. */
  lemma {:induction false} HiddenStays(k: Killable, expiries: seq<bool>)
    requires !k.visible && !k.dying
    ensures Run(k, expiries) == k
    decreases |expiries|
  {
    if |expiries| > 0 {
      HiddenStays(Update(k, expiries[0]), expiries[1..]);
    }
  }
}

=== FILE: notifications.dfy ===
/** Publish/subscribe notifications (util/notifications.py): the `Notifier`
    set map and the `event_listener` decorator that runs handlers before and
    after a function. Calls are recorded as a trace of invocations instead
    of being performed. */
module Notifications {
  import opened Wrappers

  /** `Notifier`: the receivers of each notification. A notification nobody
      subscribed to has no receivers (the `defaultdict(set)`). */
  datatype Notifier<N(==, !new), R(==)> = Notifier(subscribers: map<N, set<R>>)

  function Receivers<N(==, !new), R(==)>(n: Notifier<N, R>, notification: N): set<R> {
    if notification in n.subscribers then n.subscribers[notification] else {}
  }

  /** `Notifier()`. */
  function NewNotifier<N(==, !new), R(==)>(): (n: Notifier<N, R>)
    ensures forall notification :: Receivers(n, notification) == {}
  {
    Notifier(map[])
  }

  /** `subscribe(notification, receiver)`. */
  function Subscribe<N(==, !new), R(==)>(n: Notifier<N, R>, notification: N, receiver: R): (m: Notifier<N, R>)
    ensures Receivers(m, notification) == Receivers(n, notification) + {receiver}
    ensures forall other :: other != notification ==> Receivers(m, other) == Receivers(n, other)
  {
    Notifier(n.subscribers[notification := Receivers(n, notification) + {receiver}])
  }

  /** `unsubscribe(notification, receiver)`: `set.remove` raises `KeyError`
      for a receiver that is not subscribed. */
  function Unsubscribe<N(==, !new), R(==)>(n: Notifier<N, R>, notification: N, receiver: R): (r: Result<Notifier<N, R>>)
    ensures receiver !in Receivers(n, notification) <==> r == Err(KeyError)
    ensures r.Ok? ==> Receivers(r.value, notification) == Receivers(n, notification) - {receiver}
    ensures r.Ok? ==> forall other :: other != notification ==> Receivers(r.value, other) == Receivers(n, other)
  {
    if receiver !in Receivers(n, notification) then Err(KeyError)
    else Ok(Notifier(n.subscribers[notification := Receivers(n, notification) - {receiver}]))
  }

  /** Subscribing twice is subscribing once. */
  lemma SubscribeIdempotent<N(!new), R>(n: Notifier<N, R>, notification: N, receiver: R)
    ensures Subscribe(Subscribe(n, notification, receiver), notification, receiver) == Subscribe(n, notification, receiver)
  {
    var once := Subscribe(n, notification, receiver);
    assert Receivers(once, notification) + {receiver} == Receivers(once, notification);
  }

  /** Unsubscribing a receiver that was just subscribed, and was not before,
      leaves every notification's receivers as they were. */
  lemma UnsubscribeUndoesSubscribe<N(!new), R>(n: Notifier<N, R>, notification: N, receiver: R, other: N)
    requires receiver !in Receivers(n, notification)
    ensures Unsubscribe(Subscribe(n, notification, receiver), notification, receiver).Ok?
    ensures Receivers(Unsubscribe(Subscribe(n, notification, receiver), notification, receiver).value, other) == Receivers(n, other)
  {
  }

  /** A positional argument: a value, or the name of a keyword argument
      passed where a value was expected. */
  datatype Arg<V> = Val(v: V) | Name(name: string)

  /** One call: the callee, its positional arguments and its keyword
      arguments in order. */
  datatype Invocation<C, V> = Invocation(callee: C, args: seq<Arg<V>>, kwargs: seq<(string, V)>)

  function Vals<V>(xs: seq<V>): (ys: seq<Arg<V>>)
    ensures |ys| == |xs| && forall k :: 0 <= k < |xs| ==> ys[k] == Val(xs[k])
  {
    if |xs| == 0 then [] else [Val(xs[0])] + Vals(xs[1..])
  }

  ghost predicate Distinct<T>(s: seq<T>) {
    forall j, k :: 0 <= j < k < |s| ==> s[j] != s[k]
  }

  function Callees<C, V>(calls: seq<Invocation<C, V>>): (cs: seq<C>)
    ensures |cs| == |calls| && forall k :: 0 <= k < |calls| ==> cs[k] == calls[k].callee
  {
    if |calls| == 0 then [] else [calls[0].callee] + Callees(calls[1..])
  }

  /** The calls of `receivers`, in that order, with the same arguments. */
  function CallEach<R, V>(receivers: seq<R>, args: seq<V>, kwargs: seq<(string, V)>): (calls: seq<Invocation<R, V>>)
    ensures |calls| == |receivers|
    ensures forall k :: 0 <= k < |receivers| ==> calls[k] == Invocation(receivers[k], Vals(args), kwargs)
  {
    if |receivers| == 0 then [] else [Invocation(receivers[0], Vals(args), kwargs)] + CallEach(receivers[1..], args, kwargs)
  }

  /** `notify(notification, *args, **kwargs)`: each receiver of the
      notification called exactly once with the arguments, and nobody else;
      the order is the set's iteration order, which the model leaves open. */
  method Notify<N(==, !new), R(==), V>(n: Notifier<N, R>, notification: N, args: seq<V>, kwargs: seq<(string, V)>)
    returns (calls: seq<Invocation<R, V>>)
    ensures |calls| == |Receivers(n, notification)|
    ensures forall r :: r in Callees(calls) <==> r in Receivers(n, notification)
    ensures Distinct(Callees(calls))
    ensures forall k :: 0 <= k < |calls| ==> calls[k].args == Vals(args) && calls[k].kwargs == kwargs
  {
    var pending := Receivers(n, notification);
    ghost var done: set<R> := {};
    var order: seq<R> := [];
    while pending != {}
      invariant done !! pending && done + pending == Receivers(n, notification)
      invariant forall r :: r in order <==> r in done
      invariant Distinct(order)
      invariant |order| == |done|
      decreases |pending|
    {
      var r :| r in pending;
      order := order + [r];
      pending := pending - {r};
      done := done + {r};
    }
    calls := CallEach(order, args, kwargs);
    assert Callees(calls) == order;
  }

  /** The handler an `event_listener` registers on one side: the function
      given, or a fresh do-nothing lambda owned by that listener. */
  datatype Handler<H> = Given(h: H) | Noop(owner: nat)

  /** An `event_listener(**argdict)`: `id` tells its default lambdas apart;
      a missing `args` or `kwargs` entry is `None`. */
  datatype Listener<H, V> = Listener(id: nat, args: Option<seq<V>>, kwargs: Option<seq<(string, V)>>,
                                     before: Option<H>, after: Option<H>)

  function BeforeHandler<H, V>(l: Listener<H, V>): Handler<H> {
    if l.before.Some? then Given(l.before.value) else Noop(l.id)
  }

  function AfterHandler<H, V>(l: Listener<H, V>): Handler<H> {
    if l.after.Some? then Given(l.after.value) else Noop(l.id)
  }

  /** `before(fn, *args, **kwargs)`. */
  function Before<H, V>(id: nat, fn: H, args: seq<V>, kwargs: seq<(string, V)>): (l: Listener<H, V>)
    ensures BeforeHandler(l) == Given(fn) && AfterHandler(l) == Noop(id)
    ensures l.args == Some(args) && l.kwargs == Some(kwargs)
  {
    Listener(id, Some(args), Some(kwargs), Some(fn), None)
  }

  /** `after(fn, *args, **kwargs)`. */
  function After<H, V>(id: nat, fn: H, args: seq<V>, kwargs: seq<(string, V)>): (l: Listener<H, V>)
    ensures BeforeHandler(l) == Noop(id) && AfterHandler(l) == Given(fn)
    ensures l.args == Some(args) && l.kwargs == Some(kwargs)
  {
    Listener(id, Some(args), Some(kwargs), None, Some(fn))
  }

  /** The two notifiers every `event_listener` shares, keyed by the
      decorated function. */
  datatype Hooks<F(==, !new), H(==)> = Hooks(before: Notifier<F, Handler<H>>, after: Notifier<F, Handler<H>>)

  /** `event_listener.__call__(fn)`: registers the listener's handlers for
      `fn` on both sides. */
  function Decorate<F(==, !new), H(==), V>(hooks: Hooks<F, H>, l: Listener<H, V>, fn: F): (d: Hooks<F, H>)
    ensures Receivers(d.before, fn) == Receivers(hooks.before, fn) + {BeforeHandler(l)}
    ensures Receivers(d.after, fn) == Receivers(hooks.after, fn) + {AfterHandler(l)}
    ensures forall g :: g != fn ==> Receivers(d.before, g) == Receivers(hooks.before, g) && Receivers(d.after, g) == Receivers(hooks.after, g)
  {
    Hooks(Subscribe(hooks.before, fn, BeforeHandler(l)), Subscribe(hooks.after, fn, AfterHandler(l)))
  }

  /** Who is called: one of the handlers, or the decorated function. */
  datatype Callee<F, H> = Handler(handler: Handler<H>) | Body(fn: F)

  function Keys<V>(kwargs: seq<(string, V)>): (ys: seq<Arg<V>>)
    ensures |ys| == |kwargs| && forall k :: 0 <= k < |kwargs| ==> ys[k] == Name(kwargs[k].0)
  {
    if |kwargs| == 0 then [] else [Name(kwargs[0].0)] + Keys(kwargs[1..])
  }

  /** The wrapper's call of the decorated function as written,
      `fn(*args, *kwargs)`: the keyword names are passed as extra positional
      arguments and the keyword values are lost. */
  function BodyCallAsWritten<F, H, V>(fn: F, args: seq<V>, kwargs: seq<(string, V)>): (c: Invocation<Callee<F, H>, V>)
    ensures c.callee == Body(fn) && |c.args| == |args| + |kwargs| && c.kwargs == []
    ensures forall k :: 0 <= k < |kwargs| ==> c.args[|args| + k] == Name(kwargs[k].0)
  {
    Invocation(Body(fn), Vals(args) + Keys(kwargs), [])
  }

  /** The call a decorator is meant to forward, `fn(*args, **kwargs)`. */
  function BodyCall<F, H, V>(fn: F, args: seq<V>, kwargs: seq<(string, V)>): (c: Invocation<Callee<F, H>, V>)
    ensures c.callee == Body(fn) && c.args == Vals(args) && c.kwargs == kwargs
  {
    Invocation(Body(fn), Vals(args), kwargs)
  }

  /** The call as written forwards the wrapper's arguments faithfully exactly
      when there are no keyword arguments. */
  lemma BodyCallAsWrittenDropsKeywords<F, H, V>(fn: F, args: seq<V>, kwargs: seq<(string, V)>)
    ensures BodyCallAsWritten<F, H, V>(fn, args, kwargs) == BodyCall<F, H, V>(fn, args, kwargs) <==> |kwargs| == 0
  {
    if |kwargs| == 0 {
      assert Vals(args) + Keys(kwargs) == Vals(args);
    }
  }

  /** A call `fn(x, key=v)` through the wrapper as written reaches `fn` as
      `fn(x, 'key')`. */
  lemma BodyCallAsWrittenExample<F, H>(fn: F)
    ensures BodyCallAsWritten<F, H, int>(fn, [1], [("key", 2)]).args == [Val(1), Name("key")]
    ensures BodyCall<F, H, int>(fn, [1], [("key", 2)]).kwargs == [("key", 2)]
  {
    assert Vals([1]) == [Val(1)];
    assert Keys([("key", 2)]) == [Name("key")];
  }

  function AsHandlerCalls<F, H, V>(calls: seq<Invocation<Handler<H>, V>>): (hs: seq<Invocation<Callee<F, H>, V>>)
    ensures |hs| == |calls|
    ensures forall k :: 0 <= k < |calls| ==> hs[k] == Invocation(Handler(calls[k].callee), calls[k].args, calls[k].kwargs)
  {
    if |calls| == 0 then [] else [Invocation(Handler(calls[0].callee), calls[0].args, calls[0].kwargs)] + AsHandlerCalls(calls[1..])
  }

  /** Handler calls keep their callees. */
  lemma HandlerCallees<F, H, V>(calls: seq<Invocation<Handler<H>, V>>)
    ensures forall h :: Handler(h) in Callees(AsHandlerCalls<F, H, V>(calls)) <==> h in Callees(calls)
  {
    var hs := AsHandlerCalls<F, H, V>(calls);
    forall h
      ensures Handler(h) in Callees(hs) <==> h in Callees(calls)
    {
      if Handler(h) in Callees(hs) {
        var k :| 0 <= k < |hs| && Callees(hs)[k] == Handler(h);
        assert Callees(calls)[k] == h;
      }
      if h in Callees(calls) {
        var k :| 0 <= k < |calls| && Callees(calls)[k] == h;
        assert Callees(hs)[k] == Handler(h);
      }
    }
  }

  /** The wrapper's trace: the `before` calls, the body, the `after` calls. */
  lemma TraceShape<F, H, V>(pre: seq<Invocation<Handler<H>, V>>, post: seq<Invocation<Handler<H>, V>>,
                            body: Invocation<Callee<F, H>, V>)
    ensures var trace := AsHandlerCalls<F, H, V>(pre) + [body] + AsHandlerCalls<F, H, V>(post);
            |trace| == |pre| + 1 + |post| && trace[|pre|] == body &&
            (forall h :: Handler(h) in Callees(trace[..|pre|]) <==> h in Callees(pre)) &&
            (forall h :: Handler(h) in Callees(trace[|pre| + 1..]) <==> h in Callees(post))
  {
    var before, after := AsHandlerCalls<F, H, V>(pre), AsHandlerCalls<F, H, V>(post);
    var trace := before + [body] + after;
    assert trace[..|pre|] == before && trace[|pre| + 1..] == after;
    HandlerCallees<F, H, V>(pre);
    HandlerCallees<F, H, V>(post);
  }

  /** Every handler call of the trace carries the listener's arguments. */
  lemma TraceArgs<F, H, V>(pre: seq<Invocation<Handler<H>, V>>, post: seq<Invocation<Handler<H>, V>>,
                           body: Invocation<Callee<F, H>, V>, args: seq<V>, kwargs: seq<(string, V)>)
    requires forall k :: 0 <= k < |pre| ==> pre[k].args == Vals(args) && pre[k].kwargs == kwargs
    requires forall k :: 0 <= k < |post| ==> post[k].args == Vals(args) && post[k].kwargs == kwargs
    ensures var trace := AsHandlerCalls<F, H, V>(pre) + [body] + AsHandlerCalls<F, H, V>(post);
            forall k :: 0 <= k < |trace| && k != |pre| ==> trace[k].args == Vals(args) && trace[k].kwargs == kwargs
  {
    var before, after := AsHandlerCalls<F, H, V>(pre), AsHandlerCalls<F, H, V>(post);
    var trace := before + [body] + after;
    forall k | 0 <= k < |trace| && k != |pre|
      ensures trace[k].args == Vals(args) && trace[k].kwargs == kwargs
    {
      if k < |pre| {
        assert trace[k] == before[k];
      } else {
        assert trace[k] == after[k - |pre| - 1];
      }
    }
  }

  /** One call of the wrapper `event_listener` returns: the `before`
      handlers of `fn` with the listener's arguments, then `fn` with the
      wrapper's own arguments, then the `after` handlers. A listener built
      without `args` or `kwargs` unpacks `None` and raises `TypeError`
      before anything is called. */
  method CallWrapped<F(==, !new), H(==), V>(hooks: Hooks<F, H>, l: Listener<H, V>, fn: F, args: seq<V>, kwargs: seq<(string, V)>)
    returns (r: Result<seq<Invocation<Callee<F, H>, V>>>)
    ensures l.args.None? || l.kwargs.None? <==> r.Err?
    ensures r.Err? ==> r.error == TypeError
    ensures r.Ok? ==> |r.value| == |Receivers(hooks.before, fn)| + 1 + |Receivers(hooks.after, fn)|
    ensures r.Ok? ==> forall h :: Handler(h) in Callees(r.value[..|Receivers(hooks.before, fn)|]) <==> h in Receivers(hooks.before, fn)
    ensures r.Ok? ==> r.value[|Receivers(hooks.before, fn)|] == BodyCallAsWritten(fn, args, kwargs)
    ensures r.Ok? ==> forall h :: Handler(h) in Callees(r.value[|Receivers(hooks.before, fn)| + 1..]) <==> h in Receivers(hooks.after, fn)
    ensures r.Ok? ==> forall k :: 0 <= k < |r.value| && k != |Receivers(hooks.before, fn)| ==>
              r.value[k].args == Vals(l.args.value) && r.value[k].kwargs == l.kwargs.value
  {
    if l.args.None? || l.kwargs.None? {
      return Err(TypeError);
    }
    var pre := Notify(hooks.before, fn, l.args.value, l.kwargs.value);
    var post := Notify(hooks.after, fn, l.args.value, l.kwargs.value);
    var trace := AsHandlerCalls(pre) + [BodyCallAsWritten(fn, args, kwargs)] + AsHandlerCalls(post);
    TraceShape(pre, post, BodyCallAsWritten(fn, args, kwargs));
    TraceArgs(pre, post, BodyCallAsWritten(fn, args, kwargs), l.args.value, l.kwargs.value);
    return Ok(trace);
  }

  /** The wrapper as evidently intended: the same trace, with `fn` called
      as `fn(*args, **kwargs)`. */
  method CallWrappedCorrected<F(==, !new), H(==), V>(hooks: Hooks<F, H>, l: Listener<H, V>, fn: F, args: seq<V>, kwargs: seq<(string, V)>)
    returns (r: Result<seq<Invocation<Callee<F, H>, V>>>)
    ensures l.args.None? || l.kwargs.None? <==> r.Err?
    ensures r.Err? ==> r.error == TypeError
    ensures r.Ok? ==> |r.value| == |Receivers(hooks.before, fn)| + 1 + |Receivers(hooks.after, fn)|
    ensures r.Ok? ==> forall h :: Handler(h) in Callees(r.value[..|Receivers(hooks.before, fn)|]) <==> h in Receivers(hooks.before, fn)
    ensures r.Ok? ==> r.value[|Receivers(hooks.before, fn)|] == BodyCall(fn, args, kwargs)
    ensures r.Ok? ==> forall h :: Handler(h) in Callees(r.value[|Receivers(hooks.before, fn)| + 1..]) <==> h in Receivers(hooks.after, fn)
    ensures r.Ok? ==> forall k :: 0 <= k < |r.value| && k != |Receivers(hooks.before, fn)| ==>
              r.value[k].args == Vals(l.args.value) && r.value[k].kwargs == l.kwargs.value
  {
    if l.args.None? || l.kwargs.None? {
      return Err(TypeError);
    }
    var pre := Notify(hooks.before, fn, l.args.value, l.kwargs.value);
    var post := Notify(hooks.after, fn, l.args.value, l.kwargs.value);
    var trace := AsHandlerCalls(pre) + [BodyCall(fn, args, kwargs)] + AsHandlerCalls(post);
    TraceShape(pre, post, BodyCall(fn, args, kwargs));
    TraceArgs(pre, post, BodyCall(fn, args, kwargs), l.args.value, l.kwargs.value);
    return Ok(trace);
  }

  /** Decorating `fn` with `before(h, *hargs, **hkwargs)`, when `fn` had no
      handlers yet, makes a call of the wrapper run `h` with `hargs` first,
      then `fn` with the call's positional arguments followed by the names
      of its keyword arguments, then only a do-nothing handler. */
  method BeforeRunsFirst<F(==, !new), H(==), V>(id: nat, h: H, hargs: seq<V>, hkwargs: seq<(string, V)>,
                                          fn: F, args: seq<V>, kwargs: seq<(string, V)>)
    returns (r: Result<seq<Invocation<Callee<F, H>, V>>>)
    ensures r.Ok? && |r.value| == 3
    ensures r.value[0] == Invocation(Handler(Given(h)), Vals(hargs), hkwargs)
    ensures r.value[1] == BodyCallAsWritten(fn, args, kwargs)
    ensures r.value[2] == Invocation(Handler(Noop(id)), Vals(hargs), hkwargs)
  {
    var l := Before(id, h, hargs, hkwargs);
    var hooks := Decorate(Hooks(NewNotifier(), NewNotifier()), l, fn);
    assert Receivers(hooks.before, fn) == {Given(h)};
    assert Receivers(hooks.after, fn) == {Noop(id)};
    assert |Receivers(hooks.before, fn)| == 1 && |Receivers(hooks.after, fn)| == 1;
    r := CallWrapped(hooks, l, fn, args, kwargs);
    assert r.Ok?;
  }
}

=== FILE: player.dfy ===
/** The player's ship (objects/player.py): lives, points, speed, movement
    clamped to the window, and dying on a collision. The sprite is reduced
    to its size; the controller's next delta is a parameter of `update`. */
module Player {
  import opened Wrappers
  import opened Vectors
  import Killable

  /** The player: position and sprite size, lives, points, speed, its
      `should_collide` flag and its dying sub-state. */
  datatype Player = Player(pos: Vec, w: real, h: real, lives: int, points: int, speed: real,
                           shouldCollide: bool, life: Killable.Killable)

  /** The speed of a player created without one. */
  const DEFAULT_SPEED: real := 5.0

  /** `Player(position, speed)`: three lives, no points, taking part in the
      game. */
  function NewPlayer(pos: Vec, w: real, h: real, speed: real): (p: Player)
    ensures p.lives == 3 && p.points == 0
    ensures p.pos == pos && p.w == w && p.h == h && p.speed == speed
    ensures p.shouldCollide && Killable.ShouldUpdate(p.life)
  {
    Player(pos, w, h, 3, 0, speed, true, Killable.NewKillable())
  }

  /** `collide_with(object)`: a player taking part in the game, hit by
      anything but a projectile, loses a life, stops colliding and dies. */
  function CollideWith(p: Player, otherIsProjectile: bool): (p': Player)
    ensures Killable.ShouldUpdate(p.life) && !otherIsProjectile ==>
              p' == p.(lives := p.lives - 1, shouldCollide := false, life := Killable.Die(p.life))
    ensures !Killable.ShouldUpdate(p.life) || otherIsProjectile ==> p' == p
    ensures !Killable.ShouldUpdate(p'.life) || p' == p
  {
    if Killable.ShouldUpdate(p.life) && !otherIsProjectile then
      p.(lives := p.lives - 1, shouldCollide := false, life := Killable.Die(p.life))
    else p
  }

  /** `collide_with(object)` as written: a hit loses a life and stops the
      player colliding, then `die()` raises `TypeError`, which leaves the
      call; any other collision changes nothing. */
  function CollideWithAsWritten(p: Player, otherIsProjectile: bool): (r: Result<Player>)
    ensures r.Err? <==> CollideWith(p, otherIsProjectile) != p
    ensures r.Err? ==> r.error == TypeError
    ensures r.Ok? ==> r.value == p
  {
    if Killable.ShouldUpdate(p.life) && !otherIsProjectile then Err(Killable.DieAsWritten(p.life).error)
    else Ok(p)
  }

  /** A fresh player hit by an enemy: the call as written raises, the
      corrected one leaves two lives and starts the explosion. */
  lemma FirstHitRaises(pos: Vec, w: real, h: real, speed: real)
    ensures CollideWithAsWritten(NewPlayer(pos, w, h, speed), false) == Err(TypeError)
    ensures CollideWith(NewPlayer(pos, w, h, speed), false).lives == 2
    ensures CollideWith(NewPlayer(pos, w, h, speed), false).life.dying
  {
  }

  /** One collision costs one life: a second hit before the explosion is
      over changes nothing. */
  lemma CollideTwiceLosesOneLife(p: Player, second: bool)
    requires Killable.ShouldUpdate(p.life)
    ensures CollideWith(CollideWith(p, false), second).lives == p.lives - 1
    ensures CollideWith(CollideWith(p, false), second) == CollideWith(p, false)
  {
  }

  /** `add_points(points)`: only positive amounts count. */
  function AddPoints(p: Player, n: int): (p': Player)
    ensures p'.points >= p.points
    ensures n > 0 ==> p' == p.(points := p.points + n)
    ensures n <= 0 ==> p' == p
  {
    if n > 0 then p.(points := p.points + n) else p
  }

  /** `accelerate()`: half a unit faster, while below 7.5. */
  function Accelerate(p: Player): (p': Player)
    ensures p.speed < 7.5 ==> p' == p.(speed := p.speed + 0.5)
    ensures p.speed >= 7.5 ==> p' == p
  {
    if p.speed < 7.5 then p.(speed := p.speed + 0.5) else p
  }

  /** `n` calls of `accelerate()`. */
  function AccelerateTimes(p: Player, n: nat): Player {
    if n == 0 then p else Accelerate(AccelerateTimes(p, n - 1))
  }

  /** From the default speed, each call adds 0.5 until the speed reaches
      7.5, where it stays. */
  lemma {:induction false} AccelerateFromDefault(p: Player, n: nat)
    requires p.speed == DEFAULT_SPEED
    ensures AccelerateTimes(p, n).speed == if n <= 5 then DEFAULT_SPEED + 0.5 * n as real else 7.5
    ensures AccelerateTimes(p, n) == p.(speed := AccelerateTimes(p, n).speed)
  {
    if n > 0 {
      AccelerateFromDefault(p, n - 1);
    }
  }

  /** One axis of `offlimits`: first the low edge, then the high edge, which
      wins when the object is longer than the window. */
  function ClampAxis(v: real, size: real, lo: real, extent: real): (v': real)
    ensures size <= extent ==> lo <= v' <= lo + extent - size
    ensures lo <= v && v + size <= lo + extent ==> v' == v
    ensures v + size > lo + extent ==> v' == lo + extent - size
    ensures v + size <= lo + extent && v < lo ==> v' == lo
  {
    var d := if v < lo then lo else v;
    if v + size > lo + extent then lo + extent - size else d
  }

  /** `offlimits(limits)`: the player is moved back inside the window. */
  function Offlimits(p: Player, limits: Rect): (p': Player)
    ensures p' == p.(pos := Vec(ClampAxis(p.pos.x, p.w, limits.x, limits.w), ClampAxis(p.pos.y, p.h, limits.y, limits.h)))
    ensures p.w <= limits.w ==> limits.x <= p'.pos.x <= limits.x + limits.w - p.w
    ensures p.h <= limits.h ==> limits.y <= p'.pos.y <= limits.y + limits.h - p.h
  {
    var dx := (if p.pos.x < limits.x then limits.x else p.pos.x);
    var dx := (if p.pos.x + p.w > limits.x + limits.w then (limits.x + limits.w) - p.w else dx) - p.pos.x;
    var dy := (if p.pos.y < limits.y then limits.y else p.pos.y);
    var dy := (if p.pos.y + p.h > limits.y + limits.h then (limits.y + limits.h) - p.h else dy) - p.pos.y;
    p.(pos := p.pos.Plus(Vec(dx, dy)))
  }

  /** A player that fits the window: positions inside are left alone, so
      clamping twice is clamping once. */
  lemma OfflimitsIdempotent(p: Player, limits: Rect)
    requires p.w <= limits.w && p.h <= limits.h
    ensures Offlimits(Offlimits(p, limits), limits) == Offlimits(p, limits)
    ensures (limits.x <= p.pos.x && p.pos.x + p.w <= limits.x + limits.w &&
             limits.y <= p.pos.y && p.pos.y + p.h <= limits.y + limits.h) ==> Offlimits(p, limits) == p
  {
  }

  /** A player wider than the window is put against the right edge, which
      is left of the left edge; clamping again puts it against the left
      edge. */
  lemma OfflimitsOversized()
    ensures var p := NewPlayer(Vec(0.0, 0.0), 30.0, 10.0, DEFAULT_SPEED);
            var once := Offlimits(p, Rect(0.0, 0.0, 20.0, 100.0));
            once.pos == Vec(-10.0, 0.0) && Offlimits(once, Rect(0.0, 0.0, 20.0, 100.0)).pos == Vec(0.0, 0.0)
  {
  }

  /** `bounds`: the position and the sprite's size. */
  function Bounds(p: Player): (r: Rect)
    ensures r.x == p.pos.x && r.y == p.pos.y && r.w == p.w && r.h == p.h
  {
    Rect(p.pos.x, p.pos.y, p.w, p.h)
  }

  /** `update(bounds)`: while taking part, the player moves by its speed
      times the controller's delta and is clamped to the window; an
      exhausted controller (`None`) leaves it in place. Otherwise the dying
      sub-state advances. */
  function Update(p: Player, limits: Rect, delta: Option<Vec>, expired: bool): (p': Player)
    ensures Killable.ShouldUpdate(p.life) && delta.None? ==> p' == p
    ensures Killable.ShouldUpdate(p.life) && delta.Some? ==>
              p' == Offlimits(p.(pos := p.pos.Plus(delta.value.Scale(p.speed))), limits)
    ensures !Killable.ShouldUpdate(p.life) ==> p' == p.(life := Killable.Update(p.life, expired))
  {
    if Killable.ShouldUpdate(p.life) then
      match delta
      case None => p
      case Some(d) => Offlimits(p.(pos := p.pos.Plus(d.Scale(p.speed))), limits)
    else p.(life := Killable.Update(p.life, expired))
  }

  /** A player that fits the window and starts inside it stays inside it,
      whatever the controller and the explosion do. */
  lemma UpdateStaysInside(p: Player, limits: Rect, delta: Option<Vec>, expired: bool)
    requires p.w <= limits.w && p.h <= limits.h
    requires limits.x <= p.pos.x <= limits.x + limits.w - p.w
    requires limits.y <= p.pos.y <= limits.y + limits.h - p.h
    ensures var p' := Update(p, limits, delta, expired);
            limits.x <= p'.pos.x <= limits.x + limits.w - p'.w &&
            limits.y <= p'.pos.y <= limits.y + limits.h - p'.h
  {
  }

  /** What `draw` shows. */
  datatype Drawn = Ship | Explosion | Nothing

  /** `draw(screen)`: the ship while taking part, else what the dying
      sub-state draws. */
  function Draw(p: Player): (d: Drawn)
    ensures d == Ship <==> Killable.ShouldUpdate(p.life)
    ensures d == Explosion <==> p.life.dying
  {
    if Killable.ShouldUpdate(p.life) then Ship
    else if Killable.Draw(p.life) == Killable.Explosion then Explosion
    else Nothing
  }
}

=== FILE: projectile.dfy ===
/** A projectile fired by some object (objects/projectile.py). It flies in
    a straight line by a constant step, remembers where it was one frame ago
    so that it can be drawn and collided as a segment, and leaves the game
    past the right edge. The aiming trigonometry is outside the model: the
    step it produces is given. Classes are named by strings. */
module Projectile {
  import opened Wrappers
  import opened Vectors

  /** The class of every projectile. */
  const PROJECTILE: string := "Projectile"

  /** A line segment `((xo, yo), (xt, yt))`. */
  datatype Segment = Segment(from: Vec, to: Vec)

  /** Position, the position one update ago (`None` before the first
      update), the step the controller yields, visibility, and the class of
      the object that fired it. */
  datatype Projectile = Projectile(pos: Vec, next: Option<Vec>, delta: Vec, visible: bool, creator: string)

  /** `Projectile(creator, color, origin, target)`, with `delta` the step
      its `ConstantController` yields. */
  function NewProjectile(creatorClass: string, origin: Vec, delta: Vec): (p: Projectile)
    ensures p.pos == origin && p.next.None? && p.visible && p.creator == creatorClass && p.delta == delta
  {
    Projectile(origin, None, delta, true, creatorClass)
  }

  /** `update(bounds)`: the current position is remembered, the projectile
      moves by its step, and it is hidden once its x lies beyond the width
      of `bounds`. No other edge is checked. */
  function Update(p: Projectile, bounds: Rect): (p': Projectile)
    ensures p'.next == Some(p.pos) && p'.pos == p.pos.Plus(p.delta)
    ensures p'.visible <==> p.visible && p'.pos.x <= bounds.w
    ensures p'.delta == p.delta && p'.creator == p.creator
  {
    var moved := p.(next := Some(p.pos), pos := p.pos.Plus(p.delta));
    if moved.pos.x > bounds.w then Hide(moved) else moved
  }

  /** `hide()`. */
  function Hide(p: Projectile): (p': Projectile)
    ensures !p'.visible && p' == p.(visible := false)
  {
    p.(visible := false)
  }

  /** `collide_with(object)`, where `kinds` are the classes the other object
      is an instance of: the projectile is hidden unless the other object is
      a projectile or an instance of its creator's class. */
  function CollideWith(p: Projectile, kinds: set<string>): (p': Projectile)
    ensures p'.visible <==> p.visible && (PROJECTILE in kinds || p.creator in kinds)
    ensures p'.pos == p.pos && p'.next == p.next && p'.creator == p.creator
  {
    if PROJECTILE !in kinds && p.creator !in kinds then Hide(p) else p
  }

  /** `bounds`: from the current position to the previous one, or a single
      point before the first update. */
  function Bounds(p: Projectile): (s: Segment)
    ensures s.from == p.pos
    ensures p.next.None? ==> s.to == p.pos
    ensures p.next.Some? ==> s.to == p.next.value
  {
    Segment(p.pos, p.next.GetOr(p.pos))
  }

  /** `creator`: the creator's class, not the creator. */
  function Creator(p: Projectile): string {
    p.creator
  }

  /** The creator is the class given when firing, whatever happens to the
      projectile afterwards. */
  lemma CreatorKept(cls: string, origin: Vec, delta: Vec, p: Projectile, bounds: Rect, kinds: set<string>)
    ensures Creator(NewProjectile(cls, origin, delta)) == cls
    ensures Creator(Update(p, bounds)) == Creator(p) && Creator(CollideWith(p, kinds)) == Creator(p)
  {
  }

  /** What `draw` draws: the segment, once there is a previous position. */
  function Draw(p: Projectile): (line: Option<Segment>)
    ensures line.Some? <==> p.next.Some?
    ensures line.Some? ==> line.value == Bounds(p)
  {
    if p.next.Some? then Some(Segment(p.pos, p.next.value)) else None
  }

  /** A fresh projectile is a single point. */
  lemma FreshBoundsDegenerate(creatorClass: string, origin: Vec, delta: Vec)
    ensures Bounds(NewProjectile(creatorClass, origin, delta)) == Segment(origin, origin)
    ensures Draw(NewProjectile(creatorClass, origin, delta)).None?
  {
  }

  /** After an update the segment spans exactly one step. */
  lemma UpdatedBoundsSpanStep(p: Projectile, bounds: Rect)
    ensures var s := Bounds(Update(p, bounds));
            s.to == p.pos && s.from == p.pos.Plus(p.delta)
  {
  }

  /** Projectiles never hide one another, and never hide on their own side. */
  lemma FriendlyCollisions(p: Projectile, kinds: set<string>)
    requires p.creator in kinds
    ensures CollideWith(p, kinds) == p
    ensures CollideWith(p, {PROJECTILE}) == p
  {
  }

  /** `n` updates against the same bounds. */
  function Flight(p: Projectile, bounds: Rect, n: nat): Projectile
    decreases n
  {
    if n == 0 then p else Update(Flight(p, bounds, n - 1), bounds)
  }

  /** A projectile fired rightwards flies `n` steps, and is still in the
      game exactly when it was before and has not yet passed the right
      edge. */
  lemma {:induction false} FlightPosition(p: Projectile, bounds: Rect, n: nat)
    requires p.delta.x >= 0.0
    ensures Flight(p, bounds, n).pos == Vec(p.pos.x + n as real * p.delta.x, p.pos.y + n as real * p.delta.y)
    ensures Flight(p, bounds, n).delta == p.delta && Flight(p, bounds, n).creator == p.creator
    ensures n > 0 ==> (Flight(p, bounds, n).visible <==> p.visible && p.pos.x + n as real * p.delta.x <= bounds.w)
    decreases n
  {
    if n > 0 {
      FlightPosition(p, bounds, n - 1);
      assert (n - 1) as real * p.delta.x + p.delta.x == n as real * p.delta.x;
      assert (n - 1) as real * p.delta.y + p.delta.y == n as real * p.delta.y;
      assert (n - 1) as real * p.delta.x <= n as real * p.delta.x;
    }
  }
}

=== FILE: pynum.dfy ===
/** Python's integer conversions, written out over Dafny's unbounded numbers. */
module PyNum {

  /** `int(r)` on a float: truncation toward zero. */
  function Trunc(r: real): (n: int)
    ensures 0.0 <= r ==> n as real <= r < n as real + 1.0
    ensures r < 0.0 ==> n as real - 1.0 < r <= n as real
  {
    if r >= 0.0 then r.Floor else -((-r).Floor)
  }

  /** `a // b` for a positive divisor: the quotient rounded toward minus
      infinity. (Dafny's `/` is Euclidean, which agrees for `b > 0`.) */
  function FloorDiv(a: int, b: int): (q: int)
    requires b > 0
    ensures q * b <= a < q * b + b
  {
    a / b
  }

  /** `n // 2` on an integer pixel size, as the sprite and text code use it. */
  function Half(n: int): (q: int)
    ensures 2 * q <= n < 2 * q + 2
  {
    FloorDiv(n, 2)
  }
}

=== FILE: scene.dfy ===
/** A scene of the game (engine/scene.py): its timed event queue, its list
    of named objects, the pairwise collision scan, object lookup, spawning
    in priority order, and the scripted events a scene can run.

    The scene's objects are of any type `Obj`; what the scene asks of them
    (priority, collision, update, visibility, methods) is given by an
    `Ops` record of functions. Audio playback and external callables are
    recorded in a log instead of performed. */
module Scene {
  import opened Wrappers
  import opened PyNum
  import opened Sorting
  import opened Seqs
  import Util
  import Keys
  import opened Vectors

  /** An argument of a scripted event: a string, a list of strings, a
      number or a callable. */
  datatype Arg = Str(s: string) | Strs(items: seq<string>) | Num(r: real) | Callable(id: nat)

  /** The `(func, *args)` part of an event: the name of the scene method
      without its leading `_`, and its arguments. */
  datatype Action = Action(func: string, args: seq<Arg>)

  /** A queued event `(time, recurrence, func, *args)`: `time` is the
      milliseconds left until it fires, `recurrence` what the timer is reset
      to after firing. */
  datatype Event = Event(time: real, recurrence: real, action: Action)

  /** Each `before` entry runs at once and never again: `(-1, 0, *entry)`. */
  function BeforeEvent(a: Action): Event {
    Event(-1.0, 0.0, a)
  }

  /** The queue of a new scene: the `before` actions, then the `events`. */
  function InitialEvents(before: seq<Action>, events: seq<Event>): (q: seq<Event>)
    ensures |q| == |before| + |events|
    ensures forall k :: 0 <= k < |before| ==> q[k] == BeforeEvent(before[k])
    ensures q[|before|..] == events
  {
    if |before| == 0 then events else [BeforeEvent(before[0])] + InitialEvents(before[1..], events)
  }

  /** The queue is sorted by `int(time)`, truncated toward zero. */
  function SortKey(e: Event): int {
    Trunc(e.time)
  }

  /** The event's timer runs out in this frame. */
  predicate Due(e: Event, elapsed: real) {
    e.time - elapsed <= 0.0
  }

  /** The event after one frame: re-armed with its recurrence when it fired,
      otherwise `elapsed` closer to firing. */
  function Advance(e: Event, elapsed: real): (e': Event)
    ensures e'.action == e.action && e'.recurrence == e.recurrence
    ensures Due(e, elapsed) ==> e'.time == e.recurrence
    ensures !Due(e, elapsed) ==> e'.time == e.time - elapsed && e'.time > 0.0
  {
    if Due(e, elapsed) then e.(time := e.recurrence) else e.(time := e.time - elapsed)
  }

  /** The actions of the events that fire, in queue order. */
  function Fired(q: seq<Event>, elapsed: real): (fired: seq<Action>)
    ensures |fired| <= |q|
  {
    if |q| == 0 then []
    else (if Due(q[0], elapsed) then [q[0].action] else []) + Fired(q[1..], elapsed)
  }

  /** Every event advanced by one frame. */
  function AdvanceAll(q: seq<Event>, elapsed: real): (q': seq<Event>)
    ensures |q'| == |q| && forall k :: 0 <= k < |q| ==> q'[k] == Advance(q[k], elapsed)
  {
    if |q| == 0 then [] else [Advance(q[0], elapsed)] + AdvanceAll(q[1..], elapsed)
  }

  /** The event is still pending after the frame. */
  predicate Pending(e: Event) {
    e.time > 0.0
  }

  /** What one frame does to the queue: the actions fired, and the queue
      that remains. */
  datatype FrameResult = FrameResult(fired: seq<Action>, queue: seq<Event>)

  /** The queue part of `Scene.frame(count, elapsed)`: the queue is stably
      sorted by `int(time)`; every timer loses `elapsed`; an event whose
      timer reaches zero or less fires once and is reset to its recurrence;
      then only events with a positive timer stay. */
  function Frame(q: seq<Event>, elapsed: real): (r: FrameResult)
    ensures |r.fired| <= |q| && |r.queue| <= |q|
    ensures forall k :: 0 <= k < |r.queue| ==> Pending(r.queue[k])
  {
    var sorted := SortBy(q, SortKey);
    FrameResult(Fired(sorted, elapsed), Filter(Pending, AdvanceAll(sorted, elapsed)))
  }

  /** Firing distributes over the queue: the actions of an earlier part of
      the queue fire before those of a later part. */
  lemma {:induction false} FiredAppend(a: seq<Event>, b: seq<Event>, elapsed: real)
    ensures Fired(a + b, elapsed) == Fired(a, elapsed) + Fired(b, elapsed)
  {
    if |a| == 0 {
      assert a + b == b;
    } else {
      var h := if Due(a[0], elapsed) then [a[0].action] else [];
      assert (a + b)[1..] == a[1..] + b;
      assert (a + b)[0] == a[0];
      FiredAppend(a[1..], b, elapsed);
      calc {
        Fired(a + b, elapsed);
        h + Fired(a[1..] + b, elapsed);
        h + (Fired(a[1..], elapsed) + Fired(b, elapsed));
        (h + Fired(a[1..], elapsed)) + Fired(b, elapsed);
      }
    }
  }

  /** A lone event fires exactly when its timer runs out, and then stays
      queued only with a positive recurrence. */
  lemma FrameOne(e: Event, elapsed: real)
    ensures Frame([e], elapsed).fired == if Due(e, elapsed) then [e.action] else []
    ensures Frame([e], elapsed).queue ==
            if !Due(e, elapsed) then [e.(time := e.time - elapsed)]
            else if e.recurrence > 0.0 then [e.(time := e.recurrence)]
            else []
  {
    var sorted := SortBy([e], SortKey);
    assert multiset(sorted) == multiset{e};
    assert |sorted| == 1 && sorted[0] in multiset(sorted);
    assert sorted == [e];
    assert AdvanceAll(sorted, elapsed) == [Advance(e, elapsed)];
    assert Fired(sorted, elapsed) == (if Due(e, elapsed) then [e.action] else []) + Fired([], elapsed);
    assert Filter(Pending, [Advance(e, elapsed)]) == (if Pending(Advance(e, elapsed)) then [Advance(e, elapsed)] else []) + Filter(Pending, []);
  }

  /** An event `(1000, 500, X)` with frames of 400 ms waits two frames,
      fires on the third and is re-armed to 500. */
  lemma FrameRecurring(x: Action)
    ensures Frame([Event(1000.0, 500.0, x)], 400.0) == FrameResult([], [Event(600.0, 500.0, x)])
    ensures Frame([Event(600.0, 500.0, x)], 400.0) == FrameResult([], [Event(200.0, 500.0, x)])
    ensures Frame([Event(200.0, 500.0, x)], 400.0) == FrameResult([x], [Event(500.0, 500.0, x)])
  {
    FrameOne(Event(1000.0, 500.0, x), 400.0);
    FrameOne(Event(600.0, 500.0, x), 400.0);
    FrameOne(Event(200.0, 500.0, x), 400.0);
  }

  /** A one-shot event (recurrence 0) is gone after it fires. */
  lemma FrameOneShot(t: real, x: Action, elapsed: real)
    requires t <= elapsed
    ensures Frame([Event(t, 0.0, x)], elapsed) == FrameResult([x], [])
  {
    FrameOne(Event(t, 0.0, x), elapsed);
  }

  lemma {:induction false} FiredAllDue(q: seq<Event>, elapsed: real)
    requires forall k :: 0 <= k < |q| ==> Due(q[k], elapsed)
    ensures |Fired(q, elapsed)| == |q|
    ensures forall k :: 0 <= k < |q| ==> Fired(q, elapsed)[k] == q[k].action
  {
    if |q| > 0 {
      FiredAllDue(q[1..], elapsed);
    }
  }

  /** `Due` and `Advance` for a frame of `elapsed`, as function values. */
  function DueBy(elapsed: real): Event -> bool {
    e => Due(e, elapsed)
  }

  function AdvanceBy(elapsed: real): Event -> Event {
    e => Advance(e, elapsed)
  }

  function ActionOf(e: Event): Action {
    e.action
  }

  /** The actions that fire are those of the due events, in queue order. */
  lemma {:induction false} FiredIsDueActions(q: seq<Event>, elapsed: real)
    ensures Fired(q, elapsed) == Map(ActionOf, Filter(DueBy(elapsed), q))
  {
    if |q| > 0 {
      FiredIsDueActions(q[1..], elapsed);
      var h := if Due(q[0], elapsed) then [q[0]] else [];
      assert Filter(DueBy(elapsed), q) == h + Filter(DueBy(elapsed), q[1..]);
      MapAppend(ActionOf, h, Filter(DueBy(elapsed), q[1..]));
    }
  }

  lemma {:induction false} AdvanceAllIsMap(q: seq<Event>, elapsed: real)
    ensures AdvanceAll(q, elapsed) == Map(AdvanceBy(elapsed), q)
  {
    if |q| > 0 {
      AdvanceAllIsMap(q[1..], elapsed);
      assert AdvanceAll(q, elapsed) == [Advance(q[0], elapsed)] + AdvanceAll(q[1..], elapsed);
    }
  }

  /** Whatever order the queue is in, a frame fires the action of every due
      event exactly once and nothing else. */
  lemma FrameFires(q: seq<Event>, elapsed: real)
    ensures multiset(Frame(q, elapsed).fired) == multiset(Map(ActionOf, Filter(DueBy(elapsed), q)))
  {
    var sorted := SortBy(q, SortKey);
    FiredIsDueActions(sorted, elapsed);
    FilterPermutation(DueBy(elapsed), sorted, q);
    MapPermutation(ActionOf, Filter(DueBy(elapsed), sorted), Filter(DueBy(elapsed), q));
  }

  /** Whatever order the queue is in, after a frame it holds each event once
      more, advanced, when its timer is still positive. */
  lemma FrameQueuePermutation(q: seq<Event>, elapsed: real)
    ensures multiset(Frame(q, elapsed).queue) == multiset(Filter(Pending, Map(AdvanceBy(elapsed), q)))
  {
    var sorted := SortBy(q, SortKey);
    AdvanceAllIsMap(sorted, elapsed);
    MapPermutation(AdvanceBy(elapsed), sorted, q);
    FilterPermutation(Pending, Map(AdvanceBy(elapsed), sorted), Map(AdvanceBy(elapsed), q));
  }

  /** An event is queued after a frame exactly when it is an advanced event
      of the queue with a positive timer. */
  lemma FrameQueueMember(q: seq<Event>, elapsed: real, x: Event)
    ensures x in Frame(q, elapsed).queue <==> Pending(x) && exists k :: 0 <= k < |q| && x == Advance(q[k], elapsed)
  {
    var advanced := Map(AdvanceBy(elapsed), q);
    var queue := Frame(q, elapsed).queue;
    FrameQueuePermutation(q, elapsed);
    assert x in queue <==> x in multiset(queue);
    FilterMember(Pending, advanced, x);
    if x in advanced {
      var k :| 0 <= k < |advanced| && advanced[k] == x;
      MapAt(AdvanceBy(elapsed), q, k);
    }
    if exists k :: 0 <= k < |q| && x == Advance(q[k], elapsed) {
      var k :| 0 <= k < |q| && x == Advance(q[k], elapsed);
      MapAt(AdvanceBy(elapsed), q, k);
    }
  }

  /** After a frame, an event not due has lost `elapsed`, a due event with a
      positive recurrence is re-armed to it, and nothing else is queued. */
  lemma FrameQueue(q: seq<Event>, elapsed: real)
    ensures forall e :: e in q && !Due(e, elapsed) ==> e.(time := e.time - elapsed) in Frame(q, elapsed).queue
    ensures forall e :: e in q && Due(e, elapsed) && e.recurrence > 0.0 ==> e.(time := e.recurrence) in Frame(q, elapsed).queue
    ensures forall x :: x in Frame(q, elapsed).queue ==> Pending(x) && exists e :: e in q && x == Advance(e, elapsed)
  {
    forall e | e in q && Pending(Advance(e, elapsed)) ensures Advance(e, elapsed) in Frame(q, elapsed).queue {
      var k :| 0 <= k < |q| && q[k] == e;
      FrameQueueMember(q, elapsed, Advance(e, elapsed));
    }
    forall x | x in Frame(q, elapsed).queue ensures Pending(x) && exists e :: e in q && x == Advance(e, elapsed) {
      FrameQueueMember(q, elapsed, x);
      var k :| 0 <= k < |q| && x == Advance(q[k], elapsed);
      assert q[k] in q;
    }
  }

  /** A permutation keeps a lower bound on the keys. */
  lemma KeysAtLeast(s: seq<Event>, t: seq<Event>, m: int)
    requires multiset(s) == multiset(t)
    requires forall k :: 0 <= k < |t| ==> SortKey(t[k]) >= m
    ensures forall k :: 0 <= k < |s| ==> SortKey(s[k]) >= m
  {
    forall k | 0 <= k < |s| ensures SortKey(s[k]) >= m {
      assert s[k] in multiset(t);
      var j :| 0 <= j < |t| && t[j] == s[k];
    }
  }

  /** No event of a new scene's queue sorts ahead of the `before` events,
      and those carry the key -1. */
  lemma InitialKeys(before: seq<Action>, events: seq<Event>)
    requires forall k :: 0 <= k < |events| ==> events[k].time > -2.0
    ensures forall k :: 0 <= k < |InitialEvents(before, events)| ==> SortKey(InitialEvents(before, events)[k]) >= -1
    ensures WithKey(InitialEvents(before, events), SortKey, -1)
            == InitialEvents(before, events)[..|before|] + WithKey(events, SortKey, -1)
  {
    var q := InitialEvents(before, events);
    var bs := q[..|before|];
    assert q == bs + events;
    forall k | 0 <= k < |q| ensures SortKey(q[k]) >= -1 {
      if k >= |before| {
        assert q[k] == events[k - |before|];
      }
    }
    WithKeyAppend(bs, events, SortKey, -1);
    WithKeyAll(bs, SortKey, -1);
  }

  /** Sorting the initial queue leaves the `before` events at its head. */
  lemma SortedBeforeHead(before: seq<Action>, events: seq<Event>)
    requires forall k :: 0 <= k < |events| ==> events[k].time > -2.0
    ensures |SortBy(InitialEvents(before, events), SortKey)| >= |before|
    ensures SortBy(InitialEvents(before, events), SortKey)[..|before|] == InitialEvents(before, events)[..|before|]
  {
    var q := InitialEvents(before, events);
    InitialKeys(before, events);
    var sorted := SortBy(q, SortKey);
    KeysAtLeast(sorted, q, -1);
    MinKeyPrefix(sorted, SortKey, -1);
    var w := WithKey(sorted, SortKey, -1);
    assert w == q[..|before|] + WithKey(events, SortKey, -1);
    assert sorted[..|w|] == w;
    assert sorted[..|before|] == w[..|before|];
  }

  /** In a new scene's first frame, the `before` actions fire first and in
      their listed order, provided no scripted event has a time of -2 or
      less (`int(time)` below -1 would sort it ahead of them). */
  lemma BeforeFiresFirst(before: seq<Action>, events: seq<Event>, elapsed: real)
    requires elapsed >= 0.0
    requires forall k :: 0 <= k < |events| ==> events[k].time > -2.0
    ensures |Frame(InitialEvents(before, events), elapsed).fired| >= |before|
    ensures Frame(InitialEvents(before, events), elapsed).fired[..|before|] == before
  {
    var q := InitialEvents(before, events);
    var sorted := SortBy(q, SortKey);
    SortedBeforeHead(before, events);
    var head := sorted[..|before|];
    assert sorted == head + sorted[|before|..];
    FiredAppend(head, sorted[|before|..], elapsed);
    FiredAllDue(head, elapsed);
  }

  /** `queue_event(time, repeat, event, *args)`: the event goes to the back
      of the queue; the next frame's sort decides when it runs. */
  function QueueEvent(q: seq<Event>, time: real, repeat: real, a: Action): (q': seq<Event>)
    ensures |q'| == |q| + 1 && q'[..|q|] == q
    ensures q'[|q|] == Event(time, repeat, a)
  {
    q + [Event(time, repeat, a)]
  }

  /** An event queued with time -1 and no recurrence fires in the next frame
      ahead of every queued event whose time is not below -1. */
  lemma QueuedImmediateFires(q: seq<Event>, a: Action, elapsed: real)
    requires elapsed >= 0.0
    requires forall k :: 0 <= k < |q| ==> q[k].time >= -1.0 && q[k].time > elapsed
    ensures Frame(QueueEvent(q, -1.0, 0.0, a), elapsed).fired == [a]
  {
    var q' := QueueEvent(q, -1.0, 0.0, a);
    var sorted := SortBy(q', SortKey);
    forall k | 0 <= k < |sorted| ensures !Due(sorted[k], elapsed) || sorted[k] == Event(-1.0, 0.0, a) {
      assert sorted[k] in multiset(q');
      var j :| 0 <= j < |q'| && q'[j] == sorted[k];
      if j < |q| {
        assert q'[j] == q[j];
      }
    }
    FiredOnly(sorted, elapsed, Event(-1.0, 0.0, a));
    assert multiset(sorted)[Event(-1.0, 0.0, a)] == multiset(q')[Event(-1.0, 0.0, a)];
    CountDue(q, elapsed, Event(-1.0, 0.0, a));
    assert q' == q + [Event(-1.0, 0.0, a)];
    assert multiset(q') == multiset(q) + multiset{Event(-1.0, 0.0, a)};
  }

  /** When the only event that can fire is `e`, the frame fires `e`'s action
      once per copy of `e` in the queue. */
  lemma {:induction false} FiredOnly(q: seq<Event>, elapsed: real, e: Event)
    requires Due(e, elapsed)
    requires forall k :: 0 <= k < |q| ==> !Due(q[k], elapsed) || q[k] == e
    ensures Fired(q, elapsed) == seq(multiset(q)[e], _ => e.action)
  {
    if |q| > 0 {
      FiredOnly(q[1..], elapsed, e);
      assert q == [q[0]] + q[1..];
      assert multiset(q) == multiset{q[0]} + multiset(q[1..]);
    }
  }

  /** A queue of events none of which is due contains no copy of a due event. */
  lemma CountDue(q: seq<Event>, elapsed: real, e: Event)
    requires Due(e, elapsed)
    requires forall k :: 0 <= k < |q| ==> !Due(q[k], elapsed)
    ensures multiset(q)[e] == 0
  {
    assert e !in q;
  }

  // ---------------------------------------------------------------------
  // Objects

  /** An entry `(name, object)` of the scene's object list. */
  datatype Entry<Obj> = Entry(name: string, obj: Obj)

  /** What the scene asks of its objects, which Python finds by duck typing:
      `priority`; `isinstance(o, Collider)`; `should_collide`; `did_collide`;
      `collide_with`, giving the receiver's new state; `update(bounds)`;
      `isinstance(o, NonRemovable)`; `hasattr(o, 'visible')`; `visible`;
      and calling a named method of the object with arguments. */
  datatype Ops<!Obj> = Ops(
    priority: Obj -> int,
    isCollider: Obj -> bool,
    shouldCollide: Obj -> bool,
    didCollide: (Obj, Obj) -> bool,
    collideWith: (Obj, Obj) -> Obj,
    update: (Obj, Rect) -> Obj,
    nonRemovable: Obj -> bool,
    hasVisible: Obj -> bool,
    visible: Obj -> bool,
    invoke: (Obj, string, seq<Arg>) -> Result<Obj>)

  /** A collider whose `should_collide` flag is set. */
  predicate Active<Obj>(ops: Ops<Obj>, o: Obj) {
    ops.isCollider(o) && ops.shouldCollide(o)
  }

  /** One detected collision: between the objects at `src` and `dst`. */
  datatype Hit = Hit(src: nat, dst: nat)

  /** Lexicographic order of hits. */
  predicate Precedes(a: Hit, b: Hit) {
    a.src < b.src || (a.src == b.src && a.dst < b.dst)
  }

  /** Every hit is a pair `src < dst` of positions of a list of length `n`. */
  predicate Bounded(hits: seq<Hit>, n: nat) {
    forall k :: 0 <= k < |hits| ==> hits[k].src < hits[k].dst < n
  }

  /** Each hit strictly follows the previous one. */
  predicate Chain(hits: seq<Hit>) {
    forall k :: 0 < k < |hits| ==> Precedes(hits[k - 1], hits[k])
  }

  /** The objects after a collision scan, and the collisions it handled. */
  datatype Scan<Obj> = Scan(objects: seq<Entry<Obj>>, hits: seq<Hit>)

  /** Every hit has its source before position `n`. */
  predicate SourcesBelow(hits: seq<Hit>, n: nat) {
    forall k :: 0 <= k < |hits| ==> hits[k].src < n
  }

  /** The hits handled before the source at `i` meets position `j`. */
  predicate HitsBefore(hits: seq<Hit>, i: nat, j: nat) {
    forall k :: 0 <= k < |hits| ==> hits[k].src < i || (hits[k].src == i && hits[k].dst < j)
  }

  /** The source at `i` meets the object at `j`: the object is an active
      collider and the source's `did_collide` reports a hit. */
  predicate Meets<Obj>(ops: Ops<Obj>, objs: seq<Entry<Obj>>, i: nat, j: nat)
    requires i < |objs| && j < |objs|
  {
    Active(ops, objs[j].obj) && ops.didCollide(objs[i].obj, objs[j].obj)
  }

  /** The objects once the source at `i` and the object at `j` have
      responded to each other: the source first, then the other object to
      the source's new state. Every other entry, and every name, stays. */
  function Exchange<Obj>(ops: Ops<Obj>, objs: seq<Entry<Obj>>, i: nat, j: nat): (r: seq<Entry<Obj>>)
    requires i < j < |objs|
    ensures |r| == |objs|
    ensures forall k :: 0 <= k < |objs| && k != i && k != j ==> r[k] == objs[k]
    ensures r[i] == Entry(objs[i].name, ops.collideWith(objs[i].obj, objs[j].obj))
    ensures r[j] == Entry(objs[j].name, ops.collideWith(objs[j].obj, r[i].obj))
  {
    var src' := ops.collideWith(objs[i].obj, objs[j].obj);
    objs[i := Entry(objs[i].name, src')][j := Entry(objs[j].name, ops.collideWith(objs[j].obj, src'))]
  }

  /** The inner loop of `verify_collisions` for the source at `i`, from
      position `j` on. The source's current state is used for each test. */
  function Inner<Obj>(ops: Ops<Obj>, objs: seq<Entry<Obj>>, i: nat, j: nat, hits: seq<Hit>): (r: Scan<Obj>)
    requires i < j <= |objs| && HitsBefore(hits, i, j)
    ensures |r.objects| == |objs|
    ensures |r.hits| >= |hits| && forall k :: 0 <= k < |hits| ==> r.hits[k] == hits[k]
    ensures forall k :: |hits| <= k < |r.hits| ==> r.hits[k].src == i && j <= r.hits[k].dst < |objs|
    decreases |objs| - j
  {
    if j == |objs| then Scan(objs, hits)
    else if Meets(ops, objs, i, j) then
      var r := Inner(ops, Exchange(ops, objs, i, j), i, j + 1, hits + [Hit(i, j)]);
      r
    else
      Inner(ops, objs, i, j + 1, hits)
  }

  /** One step of the inner loop. */
  lemma InnerStep<Obj>(ops: Ops<Obj>, objs: seq<Entry<Obj>>, i: nat, j: nat, hits: seq<Hit>)
    requires i < j < |objs| && HitsBefore(hits, i, j)
    ensures HitsBefore(hits + [Hit(i, j)], i, j + 1) && HitsBefore(hits, i, j + 1)
    ensures Meets(ops, objs, i, j) ==>
              Inner(ops, objs, i, j, hits) == Inner(ops, Exchange(ops, objs, i, j), i, j + 1, hits + [Hit(i, j)])
    ensures !Meets(ops, objs, i, j) ==> Inner(ops, objs, i, j, hits) == Inner(ops, objs, i, j + 1, hits)
  {
  }

  /** The inner loop leaves alone the objects before `j` other than the
      source, and those that are not active colliders. */
  lemma {:induction false} InnerKeeps<Obj>(ops: Ops<Obj>, objs: seq<Entry<Obj>>, i: nat, j: nat, hits: seq<Hit>, k: nat)
    requires i < j <= |objs| && HitsBefore(hits, i, j)
    requires k < |objs| && k != i && (k < j || !Active(ops, objs[k].obj))
    ensures Inner(ops, objs, i, j, hits).objects[k] == objs[k]
    decreases |objs| - j
  {
    if j < |objs| {
      InnerStep(ops, objs, i, j, hits);
      if Meets(ops, objs, i, j) {
        InnerKeeps(ops, Exchange(ops, objs, i, j), i, j + 1, hits + [Hit(i, j)], k);
      } else {
        InnerKeeps(ops, objs, i, j + 1, hits, k);
      }
    }
  }

  /** Every object the inner loop hits was an active collider. */
  lemma {:induction false} InnerHitsActive<Obj>(ops: Ops<Obj>, objs: seq<Entry<Obj>>, i: nat, j: nat, hits: seq<Hit>, l: nat)
    requires i < j <= |objs| && HitsBefore(hits, i, j)
    requires |hits| <= l < |Inner(ops, objs, i, j, hits).hits|
    ensures Active(ops, objs[Inner(ops, objs, i, j, hits).hits[l].dst].obj)
    decreases |objs| - j
  {
    if j < |objs| {
      InnerStep(ops, objs, i, j, hits);
      if Meets(ops, objs, i, j) {
        var objs', hits' := Exchange(ops, objs, i, j), hits + [Hit(i, j)];
        var r := Inner(ops, objs', i, j + 1, hits');
        if l == |hits| {
          assert r.hits[l] == hits'[l] == Hit(i, j);
        } else {
          InnerHitsActive(ops, objs', i, j + 1, hits', l);
        }
      } else {
        InnerHitsActive(ops, objs, i, j + 1, hits, l);
      }
    }
  }

  /** A hit `(i, j)` extends a chain of hits handled before it. */
  lemma ChainExtend(hits: seq<Hit>, i: nat, j: nat)
    requires Chain(hits) && HitsBefore(hits, i, j)
    ensures Chain(hits + [Hit(i, j)])
  {
    if |hits| > 0 {
      assert Precedes(hits[|hits| - 1], Hit(i, j));
    }
  }

  /** The inner loop keeps the hits in increasing order. */
  lemma {:induction false} InnerChain<Obj>(ops: Ops<Obj>, objs: seq<Entry<Obj>>, i: nat, j: nat, hits: seq<Hit>)
    requires i < j <= |objs| && HitsBefore(hits, i, j) && Chain(hits)
    ensures Chain(Inner(ops, objs, i, j, hits).hits)
    decreases |objs| - j
  {
    if j < |objs| {
      InnerStep(ops, objs, i, j, hits);
      if Meets(ops, objs, i, j) {
        var hits' := hits + [Hit(i, j)];
        ChainExtend(hits, i, j);
        InnerChain(ops, Exchange(ops, objs, i, j), i, j + 1, hits');
      } else {
        InnerChain(ops, objs, i, j + 1, hits);
      }
    }
  }

  /** The inner loop keeps every name at its position. */
  lemma {:induction false} InnerNames<Obj>(ops: Ops<Obj>, objs: seq<Entry<Obj>>, i: nat, j: nat, hits: seq<Hit>, k: nat)
    requires i < j <= |objs| && HitsBefore(hits, i, j) && k < |objs|
    ensures Inner(ops, objs, i, j, hits).objects[k].name == objs[k].name
    decreases |objs| - j
  {
    if j < |objs| {
      InnerStep(ops, objs, i, j, hits);
      if Meets(ops, objs, i, j) {
        InnerNames(ops, Exchange(ops, objs, i, j), i, j + 1, hits + [Hit(i, j)], k);
      } else {
        InnerNames(ops, objs, i, j + 1, hits, k);
      }
    }
  }

  /** After the inner loop for the source at `i`, every hit has a source
      no later than `i`. */
  lemma InnerSources<Obj>(ops: Ops<Obj>, objs: seq<Entry<Obj>>, i: nat, hits: seq<Hit>)
    requires i < |objs|
    requires SourcesBelow(hits, i)
    ensures HitsBefore(hits, i, i + 1)
    ensures SourcesBelow(Inner(ops, objs, i, i + 1, hits).hits, i + 1)
  {
    var s := Inner(ops, objs, i, i + 1, hits);
    forall k | 0 <= k < |s.hits| ensures s.hits[k].src < i + 1 {
      if k < |hits| {
        assert s.hits[k] == hits[k];
      }
    }
  }

  /** The outer loop of `verify_collisions`, from position `i` on: a source
      takes part only if it is an active collider when its turn comes; its
      flag is not read again while it is compared with the later objects. */
  function Outer<Obj>(ops: Ops<Obj>, objs: seq<Entry<Obj>>, i: nat, hits: seq<Hit>): (r: Scan<Obj>)
    requires i <= |objs|
    requires SourcesBelow(hits, i)
    ensures |r.objects| == |objs|
    ensures |r.hits| >= |hits| && forall k :: 0 <= k < |hits| ==> r.hits[k] == hits[k]
    ensures forall k :: |hits| <= k < |r.hits| ==> i <= r.hits[k].src < r.hits[k].dst < |objs|
    decreases |objs| - i
  {
    if i == |objs| then Scan(objs, hits)
    else if Active(ops, objs[i].obj) then
      var s := Inner(ops, objs, i, i + 1, hits);
      InnerSources(ops, objs, i, hits);
      var r := Outer(ops, s.objects, i + 1, s.hits);
      r
    else
      Outer(ops, objs, i + 1, hits)
  }

  /** One step of the outer loop. */
  lemma OuterStep<Obj>(ops: Ops<Obj>, objs: seq<Entry<Obj>>, i: nat, hits: seq<Hit>)
    requires i < |objs|
    requires SourcesBelow(hits, i)
    ensures Active(ops, objs[i].obj) ==>
              var s := Inner(ops, objs, i, i + 1, hits);
              SourcesBelow(s.hits, i + 1) &&
              Outer(ops, objs, i, hits) == Outer(ops, s.objects, i + 1, s.hits)
    ensures !Active(ops, objs[i].obj) ==> Outer(ops, objs, i, hits) == Outer(ops, objs, i + 1, hits)
  {
    if Active(ops, objs[i].obj) {
      InnerSources(ops, objs, i, hits);
    }
  }

  /** The outer loop keeps the hits in increasing order. */
  lemma {:induction false} OuterChain<Obj>(ops: Ops<Obj>, objs: seq<Entry<Obj>>, i: nat, hits: seq<Hit>)
    requires i <= |objs|
    requires SourcesBelow(hits, i)
    ensures Chain(hits) ==> Chain(Outer(ops, objs, i, hits).hits)
    decreases |objs| - i
  {
    if i < |objs| {
      OuterStep(ops, objs, i, hits);
      if Active(ops, objs[i].obj) {
        var s := Inner(ops, objs, i, i + 1, hits);
        if Chain(hits) {
          InnerChain(ops, objs, i, i + 1, hits);
        }
        OuterChain(ops, s.objects, i + 1, s.hits);
      } else {
        OuterChain(ops, objs, i + 1, hits);
      }
    }
  }

  /** The outer loop keeps every name at its position. */
  lemma {:induction false} OuterNames<Obj>(ops: Ops<Obj>, objs: seq<Entry<Obj>>, i: nat, hits: seq<Hit>, k: nat)
    requires i <= |objs| && k < |objs|
    requires SourcesBelow(hits, i)
    ensures Outer(ops, objs, i, hits).objects[k].name == objs[k].name
    decreases |objs| - i
  {
    if i < |objs| {
      OuterStep(ops, objs, i, hits);
      if Active(ops, objs[i].obj) {
        var s := Inner(ops, objs, i, i + 1, hits);
        InnerSources(ops, objs, i, hits);
        InnerNames(ops, objs, i, i + 1, hits, k);
        OuterNames(ops, s.objects, i + 1, s.hits, k);
      } else {
        OuterNames(ops, objs, i + 1, hits, k);
      }
    }
  }

  /** An object that is not an active collider when the outer loop reaches
      position `i` comes out unchanged. */
  lemma {:induction false} OuterKeeps<Obj>(ops: Ops<Obj>, objs: seq<Entry<Obj>>, i: nat, hits: seq<Hit>, k: nat)
    requires i <= |objs| && k < |objs|
    requires SourcesBelow(hits, i)
    requires k < i || !Active(ops, objs[k].obj)
    ensures Outer(ops, objs, i, hits).objects[k] == objs[k]
    decreases |objs| - i
  {
    if i < |objs| {
      OuterStep(ops, objs, i, hits);
      if Active(ops, objs[i].obj) {
        var s := Inner(ops, objs, i, i + 1, hits);
        InnerSources(ops, objs, i, hits);
        InnerKeeps(ops, objs, i, i + 1, hits, k);
        OuterKeeps(ops, s.objects, i + 1, s.hits, k);
      } else {
        OuterKeeps(ops, objs, i + 1, hits, k);
      }
    }
  }

  /** An object that is not an active collider when the outer loop reaches
      position `i` takes part in none of the hits from there on. */
  lemma {:induction false} OuterAvoids<Obj>(ops: Ops<Obj>, objs: seq<Entry<Obj>>, i: nat, hits: seq<Hit>, k: nat, l: nat)
    requires i <= |objs| && k < |objs|
    requires SourcesBelow(hits, i)
    requires k < i || !Active(ops, objs[k].obj)
    requires |hits| <= l < |Outer(ops, objs, i, hits).hits|
    ensures Outer(ops, objs, i, hits).hits[l].src != k && Outer(ops, objs, i, hits).hits[l].dst != k
    decreases |objs| - i
  {
    var h := Outer(ops, objs, i, hits).hits[l];
    if k < i {
      assert i <= h.src < h.dst;
    } else if Active(ops, objs[i].obj) {
      OuterStep(ops, objs, i, hits);
      var s := Inner(ops, objs, i, i + 1, hits);
      if l < |s.hits| {
        InnerHitsActive(ops, objs, i, i + 1, hits, l);
      } else {
        InnerKeeps(ops, objs, i, i + 1, hits, k);
        OuterAvoids(ops, s.objects, i + 1, s.hits, k, l);
      }
    } else {
      OuterStep(ops, objs, i, hits);
      OuterAvoids(ops, objs, i + 1, hits, k, l);
    }
  }

  /** Only objects that are active colliders when their turn comes take part
      in a hit. */
  lemma {:induction false} OuterActive<Obj>(ops: Ops<Obj>, objs: seq<Entry<Obj>>, i: nat, hits: seq<Hit>, l: nat)
    requires i <= |objs|
    requires SourcesBelow(hits, i)
    requires |hits| <= l < |Outer(ops, objs, i, hits).hits|
    ensures Active(ops, objs[Outer(ops, objs, i, hits).hits[l].src].obj)
    ensures Active(ops, objs[Outer(ops, objs, i, hits).hits[l].dst].obj)
    decreases |objs| - i
  {
    if i < |objs| {
      OuterStep(ops, objs, i, hits);
      if Active(ops, objs[i].obj) {
        var s := Inner(ops, objs, i, i + 1, hits);
        var r := Outer(ops, s.objects, i + 1, s.hits);
        InnerSources(ops, objs, i, hits);
        if l < |s.hits| {
          assert r.hits[l] == s.hits[l];
          InnerHitsActive(ops, objs, i, i + 1, hits, l);
        } else {
          var h := r.hits[l];
          OuterActive(ops, s.objects, i + 1, s.hits, l);
          OuterAvoids(ops, s.objects, i + 1, s.hits, i, l);
          if !Active(ops, objs[h.src].obj) {
            InnerKeeps(ops, objs, i, i + 1, hits, h.src);
          }
          if !Active(ops, objs[h.dst].obj) {
            InnerKeeps(ops, objs, i, i + 1, hits, h.dst);
          }
        }
      } else {
        OuterActive(ops, objs, i + 1, hits, l);
      }
    }
  }

  /** `verify_collisions()`, as a whole: the names and positions of the
      objects stay; the hits are pairs `i < j` in increasing order. */
  function Collisions<Obj>(ops: Ops<Obj>, objs: seq<Entry<Obj>>): (r: Scan<Obj>)
    ensures |r.objects| == |objs|
    ensures forall k :: 0 <= k < |objs| ==> r.objects[k].name == objs[k].name
    ensures Bounded(r.hits, |objs|) && Chain(r.hits)
  {
    OuterChain(ops, objs, 0, []);
    forall k | 0 <= k < |objs| ensures Outer(ops, objs, 0, []).objects[k].name == objs[k].name {
      OuterNames(ops, objs, 0, [], k);
    }
    Outer(ops, objs, 0, [])
  }

  /** The hits come in strictly increasing lexicographic order, so no pair
      of objects is handled twice. */
  lemma {:induction false} ChainIncreasing(hits: seq<Hit>, a: nat, b: nat)
    requires Chain(hits) && a < b < |hits|
    ensures Precedes(hits[a], hits[b])
    decreases b - a
  {
    if b > a + 1 {
      ChainIncreasing(hits, a, b - 1);
      assert Precedes(hits[b - 1], hits[b]);
    }
  }

  /** Each pair `i < j` is examined, and so handled, at most once per scan. */
  lemma CollisionPairsOnce<Obj>(ops: Ops<Obj>, objs: seq<Entry<Obj>>, a: nat, b: nat)
    requires a < b < |Collisions(ops, objs).hits|
    ensures Collisions(ops, objs).hits[a] != Collisions(ops, objs).hits[b]
  {
    ChainIncreasing(Collisions(ops, objs).hits, a, b);
  }

  /** An object that is not an active collider at the start of the scan is
      never examined and comes out unchanged; both objects of every hit were
      active colliders at the start. */
  lemma InactiveUntouched<Obj>(ops: Ops<Obj>, objs: seq<Entry<Obj>>)
    ensures forall k :: 0 <= k < |objs| && !Active(ops, objs[k].obj) ==>
              Collisions(ops, objs).objects[k] == objs[k] &&
              forall h :: h in Collisions(ops, objs).hits ==> h.src != k && h.dst != k
    ensures forall h :: h in Collisions(ops, objs).hits ==>
              Active(ops, objs[h.src].obj) && Active(ops, objs[h.dst].obj)
  {
    var hits := Collisions(ops, objs).hits;
    forall k | 0 <= k < |objs| && !Active(ops, objs[k].obj)
      ensures Collisions(ops, objs).objects[k] == objs[k]
      ensures forall h :: h in hits ==> h.src != k && h.dst != k
    {
      OuterKeeps(ops, objs, 0, [], k);
      forall l | 0 <= l < |hits| ensures hits[l].src != k && hits[l].dst != k {
        OuterAvoids(ops, objs, 0, [], k, l);
      }
    }
    forall l | 0 <= l < |hits| ensures Active(ops, objs[hits[l].src].obj) && Active(ops, objs[hits[l].dst].obj) {
      OuterActive(ops, objs, 0, [], l);
    }
  }

  /** Objects that count their collisions and collide only while their
      count is 0. */
  function Counters(): Ops<int> {
    Ops((o: int) => 0, (o: int) => true, (o: int) => o == 0, (a: int, b: int) => true,
        (a: int, b: int) => a + b + 1, (o: int, w: Rect) => o,
        (o: int) => false, (o: int) => true, (o: int) => true,
        (o: int, m: string, args: seq<Arg>) => Ok(o))
  }

  /** A concrete scan of three fresh counters. The first object's flag is
      read once, so it still meets the third after its own count has moved
      on; each partner responds to the source's updated count. */
  lemma FlagReadOnce()
    ensures Collisions(Counters(), [Entry("a", 0), Entry("b", 0), Entry("c", 0)])
            == Scan([Entry("a", 2), Entry("b", 2), Entry("c", 3)], [Hit(0, 1), Hit(0, 2)])
  {
    var ops := Counters();
    var o2 := [Entry("a", 2), Entry("b", 2), Entry("c", 3)];
    FirstSourceOfCounters();
    assert Outer(ops, o2, 3, [Hit(0, 1), Hit(0, 2)]) == Scan(o2, [Hit(0, 1), Hit(0, 2)]);
    assert Outer(ops, o2, 1, [Hit(0, 1), Hit(0, 2)]) == Outer(ops, o2, 2, [Hit(0, 1), Hit(0, 2)]);
    assert Outer(ops, o2, 2, [Hit(0, 1), Hit(0, 2)]) == Outer(ops, o2, 3, [Hit(0, 1), Hit(0, 2)]);
  }

  /** The first counter's turn in that scan: it meets both others. */
  lemma FirstSourceOfCounters()
    ensures Inner(Counters(), [Entry("a", 0), Entry("b", 0), Entry("c", 0)], 0, 1, [])
            == Scan([Entry("a", 2), Entry("b", 2), Entry("c", 3)], [Hit(0, 1), Hit(0, 2)])
  {
    var ops := Counters();
    var o0 := [Entry("a", 0), Entry("b", 0), Entry("c", 0)];
    var o1 := [Entry("a", 1), Entry("b", 2), Entry("c", 0)];
    var o2 := [Entry("a", 2), Entry("b", 2), Entry("c", 3)];
    assert Exchange(ops, o0, 0, 1) == o1;
    assert Exchange(ops, o1, 0, 2) == o2;
    assert Inner(ops, o2, 0, 3, [Hit(0, 1), Hit(0, 2)]) == Scan(o2, [Hit(0, 1), Hit(0, 2)]);
    assert Inner(ops, o1, 0, 2, [Hit(0, 1)]) == Inner(ops, o2, 0, 3, [Hit(0, 1), Hit(0, 2)]);
  }

  /** The inner loop of `verify_collisions` for the source at `i`. */
  method CollideFrom<Obj>(ops: Ops<Obj>, objs: seq<Entry<Obj>>, i: nat, hits: seq<Hit>)
    returns (r: seq<Entry<Obj>>, hits': seq<Hit>)
    requires i < |objs|
    requires SourcesBelow(hits, i)
    ensures Scan(r, hits') == Inner(ops, objs, i, i + 1, hits)
  {
    r, hits' := objs, hits;
    var j := i + 1;
    while j < |r|
      invariant i < j <= |r| == |objs|
      invariant HitsBefore(hits', i, j)
      invariant Inner(ops, r, i, j, hits') == Inner(ops, objs, i, i + 1, hits)
    {
      InnerStep(ops, r, i, j, hits');
      if Meets(ops, r, i, j) {
        r := Exchange(ops, r, i, j);
        hits' := hits' + [Hit(i, j)];
      }
      j := j + 1;
    }
  }

  /** `verify_collisions()`: every active collider against each later one. */
  method VerifyCollisions<Obj>(ops: Ops<Obj>, objs: seq<Entry<Obj>>) returns (r: seq<Entry<Obj>>, hits: seq<Hit>)
    ensures Scan(r, hits) == Collisions(ops, objs)
  {
    r, hits := objs, [];
    var i := 0;
    while i < |r|
      invariant 0 <= i <= |r| == |objs|
      invariant SourcesBelow(hits, i)
      invariant Outer(ops, r, i, hits) == Collisions(ops, objs)
    {
      OuterStep(ops, r, i, hits);
      if Active(ops, r[i].obj) {
        InnerSources(ops, r, i, hits);
        r, hits := CollideFrom(ops, r, i, hits);
      }
      i := i + 1;
    }
  }

  /** `get_object_list(name)`: the objects listed under `name`, in list order. */
  function ObjectList<Obj>(objs: seq<Entry<Obj>>, name: string): (r: seq<Obj>)
    ensures |r| <= |objs|
    ensures |r| == 0 <==> forall k :: 0 <= k < |objs| ==> objs[k].name != name
  {
    if |objs| == 0 then []
    else (if objs[0].name == name then [objs[0].obj] else []) + ObjectList(objs[1..], name)
  }

  /** The matches in two parts of the list come in the parts' order. */
  lemma {:induction false} ObjectListAppend<Obj>(a: seq<Entry<Obj>>, b: seq<Entry<Obj>>, name: string)
    ensures ObjectList(a + b, name) == ObjectList(a, name) + ObjectList(b, name)
  {
    if |a| == 0 {
      assert a + b == b;
    } else {
      var h := if a[0].name == name then [a[0].obj] else [];
      assert (a + b)[1..] == a[1..] + b;
      assert (a + b)[0] == a[0];
      ObjectListAppend(a[1..], b, name);
      calc {
        ObjectList(a + b, name);
        h + ObjectList(a[1..] + b, name);
        h + (ObjectList(a[1..], name) + ObjectList(b, name));
        (h + ObjectList(a[1..], name)) + ObjectList(b, name);
      }
    }
  }

  /** When exactly one entry carries the name, the list is its object alone. */
  lemma {:induction false} ObjectListUnique<Obj>(objs: seq<Entry<Obj>>, name: string, k: nat)
    requires k < |objs| && objs[k].name == name
    requires forall l :: 0 <= l < |objs| && l != k ==> objs[l].name != name
    ensures ObjectList(objs, name) == [objs[k].obj]
  {
    ObjectListAppend(objs[..k], objs[k..], name);
    assert objs == objs[..k] + objs[k..];
    ObjectListAppend([objs[k]], objs[k + 1..], name);
    assert objs[k..] == [objs[k]] + objs[k + 1..];
    assert ObjectList([objs[k]], name) == [objs[k].obj] + ObjectList([], name);
    assert forall l :: 0 <= l < |objs[..k]| ==> objs[..k][l] == objs[l];
    var tail := objs[k + 1..];
    assert forall l :: 0 <= l < |tail| ==> tail[l] == objs[k + 1 + l];
  }

  /** `get_object(name)`: nothing for no match, the object for one match,
      and an exception for several. */
  function GetObject<Obj>(objs: seq<Entry<Obj>>, name: string): (r: Result<Option<Obj>>)
    ensures r.Err? <==> |ObjectList(objs, name)| > 1
    ensures r.Err? ==> r.error == AmbiguousObject
    ensures r == Ok(None) <==> forall k :: 0 <= k < |objs| ==> objs[k].name != name
    ensures r.Ok? && r.value.Some? ==> ObjectList(objs, name) == [r.value.value]
  {
    var ol := ObjectList(objs, name);
    if |ol| == 0 then Ok(None)
    else if |ol| > 1 then Err(AmbiguousObject)
    else Ok(Some(ol[0]))
  }

  /** The object of the only entry with the name is found. */
  lemma GetObjectUnique<Obj>(objs: seq<Entry<Obj>>, name: string, k: nat)
    requires k < |objs| && objs[k].name == name
    requires forall l :: 0 <= l < |objs| && l != k ==> objs[l].name != name
    ensures GetObject(objs, name) == Ok(Some(objs[k].obj))
  {
    ObjectListUnique(objs, name, k);
  }

  /** Two entries with the same name make the lookup fail. */
  lemma GetObjectAmbiguous<Obj>(objs: seq<Entry<Obj>>, name: string, a: nat, b: nat)
    requires a < b < |objs| && objs[a].name == name && objs[b].name == name
    ensures GetObject(objs, name) == Err(AmbiguousObject)
  {
    ObjectListAppend(objs[..b], objs[b..], name);
    assert objs == objs[..b] + objs[b..];
    assert objs[..b][a] == objs[a] && objs[b..][0] == objs[b];
  }

  /** The object stays as long as it cannot be removed, has no visibility,
      or is visible. */
  predicate Kept<Obj>(ops: Ops<Obj>, o: Obj) {
    ops.nonRemovable(o) || !ops.hasVisible(o) || ops.visible(o)
  }

  function KeptEntry<Obj>(ops: Ops<Obj>): Entry<Obj> -> bool {
    (e: Entry<Obj>) => Kept(ops, e.obj)
  }

  /** Every object after its `update(bounds)`. */
  function UpdateEach<Obj>(ops: Ops<Obj>, objs: seq<Entry<Obj>>, bounds: Rect): (u: seq<Entry<Obj>>)
    ensures |u| == |objs|
    ensures forall k :: 0 <= k < |objs| ==> u[k] == Entry(objs[k].name, ops.update(objs[k].obj, bounds))
  {
    if |objs| == 0 then []
    else [Entry(objs[0].name, ops.update(objs[0].obj, bounds))] + UpdateEach(ops, objs[1..], bounds)
  }

  /** `update_objects(bounds)`: update everything, then drop the removable
      objects that have turned invisible. */
  function UpdateObjects<Obj>(ops: Ops<Obj>, objs: seq<Entry<Obj>>, bounds: Rect): (r: seq<Entry<Obj>>)
    ensures |r| <= |objs|
    ensures forall k :: 0 <= k < |r| ==> Kept(ops, r[k].obj)
  {
    Filter(KeptEntry(ops), UpdateEach(ops, objs, bounds))
  }

  /** An updated entry survives exactly when it is kept. */
  lemma UpdateRemovesExactly<Obj>(ops: Ops<Obj>, objs: seq<Entry<Obj>>, bounds: Rect, k: nat)
    requires k < |objs|
    ensures var e := Entry(objs[k].name, ops.update(objs[k].obj, bounds));
            e in UpdateObjects(ops, objs, bounds) <==> Kept(ops, e.obj)
  {
    var u := UpdateEach(ops, objs, bounds);
    FilterMember(KeptEntry(ops), u, u[k]);
  }

  /** The survivors keep their relative order: updating a list updates its
      parts in turn. */
  lemma UpdateKeepsOrder<Obj>(ops: Ops<Obj>, a: seq<Entry<Obj>>, b: seq<Entry<Obj>>, bounds: Rect)
    ensures UpdateObjects(ops, a + b, bounds) == UpdateObjects(ops, a, bounds) + UpdateObjects(ops, b, bounds)
  {
    var ua, ub, u := UpdateEach(ops, a, bounds), UpdateEach(ops, b, bounds), UpdateEach(ops, a + b, bounds);
    forall k | 0 <= k < |u| ensures u[k] == (ua + ub)[k] {
      if k < |a| {
        assert (a + b)[k] == a[k];
      } else {
        assert (a + b)[k] == b[k - |a|];
      }
    }
    assert u == ua + ub;
    FilterAppend(KeptEntry(ops), UpdateEach(ops, a, bounds), UpdateEach(ops, b, bounds));
  }

  /** When nothing turns invisible, no object leaves the list. */
  lemma UpdateNothingHidden<Obj>(ops: Ops<Obj>, objs: seq<Entry<Obj>>, bounds: Rect)
    requires forall k :: 0 <= k < |objs| ==> Kept(ops, ops.update(objs[k].obj, bounds))
    ensures UpdateObjects(ops, objs, bounds) == UpdateEach(ops, objs, bounds)
  {
    FilterAll(KeptEntry(ops), UpdateEach(ops, objs, bounds));
  }

  /** The priority of a list entry. */
  function PriorityKey<Obj>(ops: Ops<Obj>): Entry<Obj> -> int {
    (e: Entry<Obj>) => ops.priority(e.obj)
  }

  /** `draw(window)`: the order objects are drawn in, last entry first. */
  function DrawOrder<Obj>(objs: seq<Entry<Obj>>): (d: seq<Obj>)
    ensures |d| == |objs|
    ensures forall k :: 0 <= k < |objs| ==> d[k] == objs[|objs| - 1 - k].obj
  {
    var rev := Util.Reverse(objs);
    seq(|rev|, k requires 0 <= k < |rev| => rev[k].obj)
  }

  /** On a list sorted by priority, objects are drawn from the highest
      priority to the lowest, so lower priorities end up on top. */
  lemma DrawHighestFirst<Obj>(ops: Ops<Obj>, objs: seq<Entry<Obj>>)
    requires SortedBy(objs, PriorityKey(ops))
    ensures forall a, b :: 0 <= a < b < |objs| ==>
              ops.priority(DrawOrder(objs)[a]) >= ops.priority(DrawOrder(objs)[b])
  {
    var d := DrawOrder(objs);
    forall a, b | 0 <= a < b < |objs| ensures ops.priority(d[a]) >= ops.priority(d[b]) {
      assert PriorityKey(ops)(objs[|objs| - 1 - b]) <= PriorityKey(ops)(objs[|objs| - 1 - a]);
    }
  }

  /** An entry of the scene's `objects` description table: an object built
      in advance, which is added as it is, or a description to load. */
  datatype Desc<Obj, D> = Built(obj: Obj) | Description(desc: D)

  /** The object `add_object` appends: the built object, or what loading the
      description under that name gives. */
  function Materialize<Obj, D>(name: string, d: Desc<Obj, D>, load: (string, D) -> Obj): Obj {
    match d
    case Built(o) => o
    case Description(x) => load(name, x)
  }

  /** The names `_spawn` adds: a single string, or each name of a list. */
  function SpawnNames(a: Arg): (r: Result<seq<string>>)
    ensures r.Ok? <==> a.Str? || a.Strs?
    ensures r.Err? ==> r.error == TypeError
    ensures a.Str? ==> r == Ok([a.s])
    ensures a.Strs? ==> r == Ok(a.items)
  {
    match a
    case Str(s) => Ok([s])
    case Strs(items) => Ok(items)
    case _ => Err(TypeError)
  }

  /** The entries `add_object` appends for each name in turn; a name missing
      from the description table raises `KeyError`. */
  function Added<Obj, D>(descs: map<string, Desc<Obj, D>>, names: seq<string>, load: (string, D) -> Obj)
    : (r: Result<seq<Entry<Obj>>>)
    ensures r.Ok? <==> forall k :: 0 <= k < |names| ==> names[k] in descs
    ensures r.Err? ==> r.error == KeyError
    ensures r.Ok? ==> |r.value| == |names|
    ensures r.Ok? ==> forall k :: 0 <= k < |names| ==>
              (r.value[k].name == names[k] && r.value[k].obj == Materialize(names[k], descs[names[k]], load))
  {
    if |names| == 0 then Ok([])
    else if names[0] !in descs then Err(KeyError)
    else
      var rest :- Added(descs, names[1..], load);
      Ok([Entry(names[0], Materialize(names[0], descs[names[0]], load))] + rest)
  }

  /** `_spawn(objects)`: append the named objects, then sort the whole list
      by priority. The sort is stable, so the new objects go after the old
      ones of the same priority. */
  function Spawn<Obj, D>(ops: Ops<Obj>, descs: map<string, Desc<Obj, D>>, load: (string, D) -> Obj,
                         objs: seq<Entry<Obj>>, a: Arg): (r: Result<seq<Entry<Obj>>>)
    ensures r.Ok? <==> SpawnNames(a).Ok? && Added(descs, SpawnNames(a).value, load).Ok?
    ensures r.Ok? ==> SortedBy(r.value, PriorityKey(ops))
    ensures r.Ok? ==> multiset(r.value) == multiset(objs + Added(descs, SpawnNames(a).value, load).value)
    ensures r.Ok? ==> forall p :: (WithKey(r.value, PriorityKey(ops), p) ==
              WithKey(objs, PriorityKey(ops), p) + WithKey(Added(descs, SpawnNames(a).value, load).value, PriorityKey(ops), p))
  {
    var names :- SpawnNames(a);
    var added :- Added(descs, names, load);
    var r := SortBy(objs + added, PriorityKey(ops));
    forall p ensures WithKey(r, PriorityKey(ops), p) == WithKey(objs, PriorityKey(ops), p) + WithKey(added, PriorityKey(ops), p) {
      WithKeyAppend(objs, added, PriorityKey(ops), p);
    }
    Ok(r)
  }

  /** One missing name makes the whole spawn fail with `KeyError`. */
  lemma SpawnMissing<Obj, D>(ops: Ops<Obj>, descs: map<string, Desc<Obj, D>>, load: (string, D) -> Obj,
                             objs: seq<Entry<Obj>>, names: seq<string>, k: nat)
    requires k < |names| && names[k] !in descs
    ensures Spawn(ops, descs, load, objs, Strs(names)) == Err(KeyError)
  {
  }

  // ---------------------------------------------------------------------
  // The scene and its scripted events

  /** What the scene does to the outside world: its mixer calls. */
  datatype Effect = Play(track: string) | PlayLoop(track: string) | MixerStop

  /** An `on_key` entry `(key, handler)`. */
  datatype KeyBinding = KeyBinding(key: int, handler: string)

  /** An `audio` entry: its `filename`, which is required, and `loop`. */
  datatype Audio = Audio(filename: Option<string>, loop: bool)

  /** A scene description. Absent optional entries are empty; the `on_key`
      set is given in the order it is iterated. */
  datatype Config<Obj, D> = Config(
    name: string,
    audio: map<string, Audio>,
    objects: map<string, Desc<Obj, D>>,
    nextScene: map<string, string>,
    before: seq<Action>,
    events: seq<Event>,
    onKey: seq<KeyBinding>)

  /** A running scene: its descriptions, its event queue, its objects, the
      `stop` flag, the frame number and clock, and what it has done to the
      outside world. `loops` holds the `loop` flag of each track. */
  datatype State<Obj, D> = State(
    name: string,
    descriptions: map<string, Desc<Obj, D>>,
    nextScene: map<string, string>,
    loops: map<string, bool>,
    events: seq<Event>,
    objects: seq<Entry<Obj>>,
    keyEvents: seq<KeyBinding>,
    stop: bool,
    frame: int,
    time: real,
    log: seq<Effect>)

  /** `Scene(game, config)`: an audio entry without a file name raises
      `KeyError`; otherwise the scene starts with no objects, not stopped,
      at frame 0 and time 0, its queue holding the `before` actions ahead of
      the `events`. */
  function NewScene<Obj, D>(c: Config<Obj, D>): (r: Result<State<Obj, D>>)
    ensures r.Err? <==> exists t :: t in c.audio && c.audio[t].filename.None?
    ensures r.Err? ==> r.error == KeyError
    ensures r.Ok? ==> r.value.objects == [] && !r.value.stop && r.value.frame == 0 && r.value.time == 0.0
    ensures r.Ok? ==> r.value.loops.Keys == c.audio.Keys && forall t :: t in c.audio ==> r.value.loops[t] == c.audio[t].loop
    ensures r.Ok? ==> |r.value.events| == |c.before| + |c.events| && r.value.events[|c.before|..] == c.events
    ensures r.Ok? ==> forall k :: 0 <= k < |c.before| ==> r.value.events[k] == BeforeEvent(c.before[k])
  {
    if exists t :: t in c.audio && c.audio[t].filename.None? then Err(KeyError)
    else
      Ok(State(c.name, c.objects, c.nextScene, map t | t in c.audio :: c.audio[t].loop,
               InitialEvents(c.before, c.events), [], c.onKey, false, 0, 0.0, []))
  }

  /** The scene, the game's key tables and the game's game-over flag: what
      a scripted event can change. */
  datatype World<Obj, D> = World(scene: State<Obj, D>, keys: Keys.Table, gameOver: bool)

  /** The keys of the scene's `on_key` bindings. */
  function KeysOf(bs: seq<KeyBinding>): (ks: seq<int>)
    ensures |ks| == |bs|
    ensures forall k :: 0 <= k < |bs| ==> ks[k] == bs[k].key
  {
    if |bs| == 0 then [] else [bs[0].key] + KeysOf(bs[1..])
  }

  /** `end_scene()`: every key of the scene's bindings is removed from the
      game's tables, the scene stops and the mixer is stopped. */
  function EndScene<Obj, D>(w: World<Obj, D>): (w': World<Obj, D>)
    ensures w'.gameOver == w.gameOver
    ensures w'.scene == w.scene.(stop := true, log := w.scene.log + [MixerStop])
    ensures forall b :: b in w.scene.keyEvents && b.key != Keys.ESCAPE ==>
              b.key !in w'.keys.down && b.key !in w'.keys.up
    ensures forall k :: k !in KeysOf(w.scene.keyEvents) ==>
              Keys.KeyDown(w'.keys, k) == Keys.KeyDown(w.keys, k) && Keys.KeyUp(w'.keys, k) == Keys.KeyUp(w.keys, k)
    ensures Keys.EscapeReserved(w.keys) ==> Keys.EscapeReserved(w'.keys)
  {
    var ks := KeysOf(w.scene.keyEvents);
    assert forall b :: b in w.scene.keyEvents ==> b.key in ks by {
      forall b | b in w.scene.keyEvents ensures b.key in ks {
        var k :| 0 <= k < |w.scene.keyEvents| && w.scene.keyEvents[k] == b;
        assert ks[k] == b.key;
      }
    }
    World(w.scene.(stop := true, log := w.scene.log + [MixerStop]), Keys.RemoveKey(w.keys, Keys.Many(ks)), w.gameOver)
  }

  /** The scene methods a script can name, without their leading `_`. */
  const Handlers: set<string> := {"spawn", "play_audio", "object", "call", "end_scene", "game_over"}

  /** `_play_audio(music)`: a call without exactly one argument raises
      `TypeError`; a track that cannot be looked up, whatever the lookup
      raised, becomes the generic exception the method raises in its place;
      a looping track is played in a loop. */
  function PlayAudio<Obj, D>(w: World<Obj, D>, args: seq<Arg>): (r: Result<World<Obj, D>>)
    ensures r.Ok? <==> |args| == 1 && args[0].Str? && args[0].s in w.scene.loops
    ensures |args| != 1 <==> r == Err(TypeError)
    ensures |args| == 1 && r.Err? ==> r.error == AudioError
    ensures r.Ok? ==> r.value == w.(scene := w.scene.(log := w.scene.log +
              [if w.scene.loops[args[0].s] then PlayLoop(args[0].s) else Play(args[0].s)]))
  {
    if |args| != 1 then Err(TypeError)
    else if !args[0].Str? || args[0].s !in w.scene.loops then Err(AudioError)
    else
      var t := args[0].s;
      Ok(w.(scene := w.scene.(log := w.scene.log + [if w.scene.loops[t] then PlayLoop(t) else Play(t)])))
  }

  /** Every entry carrying `name` now holds `o`; there is one such entry
      whenever `get_object` found an object. */
  function Replace<Obj>(objs: seq<Entry<Obj>>, name: string, o: Obj): (r: seq<Entry<Obj>>)
    ensures |r| == |objs|
    ensures forall k :: 0 <= k < |objs| ==> r[k] == if objs[k].name == name then Entry(name, o) else objs[k]
  {
    if |objs| == 0 then []
    else [if objs[0].name == name then Entry(name, o) else objs[0]] + Replace(objs[1..], name, o)
  }

  /** `_object(name, method, *args)`: the method of the object found under
      `name` is called. Without such an object the method is looked up on
      `None`, which raises `AttributeError`. */
  function ObjectCall<Obj, D>(ops: Ops<Obj>, w: World<Obj, D>, args: seq<Arg>): (r: Result<World<Obj, D>>)
    ensures |args| < 2 ==> r == Err(TypeError)
    ensures r.Ok? ==> r.value.keys == w.keys && r.value.gameOver == w.gameOver
    ensures r.Ok? ==> r.value.scene == w.scene.(objects := r.value.scene.objects)
  {
    if |args| < 2 then Err(TypeError)
    else
      var found :- if args[0].Str? then GetObject(w.scene.objects, args[0].s) else Ok(None);
      if found.None? then (if args[1].Str? then Err(AttributeError) else Err(TypeError))
      else if !args[1].Str? then Err(TypeError)
      else
        var o :- ops.invoke(found.value, args[1].s, args[2..]);
        Ok(w.(scene := w.scene.(objects := Replace(w.scene.objects, args[0].s, o))))
  }

  /** Calling a method of the only object with the name replaces that
      object with the method's result and leaves every other entry. */
  lemma ObjectCallUnique<Obj, D>(ops: Ops<Obj>, w: World<Obj, D>, name: string, m: string, rest: seq<Arg>, k: nat)
    requires k < |w.scene.objects| && w.scene.objects[k].name == name
    requires forall l :: 0 <= l < |w.scene.objects| && l != k ==> w.scene.objects[l].name != name
    requires ops.invoke(w.scene.objects[k].obj, m, rest).Ok?
    ensures ObjectCall(ops, w, [Str(name), Str(m)] + rest)
            == Ok(w.(scene := w.scene.(objects :=
                   w.scene.objects[k := Entry(name, ops.invoke(w.scene.objects[k].obj, m, rest).value)])))
  {
    GetObjectUnique(w.scene.objects, name, k);
    var args := [Str(name), Str(m)] + rest;
    assert args[0] == Str(name) && args[1] == Str(m) && args[2..] == rest;
    var o := ops.invoke(w.scene.objects[k].obj, m, rest).value;
    assert Replace(w.scene.objects, name, o) == w.scene.objects[k := Entry(name, o)];
  }

  /** `_object` on a name no object carries raises `AttributeError`. */
  lemma ObjectCallMissing<Obj, D>(ops: Ops<Obj>, w: World<Obj, D>, name: string, m: string, rest: seq<Arg>)
    requires forall l :: 0 <= l < |w.scene.objects| ==> w.scene.objects[l].name != name
    ensures ObjectCall(ops, w, [Str(name), Str(m)] + rest) == Err(AttributeError)
  {
    var args := [Str(name), Str(m)] + rest;
    assert args[0] == Str(name) && args[1] == Str(m);
  }

  /** The callables a script hands to `call`, told apart by their `id`:
      `callable(scene, *args)` gets the scene, and through it the game's key
      tables and game-over flag, and leaves a new world or raises. */
  type Callee<!Obj, !D> = (nat, seq<Arg>, World<Obj, D>) -> Result<World<Obj, D>>

  /** What a scripted action other than `call` leaves alone: the queue, the
      key events, the frame number and clock, the next scenes and the name;
      a stopped scene stays stopped and a reserved Escape stays reserved. */
  predicate Untouched<Obj, D>(w: World<Obj, D>, w': World<Obj, D>) {
    w'.scene.events == w.scene.events && w'.scene.keyEvents == w.scene.keyEvents &&
    w'.scene.frame == w.scene.frame && w'.scene.time == w.scene.time &&
    w'.scene.nextScene == w.scene.nextScene && w'.scene.name == w.scene.name &&
    (w.scene.stop ==> w'.scene.stop) &&
    (Keys.EscapeReserved(w.keys) ==> Keys.EscapeReserved(w'.keys))
  }

  /** Callables that, like the scene's own handlers, keep what `Untouched` names
      and leave the game-over flag as it was. */
  ghost predicate Tame<Obj(!new), D(!new)>(call: Callee<Obj, D>) {
    forall id, args, w :: call(id, args, w).Ok? ==> Untouched(w, call(id, args, w).value) && call(id, args, w).value.gameOver == w.gameOver
  }

  /** `event(func, *args)`: run the scene method `_func`. An unknown name
      raises `AttributeError`; a wrong number of arguments `TypeError`.
      `game_over` sets the game's flag and ends the scene; `call` hands the
      scene to a callable, which may change it in any way. */
  function Perform<Obj(!new), D(!new)>(ops: Ops<Obj>, load: (string, D) -> Obj, call: Callee<Obj, D>, w: World<Obj, D>, a: Action)
    : (r: Result<World<Obj, D>>)
    ensures a.func !in Handlers ==> r == Err(AttributeError)
    ensures a.func == "game_over" ==> (r.Ok? <==> |a.args| == 0)
    ensures a.func == "game_over" && r.Ok? ==> r.value.gameOver && r.value.scene.stop
    ensures a.func == "end_scene" ==> r.Ok? && r.value == EndScene(w)
    ensures a.func == "call" && (|a.args| == 0 || !a.args[0].Callable?) ==> r == Err(TypeError)
    ensures a.func == "call" && |a.args| > 0 && a.args[0].Callable? ==> r == call(a.args[0].id, a.args[1..], w)
    ensures r.Ok? && (a.func != "call" || Tame(call)) ==> Untouched(w, r.value)
    ensures r.Ok? && (a.func != "call" || Tame(call)) ==> (r.value.gameOver <==> w.gameOver || a.func == "game_over")
  {
    var s := w.scene;
    if a.func == "spawn" then
      if |a.args| != 1 then Err(TypeError)
      else
        var objs :- Spawn(ops, s.descriptions, load, s.objects, a.args[0]);
        Ok(w.(scene := s.(objects := objs)))
    else if a.func == "play_audio" then PlayAudio(w, a.args)
    else if a.func == "object" then ObjectCall(ops, w, a.args)
    else if a.func == "call" then
      if |a.args| == 0 || !a.args[0].Callable? then Err(TypeError)
      else call(a.args[0].id, a.args[1..], w)
    else if a.func == "end_scene" then Ok(EndScene(w))
    else if a.func == "game_over" then
      if |a.args| != 0 then Err(TypeError) else Ok(EndScene(w.(gameOver := true)))
    else Err(AttributeError)
  }

  /** No `call` among the actions, or only tame callables behind it. */
  ghost predicate CallsTame<Obj(!new), D(!new)>(call: Callee<Obj, D>, acts: seq<Action>) {
    Tame(call) || forall k :: 0 <= k < |acts| ==> acts[k].func != "call"
  }

  /** The fired actions, run in order; the first exception ends the run. */
  function RunActions<Obj(!new), D(!new)>(ops: Ops<Obj>, load: (string, D) -> Obj, call: Callee<Obj, D>, w: World<Obj, D>, acts: seq<Action>)
    : (r: Result<World<Obj, D>>)
    ensures r.Ok? && CallsTame(call, acts) ==> Untouched(w, r.value)
    ensures r.Ok? && CallsTame(call, acts) ==>
              (r.value.gameOver <==> w.gameOver || exists k :: 0 <= k < |acts| && acts[k].func == "game_over")
    ensures (exists k :: 0 <= k < |acts| && acts[k].func !in Handlers) ==> r.Err?
    decreases |acts|
  {
    if |acts| == 0 then Ok(w)
    else
      var w1 :- Perform(ops, load, call, w, acts[0]);
      var r := RunActions(ops, load, call, w1, acts[1..]);
      assert forall k :: 1 <= k < |acts| ==> acts[k] == acts[1..][k - 1];
      r
  }

  /** `frame(count, elapsed)`: the frame number is recorded, the clock
      advances by `elapsed`, the queue advances and the events that fire
      run in queue order. */
  function FrameScene<Obj(!new), D(!new)>(ops: Ops<Obj>, load: (string, D) -> Obj, call: Callee<Obj, D>, w: World<Obj, D>, count: int, elapsed: real)
    : (r: Result<World<Obj, D>>)
    ensures var f := Frame(w.scene.events, elapsed);
            r.Ok? && CallsTame(call, f.fired) ==>
              r.value.scene.frame == count && r.value.scene.time == w.scene.time + elapsed &&
              r.value.scene.events == f.queue
    ensures r.Ok? && CallsTame(call, Frame(w.scene.events, elapsed).fired) && w.scene.stop ==> r.value.scene.stop
    ensures r.Ok? && CallsTame(call, Frame(w.scene.events, elapsed).fired) && Keys.EscapeReserved(w.keys) ==>
              Keys.EscapeReserved(r.value.keys)
  {
    var f := Frame(w.scene.events, elapsed);
    var w1 := w.(scene := w.scene.(frame := count, time := w.scene.time + elapsed, events := f.queue));
    RunActions(ops, load, call, w1, f.fired)
  }

  /** A `SceneEvent` called by `call`: it drops the arguments it is called
      with and queues its own event on the current scene, at time -1 and
      without recurrence. While the scene runs its frame it is the current
      scene. */
  function SceneEventCall<Obj, D>(act: Action): Callee<Obj, D> {
    (id: nat, args: seq<Arg>, w: World<Obj, D>) =>
      Ok(w.(scene := w.scene.(events := QueueEvent(w.scene.events, -1.0, 0.0, act))))
  }

  /** Calling a `SceneEvent` puts its event at the back of the queue and
      changes nothing else; such a callable is therefore not tame, and a
      frame whose events call it does not keep the queue. */
  lemma CallSceneEvent<Obj(!new), D(!new)>(ops: Ops<Obj>, load: (string, D) -> Obj, w: World<Obj, D>, act: Action, id: nat, rest: seq<Arg>)
    ensures var r := Perform(ops, load, SceneEventCall(act), w, Action("call", [Callable(id)] + rest));
            r.Ok? && r.value.scene.events == w.scene.events + [Event(-1.0, 0.0, act)] &&
            r.value == w.(scene := w.scene.(events := r.value.scene.events))
    ensures !Tame(SceneEventCall<Obj, D>(act))
  {
    var a := Action("call", [Callable(id)] + rest);
    assert a.args[0] == Callable(id);
    var w' := SceneEventCall<Obj, D>(act)(id, rest, w).value;
    assert |w'.scene.events| == |w.scene.events| + 1;
  }

  /** A `game_over` event ends the scene, sets the game's flag and removes
      the scene's keys from the game's tables. */
  lemma GameOverEndsScene<Obj(!new), D(!new)>(ops: Ops<Obj>, load: (string, D) -> Obj, call: Callee<Obj, D>, w: World<Obj, D>)
    ensures Perform(ops, load, call, w, Action("game_over", [])).Ok?
    ensures var w' := Perform(ops, load, call, w, Action("game_over", [])).value;
            w'.gameOver && w'.scene.stop && w'.scene.log == w.scene.log + [MixerStop] &&
            forall b :: b in w.scene.keyEvents && b.key != Keys.ESCAPE ==> b.key !in w'.keys.down && b.key !in w'.keys.up
  {
  }
}

=== FILE: score.dfy ===
/** The score and high score (objects/score.py), and how `draw` turns the
    shown value into eight or more digit images. Fonts and blitting are
    outside the model: drawing is reduced to the digit values looked up. */
module Score {
  import opened Wrappers

  /** The current score, the high score and which of them is shown. */
  datatype Score = Score(score: int, highscore: int, showHighscore: bool)

  /** The high score is at least the score and never negative. */
  predicate Valid(s: Score) {
    s.highscore >= s.score && s.highscore >= 0
  }

  /** `Score(font, position, highscore=...)`: both values start at zero. */
  function NewScore(showHighscore: bool): (s: Score)
    ensures s.score == 0 && s.highscore == 0 && s.showHighscore == showHighscore
    ensures Valid(s)
  {
    Score(0, 0, showHighscore)
  }

  /** `add(value)`: the score moves by `value`; a new best becomes the high
      score. */
  function Add(s: Score, v: int): (s': Score)
    ensures s'.score == s.score + v && s'.showHighscore == s.showHighscore
    ensures s'.highscore == if s.score + v > s.highscore then s.score + v else s.highscore
  {
    var score := s.score + v;
    if score > s.highscore then s.(score := score, highscore := score) else s.(score := score)
  }

  /** `toggle_score()`: switch between showing the score and the high score. */
  function ToggleScore(s: Score): (s': Score)
    ensures s'.showHighscore == !s.showHighscore
    ensures s'.score == s.score && s'.highscore == s.highscore
  {
    s.(showHighscore := !s.showHighscore)
  }

  /** `restart_score()`: only the score goes back to zero. */
  function RestartScore(s: Score): (s': Score)
    ensures s'.score == 0 && s'.highscore == s.highscore && s'.showHighscore == s.showHighscore
  {
    s.(score := 0)
  }

  /** `restart()`: both values go back to zero. */
  function Restart(s: Score): (s': Score)
    ensures s'.score == 0 && s'.highscore == 0 && s'.showHighscore == s.showHighscore
  {
    s.(score := 0, highscore := 0)
  }

  /** Every operation keeps the high score at least the score; only
      `restart` lowers the high score. */
  lemma ValidPreserved(s: Score, v: int)
    requires Valid(s)
    ensures Valid(Add(s, v)) && Valid(ToggleScore(s)) && Valid(RestartScore(s)) && Valid(Restart(s))
    ensures Add(s, v).highscore >= s.highscore && Add(s, v).highscore >= Add(s, v).score
    ensures ToggleScore(s).highscore == s.highscore && RestartScore(s).highscore == s.highscore
  {
  }

  /** Toggling twice shows the same value as before. */
  lemma ToggleTwice(s: Score)
    ensures ToggleScore(ToggleScore(s)) == s
  {
  }

  /** The value `draw` shows. */
  function Shown(s: Score): (v: int)
    ensures s.showHighscore ==> v == s.highscore
    ensures !s.showHighscore ==> v == s.score
  {
    if s.showHighscore then s.highscore else s.score
  }

  /** The character of a decimal digit. */
  function DigitChar(d: int): char
    requires 0 <= d < 10
  {
    (48 + d) as char
  }

  /** `str(n)` of a natural number: its decimal digits, no leading zero. */
  function Digits(n: nat): (s: string)
    ensures |s| >= 1
    ensures forall k :: 0 <= k < |s| ==> '0' <= s[k] <= '9'
  {
    if n < 10 then [DigitChar(n)] else Digits(n / 10) + [DigitChar(n % 10)]
  }

  /** `str(n)`: a minus sign in front of a negative number. */
  function Str(n: int): string {
    if n < 0 then "-" + Digits(-n) else Digits(n)
  }

  /** `k` zero characters. */
  function Zeros(k: nat): (z: string)
    ensures |z| == k && forall i :: 0 <= i < k ==> z[i] == '0'
  {
    seq(k, _ => '0')
  }

  /** `"{:0>8}".format(n)`: `str(n)` right-aligned in eight characters,
      filled with `'0'` on the left; longer strings are kept whole. */
  function Format(n: int): (s: string)
    ensures |s| == if |Str(n)| >= 8 then |Str(n)| else 8
    ensures s[|s| - |Str(n)|..] == Str(n)
    ensures forall i :: 0 <= i < |s| - |Str(n)| ==> s[i] == '0'
  {
    var t := Str(n);
    if |t| >= 8 then t else Zeros(8 - |t|) + t
  }

  /** `int(c)` for each character `c`: a non-digit raises `ValueError`. */
  function DigitValues(s: string): (r: Result<seq<int>>)
    ensures r.Ok? <==> forall k :: 0 <= k < |s| ==> '0' <= s[k] <= '9'
    ensures r.Err? ==> r.error == ValueError
    ensures r.Ok? ==> |r.value| == |s| && forall k :: 0 <= k < |s| ==> 0 <= r.value[k] < 10
    decreases |s|
  {
    if |s| == 0 then Ok([])
    else if !('0' <= s[|s| - 1] <= '9') then Err(ValueError)
    else
      var init :- DigitValues(s[..|s| - 1]);
      Ok(init + [s[|s| - 1] as int - 48])
  }

  /** The number a sequence of decimal digits denotes. */
  function Value(ds: seq<int>): int
    decreases |ds|
  {
    if |ds| == 0 then 0 else Value(ds[..|ds| - 1]) * 10 + ds[|ds| - 1]
  }

  /** The digits of `str(n)` denote `n`. */
  lemma {:induction false} DigitsValue(n: nat)
    ensures DigitValues(Digits(n)).Ok? && Value(DigitValues(Digits(n)).value) == n
  {
    var s := Digits(n);
    if n >= 10 {
      DigitsValue(n / 10);
      assert s[..|s| - 1] == Digits(n / 10);
    }
  }

  /** `k` zero digits. */
  function ZeroDigits(k: nat): (z: seq<int>)
    ensures |z| == k && forall i :: 0 <= i < k ==> z[i] == 0
  {
    seq(k, _ => 0)
  }

  /** Leading zeros do not change the number. */
  lemma {:induction false} LeadingZeros(k: nat, ds: seq<int>)
    ensures Value(ZeroDigits(k) + ds) == Value(ds)
    decreases |ds|
  {
    var z := ZeroDigits(k);
    if |ds| == 0 {
      assert z + ds == z;
      ZerosValue(k);
    } else {
      LeadingZeros(k, ds[..|ds| - 1]);
      assert (z + ds)[..|z + ds| - 1] == z + ds[..|ds| - 1];
    }
  }

  /** Zeros alone denote zero. */
  lemma {:induction false} ZerosValue(k: nat)
    ensures Value(ZeroDigits(k)) == 0
  {
    if k > 0 {
      ZerosValue(k - 1);
      assert ZeroDigits(k)[..k - 1] == ZeroDigits(k - 1);
    }
  }

  /** The digits read back from a padded string are zeros, then the digits
      of the number. */
  lemma {:induction false} DigitValuesAppend(a: string, b: string)
    requires DigitValues(a).Ok? && DigitValues(b).Ok?
    ensures DigitValues(a + b) == Ok(DigitValues(a).value + DigitValues(b).value)
    decreases |b|
  {
    if |b| == 0 {
      assert a + b == a;
      assert DigitValues(a).value + DigitValues(b).value == DigitValues(a).value;
    } else {
      var bl := b[..|b| - 1];
      var last := b[|b| - 1] as int - 48;
      DigitValuesAppend(a, bl);
      assert (a + b)[..|a + b| - 1] == a + bl;
      assert (a + b)[|a + b| - 1] == b[|b| - 1];
      assert DigitValues(b).value == DigitValues(bl).value + [last];
      assert DigitValues(a + b).value == DigitValues(a + bl).value + [last];
      assert DigitValues(a).value + (DigitValues(bl).value + [last]) == (DigitValues(a).value + DigitValues(bl).value) + [last];
    }
  }

  /** The zero padding reads back as zeros. */
  lemma {:induction false} ZerosDigits(k: nat)
    ensures DigitValues(Zeros(k)) == Ok(ZeroDigits(k))
  {
    if k > 0 {
      ZerosDigits(k - 1);
      assert Zeros(k)[..k - 1] == Zeros(k - 1);
      assert Zeros(k)[k - 1] as int - 48 == 0;
      assert DigitValues(Zeros(k)).value == ZeroDigits(k - 1) + [0];
      assert ZeroDigits(k - 1) + [0] == ZeroDigits(k);
    }
  }

  /** `draw()`: the digit values looked up for the shown value. */
  function DrawDigits(s: Score): Result<seq<int>> {
    DigitValues(Format(Shown(s)))
  }

  /** A non-negative shown value is drawn as at least eight digits that
      denote it. */
  lemma DrawRoundTrip(s: Score)
    requires Shown(s) >= 0
    ensures DrawDigits(s).Ok?
    ensures |DrawDigits(s).value| >= 8 && Value(DrawDigits(s).value) == Shown(s)
  {
    var n: nat := Shown(s);
    FormatRoundTrip(n);
  }

  /** The padded form of a natural number reads back as that number. */
  lemma FormatRoundTrip(n: nat)
    ensures DigitValues(Format(n)).Ok?
    ensures |DigitValues(Format(n)).value| >= 8 && Value(DigitValues(Format(n)).value) == n
  {
    var t := Digits(n);
    assert Str(n) == t;
    if |t| < 8 {
      assert Format(n) == Zeros(8 - |t|) + t;
      PaddedRoundTrip(8 - |t|, n);
    } else {
      assert Format(n) == t;
      DigitsValue(n);
    }
  }

  /** Zeros in front of the digits of `n` read back as `n`. */
  lemma PaddedRoundTrip(k: nat, n: nat)
    ensures DigitValues(Zeros(k) + Digits(n)).Ok?
    ensures |DigitValues(Zeros(k) + Digits(n)).value| == k + |Digits(n)|
    ensures Value(DigitValues(Zeros(k) + Digits(n)).value) == n
  {
    var t := Digits(n);
    DigitsValue(n);
    var dt := DigitValues(t).value;
    ZerosDigits(k);
    DigitValuesAppend(Zeros(k), t);
    LeadingZeros(k, dt);
  }

  /** A negative shown value cannot be drawn: its minus sign is no digit. */
  lemma DrawNegative(s: Score)
    requires Shown(s) < 0
    ensures DrawDigits(s) == Err(ValueError)
  {
    var f := Format(Shown(s));
    assert f[|f| - |Str(Shown(s))|] == '-';
  }
}

=== FILE: seqs.dfy ===
/** List comprehensions, `[x for x in s if p(x)]` and `[f(x) for x in s]`,
    and the facts about them that the scene relies on. */
module Seqs {

  /** The elements of `s` that satisfy `p`, in their order in `s`. */
  function Filter<T>(p: T -> bool, s: seq<T>): (r: seq<T>)
    ensures |r| <= |s|
    ensures forall k :: 0 <= k < |r| ==> p(r[k])
    ensures forall k :: 0 <= k < |r| ==> r[k] in s
  {
    if |s| == 0 then [] else (if p(s[0]) then [s[0]] else []) + Filter(p, s[1..])
  }

  /** Filtering a concatenation filters each part: the survivors keep their
      relative order. */
  lemma {:induction false} FilterAppend<T>(p: T -> bool, a: seq<T>, b: seq<T>)
    ensures Filter(p, a + b) == Filter(p, a) + Filter(p, b)
  {
    if |a| == 0 {
      assert a + b == b;
    } else {
      var h := if p(a[0]) then [a[0]] else [];
      assert (a + b)[1..] == a[1..] + b;
      assert (a + b)[0] == a[0];
      FilterAppend(p, a[1..], b);
      calc {
        Filter(p, a + b);
        h + Filter(p, a[1..] + b);
        h + (Filter(p, a[1..]) + Filter(p, b));
        (h + Filter(p, a[1..])) + Filter(p, b);
      }
    }
  }

  /** An element survives exactly when it satisfies the condition. */
  lemma {:induction false} FilterMember<T>(p: T -> bool, s: seq<T>, x: T)
    ensures x in Filter(p, s) <==> x in s && p(x)
  {
    if |s| > 0 {
      FilterMember(p, s[1..], x);
      assert s == [s[0]] + s[1..];
    }
  }

  /** When every element satisfies the condition, nothing is removed. */
  lemma {:induction false} FilterAll<T>(p: T -> bool, s: seq<T>)
    requires forall k :: 0 <= k < |s| ==> p(s[k])
    ensures Filter(p, s) == s
  {
    if |s| > 0 {
      FilterAll(p, s[1..]);
      assert s == [s[0]] + s[1..];
    }
  }

  /** When no element satisfies the condition, everything is removed. */
  lemma {:induction false} FilterNone<T>(p: T -> bool, s: seq<T>)
    requires forall k :: 0 <= k < |s| ==> !p(s[k])
    ensures Filter(p, s) == []
  {
    if |s| > 0 {
      FilterNone(p, s[1..]);
    }
  }

  /** How often `x` survives: as often as it occurs, when it satisfies the
      condition, and never otherwise. */
  lemma {:induction false} FilterCount<T>(p: T -> bool, s: seq<T>, x: T)
    ensures multiset(Filter(p, s))[x] == if p(x) then multiset(s)[x] else 0
  {
    if |s| > 0 {
      FilterCount(p, s[1..], x);
      assert s == [s[0]] + s[1..];
    }
  }

  /** Filtering two orderings of the same elements keeps the same
      elements. */
  lemma FilterPermutation<T>(p: T -> bool, s: seq<T>, t: seq<T>)
    requires multiset(s) == multiset(t)
    ensures multiset(Filter(p, s)) == multiset(Filter(p, t))
  {
    forall x ensures multiset(Filter(p, s))[x] == multiset(Filter(p, t))[x] {
      FilterCount(p, s, x);
      FilterCount(p, t, x);
    }
  }

  /** `f` applied to every element of `s`, in order. */
  function Map<A, B>(f: A -> B, s: seq<A>): (r: seq<B>)
    ensures |r| == |s|
  {
    if |s| == 0 then [] else [f(s[0])] + Map(f, s[1..])
  }

  /** The `k`-th image is the image of the `k`-th element. */
  lemma {:induction false} MapAt<A, B>(f: A -> B, s: seq<A>, k: int)
    requires 0 <= k < |s|
    ensures Map(f, s)[k] == f(s[k])
  {
    if k > 0 {
      MapAt(f, s[1..], k - 1);
    }
  }

  /** Mapping a concatenation maps each part. */
  lemma {:induction false} MapAppend<A, B>(f: A -> B, a: seq<A>, b: seq<A>)
    ensures Map(f, a + b) == Map(f, a) + Map(f, b)
  {
    if |a| == 0 {
      assert a + b == b;
    } else {
      assert (a + b)[1..] == a[1..] + b;
      assert (a + b)[0] == a[0];
      MapAppend(f, a[1..], b);
      calc {
        Map(f, a + b);
        [f(a[0])] + Map(f, a[1..] + b);
        [f(a[0])] + (Map(f, a[1..]) + Map(f, b));
        ([f(a[0])] + Map(f, a[1..])) + Map(f, b);
      }
    }
  }

  /** `t` without its element at `i`, and that element, make up `t`. */
  lemma {:induction false} RemoveAt<A>(t: seq<A>, i: int)
    requires 0 <= i < |t|
    ensures t == t[..i] + [t[i]] + t[i + 1..]
    ensures multiset(t) == multiset(t[..i] + t[i + 1..]) + multiset{t[i]}
  {
    assert t == t[..i] + [t[i]] + t[i + 1..];
  }

  /** Taking the same element away from equal multisets leaves equal ones. */
  lemma MultisetCancel<A>(m: multiset<A>, n: multiset<A>, x: A)
    requires m + multiset{x} == n + multiset{x}
    ensures m == n
  {
    forall y ensures m[y] == n[y] {
      assert (m + multiset{x})[y] == (n + multiset{x})[y];
    }
  }

  /** The images of `t` are those of `t` without its element at `i`, and
      the image of that element. */
  lemma {:induction false} MapRemoveAt<A, B>(f: A -> B, t: seq<A>, i: int)
    requires 0 <= i < |t|
    ensures multiset(Map(f, t)) == multiset(Map(f, t[..i] + t[i + 1..])) + multiset{f(t[i])}
  {
    MapSplit(f, t, i);
    MapAppend(f, t[..i], t[i + 1..]);
    MultisetAround(Map(f, t[..i]), f(t[i]), Map(f, t[i + 1..]));
  }

  /** The images of `t` split around position `i`. */
  lemma {:induction false} MapSplit<A, B>(f: A -> B, t: seq<A>, i: int)
    requires 0 <= i < |t|
    ensures Map(f, t) == Map(f, t[..i]) + [f(t[i])] + Map(f, t[i + 1..])
  {
    var a, x, b := t[..i], t[i], t[i + 1..];
    calc {
      Map(f, t);
      { assert t == (a + [x]) + b; }
      Map(f, (a + [x]) + b);
      { MapAppend(f, a + [x], b); }
      Map(f, a + [x]) + Map(f, b);
      { MapAppend(f, a, [x]); }
      Map(f, a) + Map(f, [x]) + Map(f, b);
      { assert Map(f, [x]) == [f(x)] + Map(f, []); }
      Map(f, a) + [f(x)] + Map(f, b);
    }
  }

  /** An element between two parts counts once more than the two parts. */
  lemma MultisetAround<B>(a: seq<B>, y: B, b: seq<B>)
    ensures multiset(a + [y] + b) == multiset(a + b) + multiset{y}
  {
  }

  /** Mapping two orderings of the same elements gives the same images. */
  lemma {:induction false} MapPermutation<A, B>(f: A -> B, s: seq<A>, t: seq<A>)
    requires multiset(s) == multiset(t)
    ensures multiset(Map(f, s)) == multiset(Map(f, t))
    decreases |s|
  {
    if |s| == 0 {
      assert |t| == |multiset(t)| == 0;
    } else {
      var x := s[0];
      assert x in multiset(t);
      var i :| 0 <= i < |t| && t[i] == x;
      var rest := t[..i] + t[i + 1..];
      RemoveAt(t, i);
      RemoveAt(s, 0);
      assert s[..0] + s[1..] == s[1..];
      MultisetCancel(multiset(s[1..]), multiset(rest), x);
      MapPermutation(f, s[1..], rest);
      MapRemoveAt(f, t, i);
      MapRemoveAt(f, s, 0);
    }
  }
}

=== FILE: shot.dfy ===
/** A shot (objects/shot.py): like a projectile, a constant step and a
    one-frame trail, but its bounds are a flat 4-tuple and any collision
    ends it. The aiming trigonometry is outside the model: the step it
    produces is given. */
module Shot {
  import opened Wrappers
  import opened Vectors

  datatype Shot = Shot(pos: Vec, next: Option<Vec>, delta: Vec, visible: bool)

  /** `Shot(origin, target)`, with `delta` the step its
      `ConstantController` yields. */
  function NewShot(origin: Vec, delta: Vec): (s: Shot)
    ensures s.pos == origin && s.next.None? && s.visible && s.delta == delta
  {
    Shot(origin, None, delta, true)
  }

  /** `update(bounds)`: remember the position, move one step, and hide once
      x lies beyond the width of `bounds`. */
  function Update(s: Shot, bounds: Rect): (s': Shot)
    ensures s'.next == Some(s.pos) && s'.pos == s.pos.Plus(s.delta) && s'.delta == s.delta
    ensures s'.visible <==> s.visible && s'.pos.x <= bounds.w
  {
    var moved := s.(next := Some(s.pos), pos := s.pos.Plus(s.delta));
    if moved.pos.x > bounds.w then moved.(visible := false) else moved
  }

  /** `collide_with(object)`: whatever was hit, the shot is hidden. */
  function CollideWith(s: Shot): (s': Shot)
    ensures !s'.visible
    ensures s'.pos == s.pos && s'.next == s.next && s'.delta == s.delta
  {
    s.(visible := false)
  }

  /** `bounds`: `(xo, yo, xt, yt)`, the current position followed by the
      previous one, or by itself before the first update. */
  function Bounds(s: Shot): (b: seq<real>)
    ensures |b| == 4 && b[0] == s.pos.x && b[1] == s.pos.y
    ensures s.next.None? ==> b[2] == s.pos.x && b[3] == s.pos.y
    ensures s.next.Some? ==> b[2] == s.next.value.x && b[3] == s.next.value.y
  {
    var t := s.next.GetOr(s.pos);
    [s.pos.x, s.pos.y, t.x, t.y]
  }

  /** A fresh shot is a single point, and after an update its bounds span
      exactly one step. */
  lemma BoundsAcrossUpdate(origin: Vec, delta: Vec, bounds: Rect)
    ensures Bounds(NewShot(origin, delta)) == [origin.x, origin.y, origin.x, origin.y]
    ensures Bounds(Update(NewShot(origin, delta), bounds)) ==
            [origin.x + delta.x, origin.y + delta.y, origin.x, origin.y]
  {
  }

  /** A hidden shot stays hidden, whatever happens to it. */
  lemma HiddenStays(s: Shot, bounds: Rect)
    requires !s.visible
    ensures !Update(s, bounds).visible && !CollideWith(s).visible
  {
  }
}

=== FILE: sorting.dfy ===
/** Python's `list.sort(key=...)` for an integer-valued key.

    The sort is stable: elements with equal keys keep their relative order.
    The scene relies on this twice, for its event queue and its object list. */
module Sorting {

  /** The elements are in ascending key order. */
  ghost predicate SortedBy<T>(s: seq<T>, key: T -> int) {
    forall i, j :: 0 <= i < j < |s| ==> key(s[i]) <= key(s[j])
  }

  /** `[x]` when `x` carries key `k`, otherwise nothing. */
  function Keep<T>(x: T, key: T -> int, k: int): seq<T> {
    if key(x) == k then [x] else []
  }

  /** The subsequence of the elements whose key is `k`, in their order. */
  function WithKey<T>(s: seq<T>, key: T -> int, k: int): seq<T> {
    if |s| == 0 then [] else Keep(s[0], key, k) + WithKey(s[1..], key, k)
  }

  lemma {:induction false} WithKeyAppend<T>(a: seq<T>, b: seq<T>, key: T -> int, k: int)
    ensures WithKey(a + b, key, k) == WithKey(a, key, k) + WithKey(b, key, k)
  {
    if |a| == 0 {
      assert a + b == b;
    } else {
      assert (a + b)[1..] == a[1..] + b;
      assert (a + b)[0] == a[0];
      WithKeyAppend(a[1..], b, key, k);
      calc {
        WithKey(a + b, key, k);
        Keep(a[0], key, k) + WithKey(a[1..] + b, key, k);
        Keep(a[0], key, k) + (WithKey(a[1..], key, k) + WithKey(b, key, k));
        (Keep(a[0], key, k) + WithKey(a[1..], key, k)) + WithKey(b, key, k);
      }
    }
  }

  /** No element carries key `k`. */
  lemma {:induction false} WithKeyNone<T>(s: seq<T>, key: T -> int, k: int)
    requires forall i :: 0 <= i < |s| ==> key(s[i]) != k
    ensures WithKey(s, key, k) == []
  {
    if |s| > 0 {
      WithKeyNone(s[1..], key, k);
    }
  }

  /** Every element carries key `k`. */
  lemma {:induction false} WithKeyAll<T>(s: seq<T>, key: T -> int, k: int)
    requires forall i :: 0 <= i < |s| ==> key(s[i]) == k
    ensures WithKey(s, key, k) == s
  {
    if |s| > 0 {
      WithKeyAll(s[1..], key, k);
      assert s == [s[0]] + s[1..];
    }
  }

  /** In a sorted sequence whose keys are all at least `m`, the elements
      with key `m` come first. */
  lemma {:induction false} MinKeyPrefix<T>(s: seq<T>, key: T -> int, m: int)
    requires SortedBy(s, key)
    requires forall i :: 0 <= i < |s| ==> key(s[i]) >= m
    ensures |WithKey(s, key, m)| <= |s| && s[..|WithKey(s, key, m)|] == WithKey(s, key, m)
  {
    if |s| > 0 {
      if key(s[0]) == m {
        MinKeyPrefix(s[1..], key, m);
        var w := WithKey(s[1..], key, m);
        assert WithKey(s, key, m) == [s[0]] + w;
        assert s[..|w| + 1] == [s[0]] + s[1..][..|w|];
      } else {
        WithKeyNone(s, key, m);
      }
    }
  }

  /** Places `x` in front of the first element whose key is not smaller
      than its own, so that it precedes every element with an equal key. */
  function Insert<T>(x: T, s: seq<T>, key: T -> int): seq<T> {
    if |s| == 0 then [x]
    else if key(x) <= key(s[0]) then [x] + s
    else [s[0]] + Insert(x, s[1..], key)
  }

  lemma {:induction false} InsertSorted<T>(x: T, s: seq<T>, key: T -> int)
    requires SortedBy(s, key)
    ensures SortedBy(Insert(x, s, key), key)
    ensures |Insert(x, s, key)| == |s| + 1
    ensures forall i :: 0 <= i < |Insert(x, s, key)| ==>
              Insert(x, s, key)[i] == x || Insert(x, s, key)[i] in s
  {
    if |s| > 0 && key(x) > key(s[0]) {
      InsertSorted(x, s[1..], key);
      var rest := Insert(x, s[1..], key);
      assert Insert(x, s, key) == [s[0]] + rest;
      forall i | 0 <= i < |rest| ensures key(s[0]) <= key(rest[i]) {
        if rest[i] != x {
          assert rest[i] in s[1..];
        }
      }
    }
  }

  lemma {:induction false} InsertMultiset<T>(x: T, s: seq<T>, key: T -> int)
    ensures multiset(Insert(x, s, key)) == multiset(s) + multiset{x}
  {
    if |s| > 0 && key(x) > key(s[0]) {
      InsertMultiset(x, s[1..], key);
      assert s == [s[0]] + s[1..];
      assert Insert(x, s, key) == [s[0]] + Insert(x, s[1..], key);
    }
  }

  /** The key-`k` elements of `[x] + s`. */
  lemma WithKeyCons<T>(x: T, s: seq<T>, key: T -> int, k: int)
    ensures WithKey([x] + s, key, k) == Keep(x, key, k) + WithKey(s, key, k)
  {
    assert ([x] + s)[1..] == s;
    assert ([x] + s)[0] == x;
  }

  /** Inserting `x` adds it in front of the elements of `s` with its key. */
  lemma {:induction false} InsertWithKey<T>(x: T, s: seq<T>, key: T -> int, k: int)
    ensures WithKey(Insert(x, s, key), key, k) == Keep(x, key, k) + WithKey(s, key, k)
  {
    if |s| == 0 {
      WithKeyCons(x, s, key, k);
    } else if key(x) <= key(s[0]) {
      WithKeyCons(x, s, key, k);
    } else {
      var rest := Insert(x, s[1..], key);
      InsertWithKey(x, s[1..], key, k);
      WithKeyCons(s[0], rest, key, k);
      WithKeyCons(s[0], s[1..], key, k);
      assert [s[0]] + s[1..] == s;
      if key(x) == k {
        assert Keep(s[0], key, k) == [];
      } else {
        assert Keep(x, key, k) == [];
      }
    }
  }

  /** The stable sort of `s` by `key`: sorted, a permutation of `s`, and for
      every key value the elements carrying it appear in their original
      order. Together these determine the result uniquely. */
  function SortBy<T>(s: seq<T>, key: T -> int): (r: seq<T>)
    ensures SortedBy(r, key)
    ensures multiset(r) == multiset(s)
    ensures |r| == |s|
    ensures forall k :: WithKey(r, key, k) == WithKey(s, key, k)
  {
    if |s| == 0 then []
    else
      var sorted := SortBy(s[1..], key);
      var r := Insert(s[0], sorted, key);
      InsertSorted(s[0], sorted, key);
      InsertMultiset(s[0], sorted, key);
      forall k ensures WithKey(r, key, k) == WithKey(s, key, k) {
        InsertWithKey(s[0], sorted, key, k);
      }
      assert s == [s[0]] + s[1..];
      assert multiset(s) == multiset([s[0]]) + multiset(s[1..]);
      r
  }
}

=== FILE: sprite.dfy ===
/** A sprite (engine/sprite.py): a position, an image of a whole number of
    pixels, a move applied at a speed on each update, and a visibility flag.
    Loading, scaling, rotating and drawing the image are outside the model;
    the image is reduced to its size and, when animated, its duration. */
module Sprite {
  import opened Vectors
  import opened PyNum

  datatype Sprite = Sprite(pos: Vec, w: int, h: int, speed: real, move: Vec,
                           animate: bool, duration: real, visible: bool)

  /** `Sprite(image, pos, speed, animate)`: not moving yet, and visible. */
  function NewSprite(pos: Vec, w: int, h: int, speed: real, animate: bool, duration: real): (s: Sprite)
    ensures s.pos == pos && s.w == w && s.h == h && s.speed == speed
    ensures s.move == Vec(0.0, 0.0) && s.visible
  {
    Sprite(pos, w, h, speed, Vec(0.0, 0.0), animate, duration, true)
  }

  /** `update()`: the position moves by the move times the speed. */
  function Update(s: Sprite): (s': Sprite)
    ensures s'.pos.x == s.pos.x + s.move.x * s.speed && s'.pos.y == s.pos.y + s.move.y * s.speed
    ensures s' == s.(pos := s'.pos)
  {
    s.(pos := Vec(s.pos.x + s.move.x * s.speed, s.pos.y + s.move.y * s.speed))
  }

  /** `n` updates in a row. */
  function UpdateTimes(s: Sprite, n: nat): Sprite {
    if n == 0 then s else Update(UpdateTimes(s, n - 1))
  }

  /** The distance covered in one update. */
  function Step(s: Sprite): Vec {
    Vec(s.move.x * s.speed, s.move.y * s.speed)
  }

  /** `n` updates with the same move cover `n` steps. */
  lemma {:induction false} UpdateTimesMoves(s: Sprite, n: nat)
    ensures UpdateTimes(s, n) == s.(pos := Vec(s.pos.x + n as real * Step(s).x, s.pos.y + n as real * Step(s).y))
  {
    if n > 0 {
      UpdateTimesMoves(s, n - 1);
      var p := UpdateTimes(s, n - 1);
      assert p.move == s.move && p.speed == s.speed;
      assert (n - 1) as real * Step(s).x + Step(s).x == n as real * Step(s).x;
      assert (n - 1) as real * Step(s).y + Step(s).y == n as real * Step(s).y;
    }
  }

  /** One axis of `limits`: the low edge is checked first, so it wins when
      the image is larger than the window. */
  function LimitAxis(v: real, size: int, extent: int): (v': real)
    ensures size <= extent ==> 0.0 <= v' <= (extent - size) as real
    ensures v < 0.0 ==> v' == 0.0
    ensures 0.0 <= v <= (extent - size) as real ==> v' == v
    ensures 0.0 <= v && v > (extent - size) as real ==> v' == (extent - size) as real
  {
    if v < 0.0 then 0.0 else if v > (extent - size) as real then (extent - size) as real else v
  }

  /** `limits((w, h))`: the image is kept inside a window of that size. */
  function Limits(s: Sprite, ww: int, wh: int): (s': Sprite)
    ensures s' == s.(pos := Vec(LimitAxis(s.pos.x, s.w, ww), LimitAxis(s.pos.y, s.h, wh)))
    ensures s.w <= ww ==> 0.0 <= s'.pos.x <= (ww - s.w) as real
    ensures s.h <= wh ==> 0.0 <= s'.pos.y <= (wh - s.h) as real
  {
    var x := if s.pos.x < 0.0 then 0.0 else if s.pos.x > (ww - s.w) as real then (ww - s.w) as real else s.pos.x;
    var y := if s.pos.y < 0.0 then 0.0 else if s.pos.y > (wh - s.h) as real then (wh - s.h) as real else s.pos.y;
    s.(pos := Vec(x, y))
  }

  /** For an image that fits the window, limiting twice is limiting once. */
  lemma LimitsIdempotent(s: Sprite, ww: int, wh: int)
    requires s.w <= ww && s.h <= wh
    ensures Limits(Limits(s, ww, wh), ww, wh) == Limits(s, ww, wh)
  {
  }

  /** An image wider than the window is put at the left edge, whatever its
      position. */
  lemma LimitsOversized(s: Sprite, ww: int, wh: int)
    requires s.w > ww && s.pos.x < 0.0
    ensures Limits(s, ww, wh).pos.x == 0.0
    ensures Limits(Limits(s, ww, wh), ww, wh).pos.x == (ww - s.w) as real
  {
  }

  /** `center`: the position plus half the image size, rounded down. */
  function Center(s: Sprite): Vec
  {
    Vec(s.pos.x + Half(s.w) as real, s.pos.y + Half(s.h) as real)
  }

  /** The centre lies inside the bounds, at most half a pixel left of and
      above the exact middle. */
  lemma CenterInside(s: Sprite)
    requires s.w >= 0 && s.h >= 0
    ensures var c := Center(s);
            s.pos.x <= c.x <= s.pos.x + s.w as real && s.pos.y <= c.y <= s.pos.y + s.h as real &&
            c.x <= s.pos.x + s.w as real / 2.0 < c.x + 1.0 && c.y <= s.pos.y + s.h as real / 2.0 < c.y + 1.0
  {
  }

  /** `bounds`: position and image size. */
  function Bounds(s: Sprite): (r: Rect)
    ensures r.x == s.pos.x && r.y == s.pos.y && r.w == s.w as real && r.h == s.h as real
  {
    Rect(s.pos.x, s.pos.y, s.w as real, s.h as real)
  }

  /** `length`: the animation's duration, and 0 for a still image. */
  function Length(s: Sprite): (d: real)
    ensures !s.animate ==> d == 0.0
    ensures s.animate ==> d == s.duration
  {
    if s.animate then s.duration else 0.0
  }

  /** `hide()`: only the visibility changes. */
  function Hide(s: Sprite): (s': Sprite)
    ensures !s'.visible && s' == s.(visible := false)
  {
    s.(visible := false)
  }
}

=== FILE: stamp.dfy ===
/** A text label that can be stamped at many places (objects/stamp.py): the
    label is rendered once and `draw` blits it at every placed rectangle,
    in the order they were placed. */
module Stamp {
  import opened Wrappers
  import opened PyNum
  import opened Text

  /** The rendered label's rectangle and the placed copies of it. */
  datatype Stamp = Stamp(rendered: Box, stamps: seq<Box>)

  /** The `positions` argument: a list of positions, or anything else, which
      is taken as a single position. A position is a tuple `(x, y, *dim)`. */
  datatype Positions = Single(position: seq<int>) | List(positions: seq<seq<int>>)

  /** `Stamp(font, text)`: nothing placed yet. */
  function NewStamp(rendered: Box): (s: Stamp)
    ensures s.stamps == [] && s.rendered == rendered
  {
    Stamp(rendered, [])
  }

  /** One placed copy of the rendered. `x, y, *dim = position` needs at least
      two values, and a centred copy unpacks `w, h = dim`, which needs
      exactly two more; otherwise `ValueError`. */
  function Place(rendered: Box, position: seq<int>, centered: bool): (r: Result<Box>)
    ensures r.Ok? <==> |position| >= 2 && (centered ==> |position| == 4)
    ensures r.Err? ==> r.error == ValueError
    ensures r.Ok? ==> r.value.w == rendered.w && r.value.h == rendered.h
    ensures r.Ok? && !centered ==> r.value.x == position[0] && r.value.y == position[1]
    ensures r.Ok? && centered ==>
              CenterX(r.value) == FloorDiv(position[0] + position[2], 2) &&
              CenterY(r.value) == FloorDiv(position[1] + position[3], 2)
  {
    if |position| < 2 then Err(ValueError)
    else if !centered then Ok(rendered.(x := position[0], y := position[1]))
    else if |position| != 4 then Err(ValueError)
    else Ok(SetCenter(rendered, FloorDiv(position[0] + position[2], 2), FloorDiv(position[1] + position[3], 2)))
  }

  /** The copies for a list of positions, in order; the first bad position
      raises. */
  function PlaceAll(rendered: Box, ps: seq<seq<int>>, centered: bool): (r: Result<seq<Box>>)
    ensures r.Ok? <==> forall k :: 0 <= k < |ps| ==> Place(rendered, ps[k], centered).Ok?
    ensures r.Ok? ==> |r.value| == |ps|
    ensures r.Ok? ==> forall k :: 0 <= k < |ps| ==> Ok(r.value[k]) == Place(rendered, ps[k], centered)
    decreases |ps|
  {
    if |ps| == 0 then Ok([])
    else
      var b :- Place(rendered, ps[0], centered);
      var rest :- PlaceAll(rendered, ps[1..], centered);
      assert forall k :: 1 <= k < |ps| ==> ps[k] == ps[1..][k - 1];
      Ok([b] + rest)
  }

  /** The positions as the loop sees them. */
  function AsList(positions: Positions): (ps: seq<seq<int>>)
    ensures positions.Single? ==> ps == [positions.position]
    ensures positions.List? ==> ps == positions.positions
  {
    match positions
    case Single(p) => [p]
    case List(ps) => ps
  }

  /** `stamp(positions, centered=...)`: one copy per position is appended,
      in order; the copies placed before are left as they were. */
  function StampAt(s: Stamp, positions: Positions, centered: bool): (r: Result<Stamp>)
    ensures r.Ok? <==> forall k :: 0 <= k < |AsList(positions)| ==> Place(s.rendered, AsList(positions)[k], centered).Ok?
    ensures r.Ok? ==> r.value.rendered == s.rendered && |r.value.stamps| == |s.stamps| + |AsList(positions)|
    ensures r.Ok? ==> r.value.stamps[..|s.stamps|] == s.stamps
    ensures r.Ok? ==> forall k :: 0 <= k < |AsList(positions)| ==>
              Ok(r.value.stamps[|s.stamps| + k]) == Place(s.rendered, AsList(positions)[k], centered)
  {
    var placed :- PlaceAll(s.rendered, AsList(positions), centered);
    Ok(s.(stamps := s.stamps + placed))
  }

  /** `del stamps[index]`: Python's index, counted from the end when
      negative; out of range raises `IndexError`. */
  function Remove(s: Stamp, index: int): (r: Result<Stamp>)
    ensures r.Ok? <==> -|s.stamps| <= index < |s.stamps|
    ensures r.Err? ==> r.error == IndexError
    ensures r.Ok? ==> r.value.rendered == s.rendered && |r.value.stamps| == |s.stamps| - 1
    ensures r.Ok? ==>
              var j := if index < 0 then index + |s.stamps| else index;
              (forall k :: 0 <= k < j ==> r.value.stamps[k] == s.stamps[k]) &&
              (forall k :: j <= k < |r.value.stamps| ==> r.value.stamps[k] == s.stamps[k + 1])
  {
    if !(-|s.stamps| <= index < |s.stamps|) then Err(IndexError)
    else
      var j := if index < 0 then index + |s.stamps| else index;
      Ok(s.(stamps := s.stamps[..j] + s.stamps[j + 1..]))
  }

  /** A single position is stamped exactly as a one-element list. */
  lemma SingleIsOneElementList(s: Stamp, p: seq<int>, centered: bool)
    ensures StampAt(s, Single(p), centered) == StampAt(s, List([p]), centered)
  {
  }

  /** Removing the last stamp undoes stamping one position. */
  lemma RemoveUndoesStamp(s: Stamp, p: seq<int>, centered: bool)
    requires StampAt(s, Single(p), centered).Ok?
    ensures Remove(StampAt(s, Single(p), centered).value, -1) == Ok(s)
  {
    var s' := StampAt(s, Single(p), centered).value;
    var n := |s.stamps|;
    assert |s'.stamps| == n + 1;
    assert s'.stamps[..n] + s'.stamps[n + 1..] == s.stamps;
  }

  /** A rendered stamped at `(x, y)` is blitted with its top-left there; one
      stamped centred on the corners `(x, y, x2, y2)` lies centred between
      them. */
  lemma PlacementExamples(rendered: Box)
    ensures Place(rendered, [3, 4], false) == Ok(rendered.(x := 3, y := 4))
    ensures Place(rendered, [3, 4], true) == Err(ValueError)
    ensures Place(rendered, [0, 0, 100, 50], true).Ok? &&
            CenterX(Place(rendered, [0, 0, 100, 50], true).value) == 50 &&
            CenterY(Place(rendered, [0, 0, 100, 50], true).value) == 25
  {
  }
}

=== FILE: starfield.dfy ===
/** The parallax starfield background (objects/starfield.py). Each star is
    `[x, y, speed, magnitude, colour]`; stars scroll left by their speed and
    are replaced by a fresh star at the right edge once they would leave.
    The random module is an oracle: `rnd(k)` holds the raw draws used for
    the `k`-th star, which `randrange` and `choice` reduce to their ranges. */
module Starfield {
  import opened Wrappers

  /** A star; `grey` is the common value of the three colour components. */
  datatype Star = Star(x: int, y: int, speed: int, mag: int, grey: int)

  /** The raw random values behind one star. */
  datatype Draw = Draw(x: nat, y: nat, speed: nat, mag: nat, grey: nat)

  datatype Starfield = Starfield(width: int, height: int, stars: seq<Star>)

  const SPEEDS: seq<int> := [2, 4, 6]
  const MAGNITUDES: seq<int> := [1, 2, 3]
  const GREYS: seq<int> := [100, 200, 250]

  /** `randrange(0, stop)`: an empty range raises `ValueError`. */
  function RandRange(stop: int, d: nat): (r: Result<int>)
    ensures r.Ok? <==> stop > 0
    ensures r.Ok? ==> 0 <= r.value < stop
  {
    if stop <= 0 then Err(ValueError) else Ok(d % stop)
  }

  /** `choice(options)` on a non-empty list. */
  function Choice(options: seq<int>, d: nat): (v: int)
    requires |options| > 0
    ensures v in options
  {
    options[d % |options|]
  }

  /** The ranges `__create_star` draws from. */
  predicate ValidStar(s: Star, height: int) {
    0 <= s.y <= height - 2 && s.speed in SPEEDS && s.mag in MAGNITUDES && s.grey in GREYS
  }

  /** `__create_star(x)`. */
  function CreateStar(x: int, height: int, d: Draw): (r: Result<Star>)
    ensures r.Ok? <==> height > 1
    ensures r.Err? ==> r.error == ValueError
    ensures r.Ok? ==> r.value.x == x && ValidStar(r.value, height)
  {
    var y :- RandRange(height - 1, d.y);
    Ok(Star(x, y, Choice(SPEEDS, d.speed), Choice(MAGNITUDES, d.mag), Choice(GREYS, d.grey)))
  }

  /** Every star `__create_star` can produce at `x` is produced by some draw. */
  lemma CreateStarCoversRanges(x: int, height: int, s: Star)
    requires s.x == x && ValidStar(s, height)
    ensures exists d :: CreateStar(x, height, d) == Ok(s)
  {
    var i :| 0 <= i < 3 && SPEEDS[i] == s.speed;
    var j :| 0 <= j < 3 && MAGNITUDES[j] == s.mag;
    var k :| 0 <= k < 3 && GREYS[k] == s.grey;
    var d := Draw(0, s.y, i, j, k);
    assert CreateStar(x, height, d) == Ok(s);
  }

  /** The stars of the constructor, from the `k`-th on. */
  function CreateStars(width: int, height: int, count: nat, rnd: nat -> Draw, k: nat): (r: Result<seq<Star>>)
    requires k <= count
    ensures k == count ==> r == Ok([])
    ensures k < count ==> (r.Ok? <==> width > 1 && height > 1)
    ensures r.Err? ==> r.error == ValueError
    ensures r.Ok? ==> |r.value| == count - k
    ensures r.Ok? ==> forall i :: 0 <= i < |r.value| ==> ValidStar(r.value[i], height) && 0 <= r.value[i].x < width - 1
    decreases count - k
  {
    if k == count then Ok([])
    else
      var x :- RandRange(width - 1, rnd(k).x);
      var s :- CreateStar(x, height, rnd(k));
      var rest :- CreateStars(width, height, count, rnd, k + 1);
      Ok([s] + rest)
  }

  /** `Starfield(size, count)`: exactly `count` valid stars, each somewhere
      in `[0, width - 2]`; a window one pixel wide or tall makes `randrange`
      fail as soon as a star is drawn. */
  function NewStarfield(width: int, height: int, count: nat, rnd: nat -> Draw): (r: Result<Starfield>)
    ensures count == 0 ==> r == Ok(Starfield(width, height, []))
    ensures count > 0 ==> (r.Ok? <==> width > 1 && height > 1)
    ensures r.Ok? ==> r.value.width == width && r.value.height == height && |r.value.stars| == count
    ensures r.Ok? ==> Valid(r.value)
  {
    var stars :- CreateStars(width, height, count, rnd, 0);
    Ok(Starfield(width, height, stars))
  }

  /** The invariant of a starfield: every star is in range and not right of
      the right edge. */
  predicate Valid(f: Starfield) {
    forall i :: 0 <= i < |f.stars| ==> ValidStar(f.stars[i], f.height) && f.stars[i].x <= f.width
  }

  /** Whether a star stays on the screen for the next frame. */
  predicate Scrolls(s: Star) {
    s.x - s.speed > 0
  }

  /** The stars of `update`, from the `k`-th on. */
  function UpdateStars(f: Starfield, rnd: nat -> Draw, k: nat): (r: Result<seq<Star>>)
    requires k <= |f.stars|
    ensures r.Ok? <==> f.height > 1 || forall i :: k <= i < |f.stars| ==> Scrolls(f.stars[i])
    ensures r.Ok? ==> |r.value| == |f.stars| - k
    ensures r.Ok? ==> forall i :: k <= i < |f.stars| ==>
              var s, s' := f.stars[i], r.value[i - k];
              (Scrolls(s) ==> s' == s.(x := s.x - s.speed)) &&
              (!Scrolls(s) ==> s'.x == f.width && ValidStar(s', f.height))
    decreases |f.stars| - k
  {
    if k == |f.stars| then Ok([])
    else
      var s := f.stars[k];
      var s' :- if Scrolls(s) then Ok(s.(x := s.x - s.speed)) else CreateStar(f.width, f.height, rnd(k));
      var rest :- UpdateStars(f, rnd, k + 1);
      Ok([s'] + rest)
  }

  /** `update(canvas_size)`: every star either scrolls left by its speed,
      keeping everything else, or is replaced by a fresh star at the right
      edge. The number of stars never changes. */
  function Update(f: Starfield, rnd: nat -> Draw): (r: Result<Starfield>)
    ensures r.Ok? <==> f.height > 1 || forall i :: 0 <= i < |f.stars| ==> Scrolls(f.stars[i])
    ensures r.Ok? ==> r.value.width == f.width && r.value.height == f.height && |r.value.stars| == |f.stars|
    ensures r.Ok? ==> forall i :: 0 <= i < |f.stars| && Scrolls(f.stars[i]) ==>
              r.value.stars[i] == f.stars[i].(x := f.stars[i].x - f.stars[i].speed)
    ensures r.Ok? ==> forall i :: 0 <= i < |f.stars| && !Scrolls(f.stars[i]) ==> r.value.stars[i].x == f.width
  {
    var stars :- UpdateStars(f, rnd, 0);
    Ok(f.(stars := stars))
  }

  /** `update` keeps the starfield valid. */
  lemma UpdateKeepsValid(f: Starfield, rnd: nat -> Draw)
    requires Valid(f) && Update(f, rnd).Ok?
    ensures Valid(Update(f, rnd).value)
  {
    var f' := Update(f, rnd).value;
    var stars := UpdateStars(f, rnd, 0).value;
    forall i | 0 <= i < |f'.stars|
      ensures ValidStar(f'.stars[i], f'.height) && f'.stars[i].x <= f'.width
    {
      assert f'.stars[i] == stars[i - 0];
    }
  }

  /** `n` frames in a row, the `j`-th with its own random draws. */
  function Frames(f: Starfield, rnds: seq<nat -> Draw>): Result<Starfield>
    decreases |rnds|
  {
    if |rnds| == 0 then Ok(f)
    else
      var f1 :- Update(f, rnds[0]);
      Frames(f1, rnds[1..])
  }

  /** A started starfield keeps its size and its validity for ever. */
  lemma {:induction false} FramesKeepValid(f: Starfield, rnds: seq<nat -> Draw>)
    requires Valid(f) && Frames(f, rnds).Ok?
    ensures Valid(Frames(f, rnds).value) && |Frames(f, rnds).value.stars| == |f.stars|
    decreases |rnds|
  {
    if |rnds| > 0 {
      UpdateKeepsValid(f, rnds[0]);
      FramesKeepValid(Update(f, rnds[0]).value, rnds[1..]);
    }
  }
}

=== FILE: text.dfy ===
/** On-screen text (engine/text.py): a rendered surface placed in a
    rectangle, which can be hidden and can blink. Fonts and rendering are
    outside the model: a rendered text is its size in pixels. */
module Text {
  import opened Wrappers
  import opened PyNum

  /** A `pygame.Rect`: integer position and size. */
  datatype Box = Box(x: int, y: int, w: nat, h: nat)

  /** `GameFont.GameText`: where the surface goes, the blink state and the
      visibility. */
  datatype GameText = GameText(rect: Box, blinkOn: bool, visible: bool)

  /** `GameText(surface, rect)`: visible, blink state on. */
  function NewText(rect: Box): (t: GameText)
    ensures t.visible && t.blinkOn && t.rect == rect
  {
    GameText(rect, true, true)
  }

  /** `Rect.centerx` and `Rect.centery`. */
  function CenterX(b: Box): int {
    b.x + Half(b.w)
  }

  function CenterY(b: Box): int {
    b.y + Half(b.h)
  }

  /** Assigning `Rect.centerx, Rect.centery`: the box moves, its size stays,
      and reading the centre back gives what was assigned. */
  function SetCenter(b: Box, cx: int, cy: int): (b': Box)
    ensures CenterX(b') == cx && CenterY(b') == cy
    ensures b'.w == b.w && b'.h == b.h
  {
    b.(x := cx - Half(b.w), y := cy - Half(b.h))
  }

  /** `render_text(text, position)`: the surface's top-left at `position`. */
  function RenderText(w: nat, h: nat, x: int, y: int): (t: GameText)
    ensures t.rect == Box(x, y, w, h) && t.visible && t.blinkOn
  {
    NewText(Box(x, y, w, h))
  }

  /** `render_text_centered(text, (x, y, w, h))`: the surface's centre at
      `((x + w) // 2, (y + h) // 2)`. */
  function RenderTextCentered(w: nat, h: nat, x: int, y: int, rw: int, rh: int): (t: GameText)
    ensures CenterX(t.rect) == FloorDiv(x + rw, 2) && CenterY(t.rect) == FloorDiv(y + rh, 2)
    ensures t.rect.w == w && t.rect.h == h && t.visible && t.blinkOn
  {
    NewText(SetCenter(Box(0, 0, w, h), FloorDiv(x + rw, 2), FloorDiv(y + rh, 2)))
  }

  /** `(x + w) // 2` is the midpoint of `x` and `w`: the argument is a pair
      of corners, and the centre lies between them. For the rectangle
      `(0, 0, W, H)` this is the middle of the window. */
  lemma CenteredBetweenCorners(w: nat, h: nat, x: int, y: int, x2: int, y2: int)
    requires x <= x2 && y <= y2
    ensures var c := RenderTextCentered(w, h, x, y, x2, y2).rect;
            x <= CenterX(c) <= x2 && y <= CenterY(c) <= y2
  {
  }

  /** `hide()`. */
  function Hide(t: GameText): (t': GameText)
    ensures !t'.visible && t'.rect == t.rect && t'.blinkOn == t.blinkOn
  {
    t.(visible := false)
  }

  /** `blink()`: toggles the blink state only. */
  function Blink(t: GameText): (t': GameText)
    ensures t'.blinkOn != t.blinkOn && t'.visible == t.visible && t'.rect == t.rect
  {
    t.(blinkOn := !t.blinkOn)
  }

  /** `update(bounds)`: nothing changes. */
  function Update(t: GameText): (t': GameText)
    ensures t' == t
  {
    t
  }

  /** `draw(screen)`: the rectangle blitted, if any. */
  function Draw(t: GameText): (blit: Option<Box>)
    ensures blit.Some? <==> t.visible && t.blinkOn
    ensures blit.Some? ==> blit.value == t.rect
  {
    if t.visible && t.blinkOn then Some(t.rect) else None
  }

  /** Blinking twice changes nothing. */
  lemma BlinkTwice(t: GameText)
    ensures Blink(Blink(t)) == t
  {
  }

  /** `n` blinks in a row, as a timed event does. */
  function Blinks(t: GameText, n: nat): GameText
    decreases n
  {
    if n == 0 then t else Blink(Blinks(t, n - 1))
  }

  /** After `n` blinks the text is drawn on every other frame: exactly when
      it is visible and the parity of `n` brings the blink state back on. */
  lemma {:induction false} BlinkParity(t: GameText, n: nat)
    ensures Blinks(t, n).rect == t.rect && Blinks(t, n).visible == t.visible
    ensures Blinks(t, n).blinkOn <==> (t.blinkOn <==> n % 2 == 0)
    ensures Draw(Blinks(t, n)).Some? <==> t.visible && (t.blinkOn <==> n % 2 == 0)
    decreases n
  {
    if n > 0 {
      BlinkParity(t, n - 1);
    }
  }
}

=== FILE: util.dfy ===
/** Utilities of the engine (engine/util.py): dot-path lookup into nested
    dictionaries, the reversing generator, deferred commands and value
    references. */
module Util {
  import opened Wrappers

  /** A value of the game's configuration: a dictionary keyed by strings, or
      any other value, on which `in` and subscripting are not defined. */
  datatype Value = Dict(entries: map<string, Value>) | Scalar(n: int)

  /** `path.split('.')`: never empty, and an empty path or an empty
      segment between two dots is an empty string. */
  function Split(path: string): (parts: seq<string>)
    ensures |parts| >= 1
    ensures forall k :: 0 <= k < |parts| ==> '.' !in parts[k]
  {
    if |path| == 0 then [""]
    else
      var rest := Split(path[1..]);
      if path[0] == '.' then [""] + rest
      else [[path[0]] + rest[0]] + rest[1..]
  }

  /** `'.'.join(parts)`. */
  function Join(parts: seq<string>): string
    requires |parts| >= 1
  {
    if |parts| == 1 then parts[0] else parts[0] + "." + Join(parts[1..])
  }

  /** Splitting undoes joining: every dot in the joined path separates two
      segments. */
  lemma {:induction false} JoinSplit(path: string)
    ensures Join(Split(path)) == path
  {
    if |path| > 0 {
      JoinSplit(path[1..]);
      var rest := Split(path[1..]);
      if path[0] == '.' {
        assert path == "." + path[1..];
      } else if |rest| == 1 {
        assert path == [path[0]] + path[1..];
      } else {
        assert Join(rest) == rest[0] + "." + Join(rest[1..]);
        assert path == [path[0]] + path[1..];
      }
    }
  }

  /** A dot-free prefix extends the first segment of what follows it. */
  lemma {:induction false} SplitDotFreePrefix(a: string, t: string)
    requires '.' !in a
    ensures Split(a + t) == [a + Split(t)[0]] + Split(t)[1..]
  {
    if |a| > 0 {
      var st := Split(t);
      SplitDotFreePrefix(a[1..], t);
      assert (a + t)[0] == a[0] && a[0] != '.';
      assert (a + t)[1..] == a[1..] + t;
      var rest := Split(a[1..] + t);
      assert rest[0] == a[1..] + st[0] && rest[1..] == st[1..];
      assert [a[0]] + (a[1..] + st[0]) == a + st[0];
    } else {
      var st := Split(t);
      assert a + t == t;
      assert a + st[0] == st[0];
      assert st == [st[0]] + st[1..];
    }
  }

  /** Joining undoes splitting, for segments that hold no dot. */
  lemma {:induction false} SplitJoin(parts: seq<string>)
    requires |parts| >= 1
    requires forall k :: 0 <= k < |parts| ==> '.' !in parts[k]
    ensures Split(Join(parts)) == parts
  {
    if |parts| == 1 {
      SplitDotFreePrefix(parts[0], "");
      assert parts[0] + "" == parts[0];
    } else {
      SplitJoin(parts[1..]);
      var rest := Join(parts[1..]);
      assert parts[0] + "." + rest == parts[0] + ("." + rest);
      SplitDotFreePrefix(parts[0], "." + rest);
      assert ("." + rest)[1..] == rest;
      assert Split("." + rest) == [""] + parts[1..];
      assert parts[0] + "" == parts[0];
      assert parts == [parts[0]] + parts[1..];
    }
  }

  /** The walk of `get_value` down the segments `segs` from `d`: a missing
      key yields `default`; a segment applied to a non-dictionary is the
      `TypeError` of `in`. */
  function Walk(d: Value, segs: seq<string>, default: Value): Result<Value>
    decreases |segs|
  {
    if |segs| == 0 then Ok(d)
    else match d
      case Scalar(_) => Err(TypeError)
      case Dict(m) => if segs[0] in m then Walk(m[segs[0]], segs[1..], default) else Ok(default)
  }

  /** `get_value(data, path, default)`. */
  method GetValue(data: Value, path: string, default: Value) returns (r: Result<Value>)
    ensures r == Walk(data, Split(path), default)
    ensures data.Dict? && Split(path)[0] !in data.entries ==> r == Ok(default)
    ensures data.Scalar? ==> r == Err(TypeError)
  {
    var segs := Split(path);
    if !data.Dict? {
      return Err(TypeError);
    }
    if segs[0] !in data.entries {
      return Ok(default);
    }
    var d := data.entries[segs[0]];
    var i := 1;
    while i < |segs|
      invariant 1 <= i <= |segs|
      invariant Walk(data, segs, default) == Walk(d, segs[i..], default)
    {
      assert segs[i..][1..] == segs[i + 1..];
      if !d.Dict? {
        return Err(TypeError);
      }
      if segs[i] !in d.entries {
        return Ok(default);
      }
      d := d.entries[segs[i]];
      i := i + 1;
    }
    return Ok(d);
  }

  /** A chain of one-entry dictionaries holding `v` under the path `segs`. */
  function Nest(segs: seq<string>, v: Value): Value
    decreases |segs|
  {
    if |segs| == 0 then v else Dict(map[segs[0] := Nest(segs[1..], v)])
  }

  /** Walking down the path a value was stored under finds it. */
  lemma {:induction false} WalkNest(segs: seq<string>, v: Value, default: Value)
    ensures Walk(Nest(segs, v), segs, default) == Ok(v)
    decreases |segs|
  {
    if |segs| > 0 {
      WalkNest(segs[1..], v, default);
    }
  }

  /** Once a segment is missing, the walk yields `default` and does not look
      at the segments after it. */
  lemma {:induction false} WalkMissing(pre: seq<string>, m: map<string, Value>, key: string, post: seq<string>, default: Value)
    requires key !in m
    ensures Walk(Nest(pre, Dict(m)), pre + [key] + post, default) == Ok(default)
    decreases |pre|
  {
    if |pre| > 0 {
      WalkMissing(pre[1..], m, key, post, default);
      assert (pre + [key] + post)[1..] == pre[1..] + [key] + post;
    } else {
      assert pre + [key] + post == [key] + post;
    }
  }

  /** `get_value` finds a value stored under a dotted path. */
  lemma GetValueNest(segs: seq<string>, v: Value, default: Value)
    requires |segs| >= 1
    requires forall k :: 0 <= k < |segs| ==> '.' !in segs[k]
    ensures Walk(Nest(segs, v), Split(Join(segs)), default) == Ok(v)
  {
    SplitJoin(segs);
    WalkNest(segs, v, default);
  }

  /** The elements of `s` from last to first. */
  function Reverse<T>(s: seq<T>): (r: seq<T>)
    ensures |r| == |s|
    ensures forall k :: 0 <= k < |s| ==> r[k] == s[|s| - 1 - k]
  {
    if |s| == 0 then [] else Reverse(s[1..]) + [s[0]]
  }

  /** `list_reverse(lst)`: the generator's yields, collected. */
  method ListReverse<T>(lst: seq<T>) returns (r: seq<T>)
    ensures |r| == |lst|
    ensures forall k :: 0 <= k < |lst| ==> r[k] == lst[|lst| - 1 - k]
  {
    var c := |lst|;
    r := [];
    while c > 0
      invariant 0 <= c <= |lst|
      invariant |r| == |lst| - c
      invariant forall k :: 0 <= k < |r| ==> r[k] == lst[|lst| - 1 - k]
    {
      c := c - 1;
      r := r + [lst[c]];
    }
  }

  /** Reversing twice gives back the list. */
  lemma ReverseInvolutive<T>(s: seq<T>)
    ensures Reverse(Reverse(s)) == s
  {
    assert forall k :: 0 <= k < |s| ==> Reverse(Reverse(s))[k] == s[k];
  }

  /** `Command(command, *args, **kwargs)`. */
  datatype Command<F, A> = Command(command: F, args: seq<A>, kwargs: map<string, A>)

  /** `Command.__call__`: the stored call, through `invoke`, which stands for
      Python's call of a callable with positional and keyword arguments. */
  function Call<F, A, R>(c: Command<F, A>, callArgs: seq<A>, callKwargs: map<string, A>,
                         invoke: (F, seq<A>, map<string, A>) -> R): R
  {
    invoke(c.command, c.args, c.kwargs)
  }

  /** A command's result depends only on what was stored: the arguments of
      the call itself are dropped. */
  lemma CallIgnoresArguments<F, A, R>(c: Command<F, A>, a1: seq<A>, k1: map<string, A>, a2: seq<A>, k2: map<string, A>,
                                      invoke: (F, seq<A>, map<string, A>) -> R)
    ensures Call(c, a1, k1, invoke) == Call(c, a2, k2, invoke) == invoke(c.command, c.args, c.kwargs)
  {
  }

  /** `ValueReference(value)`. */
  datatype ValueReference<T> = ValueReference(value: T)

  /** `ValueReference.__call__`: gives back exactly the value the reference
      was built with. */
  function Get<T>(ref: ValueReference<T>): (v: T)
    ensures ValueReference(v) == ref
  {
    ref.value
  }
}

=== FILE: vec.dfy ===
/** Positions and movement deltas: the `(x, y)` pairs the engine passes
    around, over exact reals. */
module Vectors {

  datatype Vec = Vec(x: real, y: real) {

    function Plus(d: Vec): Vec {
      Vec(x + d.x, y + d.y)
    }

    function Scale(k: real): Vec {
      Vec(k * x, k * y)
    }
  }

  /** A rectangle `(x, y, w, h)`: the window bounds handed to every
      `update`, and the bounds of rectangular objects. */
  datatype Rect = Rect(x: real, y: real, w: real, h: real)
}

=== FILE: wrappers.dfy ===
/** Failure-carrying result types shared by every module of the model.

    The engine signals failure with Python exceptions; each fallible
    operation of the model returns a `Result` whose `Err` names the kind of
    exception the source raises at that point. */
module Wrappers {

  /** Python's `None` versus a present value. */
  datatype Option<+T> = None | Some(value: T) {

    function GetOr(default: T): T {
      match this
      case Some(v) => v
      case None => default
    }
  }

  /** The kind of exception an operation of the engine raises. */
  datatype Error =
    | KeyError           // a missing dictionary key or set member
    | IndexError         // an index outside a sequence
    | ValueError         // a tuple unpacked into the wrong number of names, an empty random range
    | TypeError          // an operation applied to a value of the wrong type
    | ZeroDivisionError  // a division by zero
    | AttributeError     // a missing attribute or method
    | AmbiguousObject    // `Scene.get_object` found more than one object with the name
    | AudioError         // `Scene._play_audio` could not play the track it was given

  /** The value an operation returns, or the exception it raises. */
  datatype Result<+T> = Ok(value: T) | Err(error: Error) {

    predicate IsFailure() {
      Err?
    }

    function PropagateFailure<U>(): Result<U>
      requires Err?
    {
      Err(error)
    }

    function Extract(): T
      requires Ok?
    {
      value
    }
  }
}
